=== FILE: README.md ===
# Fitness Timer — a Dafny model of its workout engine

Fitness Timer is a browser application for interval workouts. A user keeps a library of
*programs*. Each program is an ordered list of *exercises*, and each exercise has sets, reps,
timed moves, rests between moves and reps, and a rest between sets. The application:

- unrolls an exercise or a whole program into a flat *queue* of timed steps and counts it down
  once a second, with sounds, spoken countdowns and skip / step / jump controls;
- estimates the time a program takes;
- imports and exports programs as JSON;
- keeps a calendar of workout days with a streak and monthly statistics.

This project models that core as pure Dafny functions over immutable data. It proves what
each operation promises about its result.

The modules follow the source files:

| module | file | models |
|---|---|---|
| `Options`, `Text`, `Search` | options.dfy, text.dfy, search.dfy | Option type; trimming, lower-casing, `parseInt` prefixes, number printing; first-match search |
| `Workout` | workout.dfy | the stored program and exercise records, `parseInt(x) > 0 ? … : 1` style defaults, colour and sound look-ups, the spoken countdown |
| `Durations` | durations.dfy | the program rest settings: the rest-duration text format, its editor prefill and per-exercise custom rests (`src/features/program-timer.js`) |
| `ProgramQueue`, `QueueCounts` | program_queue.dfy, queue_counts.dfy | normalising exercises and building the program timer queue; closed-form step counts |
| `ProgramEngine`, `EngineProps` | program_engine.dfy, engine_props.dfy | the program timer: run step, tick, pause/resume/stop/start/restart, skips, stepping, jumps, button states |
| `ProgramSummary` | program_summary.dfy | the summary panel: duration estimate, remaining time, completed exercises, remaining sets |
| `ExerciseOrder` | exercise_order.dfy | reordering and removing exercises of the current program |
| `ExerciseTimer`, `TimerProps` | exercise_timer.dfy, timer_props.dfy | the single-exercise timer of `src/features/timer.js` |
| `Exercises` | exercises.dfy | adding an exercise and saving the detail form (`src/features/exercises.js`) |
| `Programs` | programs.dfy | the program library: load, create, open, delete, the dropdown (`src/features/programs.js`, `js/programs.js`) |
| `Transfer` | transfer.dfy | import and export of programs (`src/features/settings.js`) |
| `Calendar` | calendar.dfy | workout days, streak, month count, the month grid, the stats cards (`js/calendar.js`) |

How the model represents the source:

- **Numbers read from storage or forms.** A JavaScript `parseInt` result is `Num = Option<int>`,
  where `None` stands for `NaN` or an absent field. The empty string stands for an absent text
  field.
- **Moves.** An exercise's `moves` is `Option<seq<Move>>`: `None` when the record has no moves
  array, which the readers treat differently from an empty array.
- **Ids.** A program id is `NumId` (from `Date.now()`) or `StrId` (from an import or the dropdown).
  The source's `===` is datatype equality.
- **Timers.** Each `setInterval` callback is a `Ticker` in a map from interval handle to ticker
  state. The source's `timer` / `programTimer` variable is `handle`, and `clearInterval(handle)`
  removes that one entry. One tick of ticker `id` is `Fire(e, id)`.
- **Sounds and speech.** They are appended to a `cues` log.
- **Inputs.** `confirm()` answers, the clock (`Date.now()`, `new Date()`), generated ids,
  `localStorage` contents (`Stored`) and parsed JSON (`Json`) are parameters.

## Model

| member | source | states |
|---|---|---|
| Text.TrimSpec | src/features/programs.js:201 | `trim()` removes exactly a blank prefix and a blank suffix; the result neither starts nor ends with a space |
| Text.TrimEmptyIffBlank | src/features/programs.js:201-205 | a name is rejected as empty exactly when it is all white space |
| Text.ContainsSpec | src/features/program-timer.js:1098 | `includes` holds exactly when the text occurs at some position |
| Text.NatToStringRoundTrip | src/features/program-timer.js:741-745 | printing a number in decimal and reading the digits back gives the number |
| Text.NatToStringInjective | src/features/settings.js:470 | different numbers print differently |
| Text.PadStart2 | js/calendar.js:161 | `padStart(2, '0')` keeps the text as its suffix, pads with zeros only, and reaches length 2 |
| Text.FirstDigitRun | src/features/program-timer.js:1066-1069 | a match exists exactly when the text has a digit; it is the whole digit run that starts after a digit-free prefix, i.e. the first maximal run |
| Text.ParseIntPrefixOfPrinted | src/features/program-timer.js:1072-1074 | `parseInt` of a printed number followed by a non-digit gives the number |
| Workout.PositiveOr1 | src/features/program-timer.js:65-66 | a count is the parsed value when positive; zero, a negative value or `NaN` gives 1 |
| Workout.Resolve | src/features/timer.js:63 | `playSound` plays the named sound when it exists and the beep for any other name |
| Workout.CountdownWord | src/features/timer.js:454-455 | a word is spoken exactly for 1 to 5 seconds |
| Workout.CountdownWordInjective | src/features/timer.js:454 | different seconds get different words |
| Workout.Announce | src/features/timer.js:452-459 | a rest second from 5 down to 1 is announced once: only when it differs from the last one announced |
| Search.FindFrom | src/features/program-timer.js:396-403 | the search returns the first index from `from` on that satisfies the test, or none when none does |
| Search.FindFromUnique | src/features/program-timer.js:396-403 | the first satisfying index is the one found |
| Durations.ParseTimeTextAccepts | src/features/program-timer.js:1083-1107 | digits, optional blanks and a minute unit (min, minut, minute, minuts, minutes) read as that many minutes in seconds; with a second unit (sec, secon, second, secons, seconds) as that many seconds |
| Durations.ParseTimeTextShape | src/features/program-timer.js:1083-1107 | every accepted text is digits, blanks and a unit word, and its value is given by that unit |
| Durations.JsRem | src/features/program-timer.js:998-999 | JavaScript `%` agrees with the mathematical remainder on non-negative numbers; on a negative dividend it is the negated remainder of its magnitude, between -b and 0 and congruent to the dividend |
| Durations.PrefillRoundTrip | src/features/program-timer.js:991-1010 | the editor's prefill of a rest reads back as the rest rounded down to whole minutes once it is a minute or more; it reads back unchanged exactly when it is under a minute or whole minutes |
| Durations.PrefillReadersAgree | src/features/program-timer.js:1051-1107 | the rest editor's parser and the default-rest reader agree on every prefilled text |
| Durations.DefaultRestOfNumber | src/features/program-timer.js:1070-1075 | a bare number in the default rest field is that many seconds |
| Durations.DefaultRestMinutes | src/features/program-timer.js:1065-1067 | "N minutes" in the default rest field is N·60 seconds |
| Durations.DefaultRestSeconds | src/features/program-timer.js:1068-1069 | "N seconds" in the default rest field is N seconds |
| ProgramQueue.RestOfIsRestFor | src/features/program-timer.js:1051-1081 | the rest settings read once give every exercise the rest the per-exercise look-up gives it: its custom rest when it has one, the default-rest field otherwise |
| Durations.SaveRestDuration | src/features/program-timer.js:1018-1049 | a custom rest is stored exactly when an exercise is being edited and the input parses; only that entry changes |
| Durations.SavedRestTakesEffect | src/features/program-timer.js:1018-1060 | after saving, the edited exercise's rest is the saved value and every other exercise's rest is unchanged |
| ProgramQueue.NormalizeMove | src/features/program-timer.js:89-93 | a normalised move has a duration of at least 1 and a name and colour |
| ProgramQueue.KeepTimedKeepsAll | src/features/program-timer.js:94 | the duration filter after normalising removes nothing |
| ProgramQueue.NormalizeMoves | src/features/program-timer.js:88-93 | normalising keeps one move per move, in order |
| ProgramQueue.Normalize | src/features/program-timer.js:63-94 | the normalised exercise has a default name "Exercise i+1", counts of at least 1, zero-defaulted rests, and its own or default moves with durations of at least 1; a missing moves array counts as an empty one |
| ProgramQueue.WithDefaultMoves | src/features/program-timer.js:73-85 | the build writes the default moves into the stored exercise exactly when its moves array is empty; afterwards no array is empty, and a record without an array is left as it was |
| ProgramQueue.WrittenBack | src/features/program-timer.js:61-85 | the build leaves every exercise of the program written back, in order |
| ProgramQueue.WriteBackOnce | src/features/program-timer.js:73-85 | writing the default moves back is idempotent: a second start leaves the program as the first one did |
| ProgramQueue.WriteBackKeepsPlan | src/features/program-timer.js:63-94 | a written-back exercise normalises to the same plan as before |
| ProgramQueue.WriteBackKeepsQueue | src/features/program-timer.js:61-176 | the program the build leaves behind builds the same queue again |
| ProgramQueue.MoveSteps | src/features/program-timer.js:99-127 | the moves of one rep are queued in order, each followed by a move rest unless it is the last one |
| ProgramQueue.RepSteps | src/features/program-timer.js:98-142 | a rep starts with its first move and holds no set or program rest |
| ProgramQueue.RepsFrom | src/features/program-timer.js:98-143 | the reps of a set are numbered from r to the rep count and start with rep r's first move |
| ProgramQueue.SetSteps | src/features/program-timer.js:97-155 | a set starts with its first move and holds no program rest |
| ProgramQueue.SetsFrom | src/features/program-timer.js:97-156 | the sets of an exercise are numbered from s to the set count |
| ProgramQueue.ExerciseSteps | src/features/program-timer.js:97-156 | an exercise's steps start with set 1, rep 1, move 1 and carry set numbers within the set count |
| ProgramQueue.SetsFromOrdered | src/features/program-timer.js:97-156 | set numbers never decrease along an exercise |
| ProgramQueue.ExerciseStepsOrdered | src/features/program-timer.js:97-156 | set numbers never decrease along an exercise |
| ProgramQueue.ProgramRestColor | src/features/program-timer.js:56 | the program rest colour is the selected button's key; with no selected button or an empty key it is blue |
| ProgramQueue.ProgramRestAfter | src/features/program-timer.js:158-170 | a program rest follows an exercise exactly when it is not the last one and its rest is positive |
| ProgramQueue.ExerciseBlock | src/features/program-timer.js:61-171 | each exercise contributes a non-empty block of steps labelled with its index |
| ProgramQueue.ConcatShape | src/features/program-timer.js:61-171 | the concatenated queue is non-empty exactly when there are blocks, and exercise indexes never decrease |
| ProgramQueue.BuildQueueShape | src/features/program-timer.js:58-177 | the queue is empty exactly when the program has no exercises; every step has a valid exercise index and a positive duration, in exercise order |
| ProgramQueue.ProgramRestPlacement | src/features/program-timer.js:158-170 | the queue holds a program rest after exercise j exactly when j is not the last exercise and its rest is positive |
| QueueCounts.MoveStepsTally | src/features/program-timer.js:99-127 | one rep has one step per move and one move rest between consecutive moves when rests are on |
| QueueCounts.RepStepsTally | src/features/program-timer.js:98-142 | one rep's steps add a rep rest unless it is the last rep |
| QueueCounts.RepsFromTally | src/features/program-timer.js:98-143 | the reps of a set have the closed-form count of moves, move rests, rep rests and seconds |
| QueueCounts.SetStepsTally | src/features/program-timer.js:97-155 | one set's steps add a set rest unless it is the last set or the rest is zero |
| QueueCounts.SetsFromTally | src/features/program-timer.js:97-156 | the sets of an exercise have the closed-form count |
| QueueCounts.ExerciseTally | src/features/program-timer.js:97-156 | an exercise queues sets·reps·moves moves, sets·reps·(moves−1) move rests and sets·(reps−1) rep rests when rests are on, sets−1 set rests when the set rest is positive, and no program rest |
| QueueCounts.TallyAppend | src/features/program-timer.js:61-171 | counts of a concatenated queue add up |
| QueueCounts.SecondsAppend | src/features/program-timer.js:747-754 | seconds of a concatenated queue add up |
| ProgramSummary.QueueTotalIsQueueLength | src/features/program-timer.js:58-171 | the per-exercise total plus the program rests is exactly the queue's length in seconds |
| ProgramSummary.EstimateOfExact | src/features/program-timer.js:628-653 | for an exercise with timed moves and non-negative counts, the summary's estimate equals the seconds its queue steps last |
| ProgramSummary.BlockSecondsExact | src/features/program-timer.js:628-666 | on exact settings each exercise's block of the queue lasts that exercise's estimate plus the program rest after it, and the last exercise has no rest after it |
| ProgramSummary.EstimateMatchesQueue | src/features/program-timer.js:628-666 | when the settings are well formed, the summary's total equals the queue's length in seconds |
| ProgramSummary.UnmovedRunsNine | src/features/program-timer.js:73-85 | an exercise stored without a moves array and with a move count of 3 runs for 9 seconds |
| ProgramSummary.WrittenBackExact | src/features/program-timer.js:73-85 | once the defaults are written back, the summary formula is exact for an exercise with a moves array, whatever its move count |
| ProgramSummary.SummaryAfterStartMatchesQueue | src/features/program-timer.js:185-190 | the summary that start shows, computed from the written-back program, equals the queue's length when every exercise has a moves array and the settings are well formed |
| ProgramSummary.EstimateMissesDefaultMoves | src/features/program-timer.js:628-640 | an exercise stored without a moves array is left so by start, and the summary then estimates it at 3 seconds while its queue runs for 9 |
| ProgramSummary.RemainingTime | src/features/program-timer.js:747-754 | the remaining time is the sum of the durations from the current step to the end, 0 past the end |
| ProgramSummary.SecondsSplit | src/features/program-timer.js:747-754 | remaining time splits at any later step |
| ProgramSummary.RemainingAtStart | src/features/program-timer.js:747-754 | at the start the remaining time is the program total; each step further on is at least a second less |
| ProgramSummary.AtLeastOnePerStep | src/features/program-timer.js:89-94 | a queue of steps of at least a second each lasts at least as many seconds as it has steps |
| ProgramSummary.FormatMinutesSeconds | src/features/program-timer.js:741-745 | minutes and seconds shown recompose the total for non-negative totals; seconds stay below 60 |
| ProgramSummary.CompletedMeansNothingLeft | src/features/program-timer.js:756-761 | an exercise counts as completed exactly when the timer is on the queue and none of that exercise's steps remain |
| ProgramSummary.ExerciseStart | src/features/program-timer.js:61-171 | every exercise of the program has a step in the queue |
| ProgramSummary.EstimateRemainingSets | src/features/program-timer.js:763-770 | before the exercise all its sets remain, after it none, and during it the sets from the current one on |
| ProgramSummary.CompletedHasNoSetsLeft | src/features/program-timer.js:756-770 | a completed exercise shows no remaining sets |
| ProgramSummary.RemainingSetsOfRunning | src/features/program-timer.js:763-770 | while an exercise runs, between 1 and all of its sets remain |
| ProgramSummary.BlockOf | src/features/program-timer.js:61-171 | every queue step comes from one exercise's block |
| ProgramEngine.ClearInterval | src/features/program-timer.js:285 | `clearInterval` stops exactly the ticker under the current handle and nothing else |
| ProgramEngine.Show | src/features/program-timer.js:194-279 | past the end the timer stops and plays the program-end sound; on a step it keeps a countdown already started for this step or starts the step's full duration, and plays the rest-start sound on a rest |
| ProgramEngine.RunStep | src/features/program-timer.js:194-323 | a run step on a live step registers one new ticker holding the countdown; a paused step registers none; past the end nothing ticks |
| ProgramEngine.Tock | src/features/program-timer.js:285-303 | a tick takes one second off the ticker and the shown countdown and changes nothing else |
| ProgramEngine.Advance | src/features/program-timer.js:313-322 | a step that runs out moves the timer to the next step |
| ProgramEngine.Fire | src/features/program-timer.js:285-323 | a tick of a dead ticker, or while paused, does nothing; above one second it counts down; at the last second it advances |
| ProgramEngine.Pause | src/features/program-timer.js:326-353 | pausing a running timer removes exactly the ticker under the handle and keeps the step, the countdown and the cues; otherwise nothing changes |
| ProgramEngine.Resume | src/features/program-timer.js:355-361 | resuming continues the same step from the countdown the pause kept, adding exactly one ticker under the new handle; past the end the program finishes; otherwise nothing changes |
| ProgramEngine.Stop | src/features/program-timer.js:363-373 | stopping a running timer goes back to step 0 and keeps the countdown; otherwise nothing changes |
| ProgramEngine.Start | src/features/program-timer.js:19-192 | an empty program does not start; otherwise the new queue starts paused at step 0 with that step's full countdown |
| ProgramEngine.StartProgram | src/features/program-timer.js:19-192 | starting also writes the default moves into every exercise whose moves array is empty and changes nothing else in the program; the written-back program builds the same queue and has no empty moves array |
| ProgramEngine.Restart | src/features/program-timer.js:375-387 | restarting rebuilds the queue and waits paused at step 0 |
| ProgramEngine.SkipExercise | src/features/program-timer.js:389-417 | skipping moves to the first step of a later exercise, or to the last step, passing only steps of the current one |
| ProgramEngine.SkipRest | src/features/program-timer.js:419-438 | skipping a program rest moves past the program rests that follow it; elsewhere it does nothing |
| ProgramEngine.SkipSetRest | src/features/program-timer.js:441-458 | skipping a set rest moves past the set rests that follow it; elsewhere it does nothing |
| ProgramEngine.SkipCurrentSet | src/features/program-timer.js:690-715 | skipping a set moves to the first move of a later set or exercise, or to the last step, passing none |
| ProgramEngine.StepForwardAsWritten | src/features/program-timer.js:496-504 | stepping forward moves one step unless at the last one and runs that step even when the timer is stopped |
| ProgramEngine.RunStepGuarded | src/features/program-timer.js:194-323 | the run step a stopped timer does not start a ticker |
| ProgramEngine.StepForward | src/features/program-timer.js:496-504 | the corrected forward step: one step on, staying on the last; a running timer behaves as written, a stopped one only loses the ticker under the handle |
| ProgramEngine.StepBackwardAsWritten | src/features/program-timer.js:506-513 | stepping back moves one step unless at the first one and runs that step even when the timer is stopped |
| ProgramEngine.StepBackward | src/features/program-timer.js:506-513 | the corrected backward step: one step back, staying on the first; a running timer behaves as written, a stopped one only loses the ticker under the handle |
| ProgramEngine.IndexForExercise | src/features/program-timer.js:668-676 | the index of the first move of the exercise, −1 exactly when it has none |
| ProgramEngine.IndexForExerciseSet | src/features/program-timer.js:678-686 | the index of the first move of that exercise's set, −1 exactly when there is none |
| ProgramEngine.JumpTo | src/features/program-timer.js:717-739 | a jump to a found step runs it unpaused; with no program, no queue or no target nothing changes |
| ProgramEngine.Buttons | src/features/program-timer.js:544-565 | every skip button is disabled while the timer is not running; past the end the buttons keep their state |
| ProgramEngine.ButtonsMatchSkips | src/features/program-timer.js:544-565 | an enabled skip-rest or skip-set-rest button means the timer is on that kind of rest; a disabled one means the skip would do nothing |
| ProgramEngine.TimerColor | src/features/program-timer.js:567-586 | the colour is always a palette colour: the selected program rest colour on a program rest, the step's colour otherwise, blue as the fallback |
| EngineProps.ClearEmpties | src/features/program-timer.js:285 | with at most the current ticker live, clearing leaves none |
| EngineProps.RunStepKeeps | src/features/program-timer.js:194-323 | a run step from no ticker leaves at most the current one |
| EngineProps.RunStepGuardedKeeps | src/features/program-timer.js:194-323 | the guarded run step leaves at most the current ticker |
| EngineProps.FireKeeps | src/features/program-timer.js:285-323 | a tick keeps at most one live ticker, the current one |
| EngineProps.StartKeeps | src/features/program-timer.js:19-192 | starting keeps at most one live ticker |
| EngineProps.SkipsKeep | src/features/program-timer.js:389-458 | every skip keeps at most one live ticker |
| EngineProps.StepsKeep | src/features/program-timer.js:496-513 | the corrected forward and backward steps keep at most one live ticker |
| EngineProps.JumpKeeps | src/features/program-timer.js:717-739 | a jump keeps at most one live ticker |
| EngineProps.ResumeKeeps | src/features/program-timer.js:326-373 | pause, resume and stop keep at most one live ticker |
| EngineProps.ApplyKeeps | src/features/program-timer.js:19-739 | in the corrected engine (corrected forward and backward steps), every user command and tick keeps at most one live ticker |
| EngineProps.RunKeeps | src/features/program-timer.js:19-739 | in the corrected engine, any sequence of commands and ticks keeps at most one live ticker |
| EngineProps.IdleHasNoTicker | src/features/program-timer.js:19-739 | in the corrected engine, from the initial state, any sequence of commands keeps at most one live ticker |
| EngineProps.StartFromIdle | src/features/program-timer.js:179-191 | starting from the initial state leaves no ticker: the first step waits paused |
| EngineProps.StoppedStepTicks | src/features/program-timer.js:496-504 | as written, stop then step forward leaves a live ticker on a stopped timer |
| EngineProps.StaleTickerDoubles | src/features/program-timer.js:19-27 | as written, starting and resuming after that gives two live tickers, each counting its own seconds |
| EngineProps.StaleTickerRunsOn | src/features/program-timer.js:286-321 | a live ticker that is not under the handle and has reached its last second ends the current step on each of its ticks and stays live, since the end of a step clears only the handle: every later step lasts about a second |
| EngineProps.StoppedStepIsStill | src/features/program-timer.js:496-504 | with the guarded run step, stepping a stopped timer starts no ticker |
| EngineProps.StoppedStepBackTicks | src/features/program-timer.js:506-513 | as written, stop then step back leaves a live ticker on a stopped timer |
| EngineProps.StoppedStepBackIsStill | src/features/program-timer.js:506-513 | with the guarded run step, stepping a stopped timer back starts no ticker |
| EngineProps.PauseResumeKeepsCountdown | src/features/program-timer.js:215-218 | pause and resume continue from the remaining seconds, not from the step's full duration |
| EngineProps.StepAtEndKeepsCountdown | src/features/program-timer.js:496-504 | stepping forward on the last step keeps its countdown |
| EngineProps.SetStart | src/features/program-timer.js:97-108 | every set of every exercise has its first move in the queue |
| EngineProps.JumpExerciseFound | src/features/program-timer.js:668-676 | a jump to an exercise finds a step exactly when the exercise exists |
| EngineProps.JumpSetFound | src/features/program-timer.js:678-686 | a jump to a set finds a step exactly when the exercise exists and the set is within its set count |
| EngineProps.SkipExerciseLands | src/features/program-timer.js:389-417 | skipping an exercise that has a successor lands on the successor's first step |
| ExerciseOrder.RemoveAt | src/features/program-timer.js:959 | `splice(i, 1)` drops the element at i, shifts the rest and keeps every other element |
| ExerciseOrder.InsertAt | src/features/program-timer.js:945 | `splice(i, 0, x)` puts x at i and shifts the rest |
| ExerciseOrder.InsertRemoved | src/features/program-timer.js:942-945 | putting a removed element back where it was restores the list |
| ExerciseOrder.RemoveInserted | src/features/program-timer.js:942-945 | removing an inserted element restores the list |
| ExerciseOrder.Reorder | src/features/program-timer.js:925-955 | a drag keeps the same exercises, puts the dragged one at the target and shifts those in between by one |
| ExerciseOrder.ReorderUndo | src/features/program-timer.js:925-955 | dragging it back undoes the drag |
| ExerciseOrder.HandleDrop | src/features/program-timer.js:925-955 | a drop changes only the order of the program's exercises |
| ExerciseOrder.RemoveExercise | src/features/program-timer.js:957-966 | a confirmed removal drops exactly that exercise and keeps the order of the others; a refused one changes nothing |
| Exercises.AddExercise | src/features/exercises.js:10-49 | a blank name or no current program adds nothing; otherwise the program gains, at its end only, the default exercise under the trimmed name (2 sets of 10 reps, one 3-second blue move "1. Move", no move rests, 30 s between sets, colours blue, green, orange) |
| Exercises.RemoveUndoesAdd | src/features/exercises.js:10-49 | removing, confirmed, the exercise just added gives the program back |
| Exercises.KeptMoves | src/features/exercises.js:354-368 | the form yields at most one move per row |
| Exercises.KeptMovesCount | src/features/exercises.js:354-368 | the form yields exactly one move per row with a positive duration |
| Exercises.KeptMovesFrom | src/features/exercises.js:354-368 | every saved move comes from such a row and has a name and a positive duration |
| Exercises.RebuildMoves | src/features/exercises.js:353-368 | the rebuild loop yields the moves of the rows with a positive duration, in row order |
| Exercises.SaveExercise | src/features/exercises.js:345-389 | saving stores the counts as read, the rebuilt moves, zero-defaulted rests and changes a colour only when its button is active |
| Exercises.StartExercise | src/features/exercises.js:391-434 | starting saves the form and starts the exercise timer on the saved exercise |
| ExerciseTimer.MoveRun | src/features/timer.js:288-312 | a rep is its moves, each followed by a move rest unless last, when rests are on |
| ExerciseTimer.RepRun | src/features/timer.js:286-325 | one rep holds no set rest |
| ExerciseTimer.RepRunsFrom | src/features/timer.js:286-326 | the reps of a set stay in that set and hold no set rest |
| ExerciseTimer.SetBody | src/features/timer.js:286-326 | the body of a set stays in that set |
| ExerciseTimer.SetRun | src/features/timer.js:285-336 | a set and its set rest carry the set number |
| ExerciseTimer.SetRunsFrom | src/features/timer.js:285-337 | set numbers stay within the set count |
| ExerciseTimer.TimerQueue | src/features/timer.js:283-337 | every step of the exercise queue carries a set number from 1 to the set count |
| ExerciseTimer.EndSound | src/features/timer.js:15-21 | the corrected end sound is the configured one when it is a known sound, and always a known sound |
| ExerciseTimer.ClearInterval | src/features/timer.js:83 | `clearInterval` stops exactly the ticker under the current handle |
| ExerciseTimer.RunStep | src/features/timer.js:355-435 | past the end the timer stops and plays the exercise-end sound; on a step it registers a fresh ticker with the step's full duration |
| ExerciseTimer.Tock | src/features/timer.js:436-438 | a tick takes a second off the ticker's countdown and changes nothing else |
| ExerciseTimer.Advance | src/features/timer.js:461-465 | a step that runs out moves to the next step |
| ExerciseTimer.Fire | src/features/timer.js:435-467 | a dead ticker or a paused timer ignores the tick; otherwise it counts down and advances when the countdown runs out |
| ExerciseTimer.FireAsWritten | src/features/timer.js:461-465 | as written, a finished step moves on and plays the beep whatever sound the user chose, because the slot's key name is passed as the sound |
| ExerciseTimer.Pause | src/features/timer.js:81-88 | pausing a running timer removes exactly the ticker under the handle and keeps the step; otherwise nothing changes |
| ExerciseTimer.ResumeAsWritten | src/features/timer.js:91-97 | as written, resuming restarts the step's countdown from full under a new ticker and keeps every ticker already live, the one under the handle included |
| ExerciseTimer.Resume | src/features/timer.js:91-97 | the corrected resume removes the ticker under the handle and adds one new ticker, so a single live ticker stays single |
| ExerciseTimer.Stop | src/features/timer.js:100-113 | stopping a running timer goes back to set 1, rep 1, move 1 at step 0 |
| ExerciseTimer.Start | src/features/timer.js:279-352 | a running timer is left alone; a record without a moves array throws at the first rep and leaves only the emptied queue; otherwise the exercise queue starts at step 0 with exactly one new ticker on its first duration |
| ExerciseTimer.Restart | src/features/timer.js:116-133 | restarting a running timer begins the rebuilt queue at its first step, unpaused, with the old interval removed and one new ticker counting the first step's full duration; an idle timer is unchanged |
| ExerciseTimer.SkipToNextSet | src/features/timer.js:166-192 | skipping a set moves to the last step of the current set |
| ExerciseTimer.SkipToNextRep | src/features/timer.js:136-163 | skipping a rep moves to the step before the next rep, or skips the set when no later rep follows |
| ExerciseTimer.SkipMove | src/features/timer.js:195-208 | skipping a move moves to the next step; off a move it does nothing |
| ExerciseTimer.SkipSetRest | src/features/timer.js:210-229 | skipping a set rest moves over the set rests that follow it; elsewhere it does nothing |
| ExerciseTimer.NextMoveName | src/features/timer.js:517-527 | the next move's name, "next rep" after the last move, "next move" without an exercise or without a moves array |
| ExerciseTimer.TimerColor | src/features/timer.js:556-572 | a move's own colour, the set rest colour or the rest colour, each falling back to its default |
| TimerProps.TimerQueueOrdered | src/features/timer.js:285-337 | set numbers never decrease along the exercise queue |
| TimerProps.SetRunsFromOrdered | src/features/timer.js:285-337 | set numbers never decrease from any set on |
| TimerProps.MoveRunLength | src/features/timer.js:288-312 | every rep has the same number of steps |
| TimerProps.RepRunsFromLength | src/features/timer.js:286-326 | every set's reps have the same number of steps |
| TimerProps.SetBodyLength | src/features/timer.js:286-326 | every set body has the same length |
| TimerProps.OnlySetRests | src/features/timer.js:285-337 | an exercise with no moves queues only set rests |
| TimerProps.SetRestEndsSet | src/features/timer.js:328-336 | a set rest is the last step of its set and only appears before a later set when the set rest is positive |
| TimerProps.AfterSetRest | src/features/timer.js:285-337 | a set rest is followed by a move or only by further set rests |
| TimerProps.SkipSetRestStays | src/features/timer.js:210-229 | on the exercise queue, skipping a set rest stays on it and restarts its countdown |
| TimerProps.SkipToNextSetLandsOnSetEnd | src/features/timer.js:166-192 | on the exercise queue, skipping a set lands on the current set's last step, before the next set |
| TimerProps.PauseResumeRestarts | src/features/timer.js:81-97 | pause and resume restart the step's countdown from its full duration |
| TimerProps.StartTicksAtOnce | src/features/timer.js:279-351 | starting from the initial state an exercise whose start does not throw runs step 0 with exactly one ticker |
| TimerProps.ApplyKeeps | src/features/timer.js:81-229 | in the corrected timer (corrected resume and end sound), every command and tick keeps at most one live ticker |
| TimerProps.RunKeeps | src/features/timer.js:81-229 | in the corrected timer (corrected resume and end sound), any sequence of commands and ticks keeps at most one live ticker |
| TimerProps.IdleHasNoTicker | src/features/timer.js:6-13 | the initial state has no ticker, and in the corrected timer no sequence of commands from it leaves two live |
| TimerProps.PausedSkipDoubles | src/features/timer.js:91-97 | as written, pause, skip move and resume leave two live tickers on the same step, each counting its own seconds |
| TimerProps.StaleTickerRunsOn | src/features/timer.js:435-466 | a live ticker that is not under the handle and has reached its last second ends the current step on each of its ticks and stays live, since the end of a step clears only the handle: every later step lasts about a second |
| TimerProps.FirstEndsAndSurvives | src/features/timer.js:435-466 | as written, after pause, skip move and resume, the countdown started while paused ends the step first; the end of the step clears only the countdown under the handle, so the one started while paused outlives it as a stale countdown |
| TimerProps.PausedSkipResumedOnce | src/features/timer.js:91-97 | with the corrected resume, the same sequence leaves one ticker |
| TimerProps.EndSoundAsWrittenIsBeep | src/features/timer.js:463 | as written, every step end plays "beep" |
| TimerProps.DefaultRestEndIsBell | src/features/timer.js:15-21 | with the default settings a rest ends with "bell", which the code as written never plays |
| TimerProps.NextRepLabel | src/features/timer.js:530-540 | "Rep n" is shown exactly when a later rep exists, and n is the next rep's number |
| TimerProps.NextSetLabel | src/features/timer.js:543-553 | "Set n" is shown exactly when a later set exists, and n is the next set's number |
| Programs.LoadSaved | src/features/programs.js:188-197 | saving and loading the list gives it back |
| Programs.CreateProgram | src/features/programs.js:200-240 | a blank or already used name creates nothing; otherwise one program with the trimmed name and a numeric id is appended and becomes current |
| Programs.CreateKeepsNamesDistinct | src/features/programs.js:207-211 | creating programs keeps names unique |
| Programs.Find | src/features/programs.js:250 | `find` returns the first program with the id, and none exactly when no program has it |
| Programs.OpenAt | src/features/programs.js:104-149 | opening an index in range makes that program current and keeps the list; an index out of range does nothing |
| Programs.OpenAtAgreesWithLoad | src/features/programs.js:104-149 | with distinct ids, opening the i-th program and loading it by its id make the same program current |
| Programs.LoadProgram | src/features/programs.js:243-262 | loading reloads the list and makes the program with the id current when there is one; otherwise the current program stays |
| Programs.Without | src/features/programs.js:273 | the filter keeps no program with the id |
| Programs.WithoutMembers | src/features/programs.js:273 | a program is kept exactly when it was there and has another id |
| Programs.WithoutAppend | src/features/programs.js:273 | the filter keeps the order |
| Programs.WithoutAbsent | src/features/programs.js:273 | with no program of that id the list is unchanged |
| Programs.DeleteProgram | src/features/programs.js:265-286 | a confirmed delete of an existing id removes it and clears the current program if it was the deleted one; otherwise only the reload happens |
| Programs.WithoutShrinks | src/features/programs.js:270-273 | deleting an existing id shortens the list |
| Programs.WithoutKeepsNamesDistinct | src/features/programs.js:273 | deleting keeps names unique |
| Programs.DropdownId | src/features/programs.js:355-358 | the dropdown always passes the id as a string |
| Programs.OpenFromDropdownAsWritten | src/features/programs.js:355 | as written, with numeric ids, Open from the dropdown never changes the current program |
| Programs.DeleteFromDropdownAsWritten | src/features/programs.js:358 | as written, with numeric ids, delete from the dropdown only reloads |
| Programs.OpenFromDropdown | src/features/programs.js:243-262 | with the id passed as it is, Open makes the chosen program current |
| Programs.DeleteFromDropdown | src/features/programs.js:265-286 | with the id passed as it is, a confirmed delete removes the chosen program |
| Transfer.AcceptsFile | src/features/settings.js:164-175 | a file is accepted only with a ".json" suffix in any case and at most 10 MB |
| Transfer.AcceptsUpperCaseSuffix | src/features/settings.js:166 | an upper-case ".JSON" suffix is accepted, then only the size decides |
| Transfer.FilePrograms | src/features/settings.js:193-205 | the file's programs are the array itself or its `programs` array; anything else is rejected |
| Transfer.Toggle | src/features/settings.js:276-281 | toggling flips the id's selection and no other |
| Transfer.ToggleTwice | src/features/settings.js:276-281 | toggling twice restores the selection |
| Transfer.SelectAll | src/features/settings.js:314-322 | select all adds every listed id and nothing else |
| Transfer.DeselectAll | src/features/settings.js:325-331 | deselect all empties the selection |
| Transfer.ExportEnabled | src/features/settings.js:59-63 | the export button is enabled exactly when something is selected |
| Transfer.Selected | src/features/settings.js:341 | the exported programs are all selected |
| Transfer.SelectedMembers | src/features/settings.js:341 | a program is exported exactly when it is listed and selected |
| Transfer.SelectedAppend | src/features/settings.js:341 | export keeps the list order |
| Transfer.SelectedAll | src/features/settings.js:341 | with everything selected the whole list is exported |
| Transfer.ExerciseTotalAppend | src/features/settings.js:350 | the exercise total adds up over the list |
| Transfer.Export | src/features/settings.js:334-353 | nothing is exported without a selection; otherwise the selected programs with their count and exercise total |
| Transfer.ExportThenImport | src/features/settings.js:193-205 | importing an exported file gives back exactly the selected programs |
| Transfer.ImportName | src/features/settings.js:476 | the imported name is the edited name, else the original, else "Imported Program n"; never empty |
| Transfer.ExerciseIdInjective | src/features/settings.js:468-471 | different exercise positions get different ids |
| Transfer.Renumbered | src/features/settings.js:468-471 | only the exercise ids change; each starts with the program's new id and a dash, and no two exercises of the program share one |
| Transfer.Imported | src/features/settings.js:463-479 | an imported program gets the new id, a non-empty name (the trimmed edit when there is one, else its own), exercises with distinct ids and otherwise unchanged, and a fresh creation date |
| Transfer.Prepared | src/features/settings.js:463-480 | one imported program per preview entry, in order, each under its generated id and its own time stamp, with a non-empty name and exercises with distinct ids |
| Transfer.CandidateInjective | src/features/settings.js:490-492 | different counters give different candidate names |
| Transfer.TriedCount | src/features/settings.js:490-492 | c candidate names are c distinct names |
| Transfer.TriedWithin | src/features/settings.js:490-492 | the counter cannot pass the number of existing names |
| Transfer.FreeIndex | src/features/settings.js:488-493 | the renaming loop stops at the first counter whose name is free |
| Transfer.FinalName | src/features/settings.js:486-499 | the final name is free: the original name if unused, otherwise "name (k)" for the first free k |
| Transfer.DedupeAsWritten | src/features/settings.js:486-499 | as written, no renamed program takes a stored name and a free name is kept; two imports with the same name always end up with the same name, because only the stored programs are checked |
| Transfer.BatchDuplicatesAsWritten | src/features/settings.js:486-502 | as written, importing two programs named "Legs" into an empty list stores both as "Legs" |
| Transfer.Dedupe | src/features/settings.js:486-499 | the corrected renaming gives every imported program a name free among the stored ones and among each other |
| Transfer.Merge | src/features/settings.js:486-502 | the merged list is the stored programs, unchanged, followed by the imports, which keep all but their names and take no stored name |
| Transfer.MergeCorrected | src/features/settings.js:486-502 | the same merge with the corrected renaming |
| Transfer.MergeKeepsNamesDistinct | src/features/settings.js:486-502 | with the corrected renaming, importing keeps names unique |
| Transfer.ConfirmImport | src/features/settings.js:455-544 | the import succeeds exactly when there is a preview and the stored list parses; it keeps the stored programs and appends one program per preview entry with its new id and time stamp, under a name no stored program has |
| Transfer.ConfirmImportCorrected | src/features/settings.js:455-544 | with the corrected renaming, an import into a library whose names are distinct keeps them distinct |
| Calendar.DateKeyRoundTrip | js/calendar.js:160-162 | a date key decodes back to its year, month and day |
| Calendar.DateKeyInjective | js/calendar.js:160-162 | different days of a month have different keys |
| Calendar.SaveWorkout | js/calendar.js:207-229 | saving marks the day with the trimmed duration and changes no other day |
| Calendar.RemoveWorkout | js/calendar.js:235-248 | a confirmed removal unmarks the day and changes no other day; a refused one changes nothing |
| Calendar.RemoveUndoesSave | js/calendar.js:207-248 | removing a newly saved day restores the data |
| Calendar.TotalWorkouts | js/calendar.js:257 | the total is the number of marked days, zero exactly when none is marked |
| Calendar.CurrentStreak | js/calendar.js:336-353 | the streak counts the consecutive marked days back from today, at most 365 |
| Calendar.MonthCountIsKeys | js/calendar.js:356-369 | the month count is the number of marked days of that month |
| Calendar.MonthWithinTotal | js/calendar.js:256-259 | the month count never exceeds the total |
| Calendar.Grid | js/calendar.js:43-78 | blanks before the first weekday, the days in order, blanks up to 42 cells |
| Calendar.GridIsSixWeeks | js/calendar.js:71-78 | a month grid is always 6 weeks of 7 cells and shows every day once |
| Calendar.VisibleCards | js/calendar.js:292-325 | the cards with a positive value are shown in order, all three when none is |
| Calendar.Columns | js/calendar.js:324-325 | the grid has one column per visible card |

## Left out

- Rendering is not modelled: the DOM, animations, notifications, page switching (`showPage`,
  `backToHome` in `js/navigation.js`) and the button labels. The event wiring of `js/events.js`
  and the helpers of `js/utils.js` are not part of this model.
- Audio synthesis, speech synthesis and real time are not modelled. Sounds and spoken words become
  entries of a cue log, and time passes only through explicit ticks.
- `setTimeout` delays are not modelled. Restart's 500 ms delay and the staggered animations
  happen at once.
- `localStorage` and `JSON.parse` are parameters. The `Stored` value says whether the data was
  missing, unparsable or a list of programs. Stored JSON that parses but is not a list is not
  represented.
- JavaScript's number parsing is narrowed. `parseInt` is modelled for decimal digits with an
  optional sign. Hexadecimal prefixes, floats, `Infinity` and non-ASCII white space and letters
  are outside the model.
- Identifiers and dates come in as parameters: `Date.now()`, `new Date().toISOString()` (one
  per imported program, as the import reads the clock once per program),
  `generateId()`, today's date and the list of days going back from it (`Calendar.CurrentStreak`),
  and the first weekday and length of a month (`Calendar.Grid`).
- The workout time stamp stored with each calendar day is not kept. A marked day stores only its
  duration text.
- The default-rest field is read once per queue build (`ProgramQueue.ReadSettings`). The source
  reads it again for every exercise inside one synchronous loop, where it cannot change, so the
  value is the same (`ProgramQueue.RestOfIsRestFor`).
- The program rest field's second reading in `startProgramTimer`
  (src/features/program-timer.js:35-54) is not modelled, because its result is never used.
- The detail form is read as already parsed values. `Exercises.SaveExercise` takes what
  `parseInt` returned for each field, not the raw text.
- The progress indicator `currentProgramExercise` and the status text are not modelled.
- `formatFileSize` and the export file's name, version and date metadata are not modelled.
- Drag-and-drop event plumbing is not modelled. `ExerciseOrder.HandleDrop` requires both
  positions to be in range, because they come from rendered rows.
- The index-based `deleteProgram` (src/features/programs.js:152-163) is not modelled. The later
  declaration with the same name (src/features/programs.js:265-286) replaces it when the script
  loads; that later one is `Programs.DeleteProgram`. The home list's Delete button still passes
  the row's position (`deleteProgram(${index})`, src/features/programs.js:92), so that button
  compares a position with program ids and deletes nothing unless an id happens to equal it.
- `js/programs.js` holds a subset of `src/features/programs.js`: loading, saving, creating,
  loading by id, deleting by id and the dropdowns, with the same logic. It has no
  `startProgram`, `editProgram`, index-based `deleteProgram` or list rendering, and its
  `createProgram` does not return to the list afterwards. The shared operations are modelled
  once, from `src/features/programs.js`.
- The aliasing between `currentProgram` and the entry of `allPrograms` it points to is not
  modelled. Edits apply to the program value passed in. The one write that goes through a
  shared array, the default moves `startProgramTimer` pushes into an empty `moves` array, is
  modelled by `ProgramEngine.StartProgram`, which returns the changed program.
- A stored exercise's `moves` is `None` when the record has no moves array. A value that is
  present but is not an array is treated the same way, because every reader checks
  `Array.isArray` or truthiness. The one difference is not represented: for a present
  non-array value `getNextMoveName` gives "next rep" where a missing field gives "next move". `getTimerColor` reads the moves through `Workout.StoredMoves`; it is only
  reached for a move step, which exists only when the exercise has a moves array.
- ExerciseTimer.Fire: the countdown word of timer.js:452-459 goes into the cue log through
  `Workout.Announce`. The contract states only the countdown and the advance, not the cue.
- ExerciseTimer.RunStep: the contract says nothing about the rest-start sound; the engine's
  `ProgramEngine.Show` states it.
- ProgramEngine.Advance: the contract states only the index; the end sound is stated in
  `EngineProps` for the default settings.

## Findings

| source | as written | input that shows it | evidently intended | confidence | as-written member | corrected member |
|---|---|---|---|---|---|---|
| src/features/program-timer.js:640 | the summary estimate gives an exercise without moves one 3-second move; start writes the default moves back only into an existing empty array, so the gap shows for a record that has no moves array | an exercise stored without a moves array and with a move count of 3: estimated at 3 s after start, queued for 9 s | the estimate equals the queue the timer runs | not executed | ProgramSummary.EstimateMissesDefaultMoves | ProgramSummary.QueueTotalIsQueueLength |
| src/features/timer.js:91-97 | resuming runs the step without stopping a ticker started while paused | start, pause, skip move, resume: two tickers count the same step; the one started while paused ticks first and ends the step, whose end clears only the one under the handle, so the one started while paused outlives the end of the step and ends every later step after about a second | one ticker at a time | not executed | TimerProps.PausedSkipDoubles | TimerProps.PausedSkipResumedOnce |
| src/features/timer.js:463 | the end sound is looked up by the slot's key name ('moveEnd'), which is no sound | any finished step: always "beep" | the configured end sound (default "bell" after a rest) | not executed | TimerProps.EndSoundAsWrittenIsBeep | ExerciseTimer.EndSound |
| src/features/program-timer.js:496-504 | stepping forward runs the step even on a stopped timer, starting a ticker | start, stop, step forward, start, resume: two live tickers | no ticker while stopped | not executed | EngineProps.StaleTickerDoubles | EngineProps.StoppedStepIsStill |
| src/features/program-timer.js:506-513 | stepping back runs the step even on a stopped timer, starting a ticker | start, stop, step back: a live ticker on a stopped timer | no ticker while stopped | not executed | EngineProps.StoppedStepBackTicks | EngineProps.StoppedStepBackIsStill |
| src/features/settings.js:486-502 | imported names are checked only against programs stored before the import | importing two programs both named "Legs" into an empty library | every program name distinct | not executed | Transfer.BatchDuplicatesAsWritten | Transfer.ConfirmImportCorrected |
| src/features/programs.js:355 | the dropdown passes the id quoted as a string, and `===` never matches a numeric id | Open on a program created with id 1700000000000 | Open makes that program current | not executed | Programs.OpenFromDropdownAsWritten | Programs.OpenFromDropdown |

=== FILE: calendar.dfy ===
/** The workout calendar (js/calendar.js): the date keys of the `workoutData` record,
    marking and unmarking days, the three statistics, the month grid and the choice of
    statistics cards.

    `workoutData` maps a date key to the duration text entered for that day (the time
    stamp stored beside it is left out). The calendar's `Date` arithmetic is an input:
    the keys of today and of the days before it, the weekday the month starts on and
    the number of days in the month. */
module Calendar {
  import opened Options
  import opened Text

  type WorkoutData = map<string, string>

  // ---- Date keys ----

  /** `getDateString(year, month, day)`: "YYYY-MM-DD" with a month counted from 0 and
      both month and day padded to two digits. */
  function DateKey(year: int, month: int, day: int): string {
    IntToString(year) + "-" + PadStart2(IntToString(month + 1)) + "-" + PadStart2(IntToString(day))
  }

  /** The integer a printed integer stands for: digits with an optional leading minus. */
  function SignedValue(t: string): Option<int> {
    if |t| > 1 && t[0] == '-' && AllDigits(t[1..]) then Some(0 - DigitsValue(t[1..]))
    else if |t| >= 1 && AllDigits(t) then Some(DigitsValue(t))
    else None
  }

  /** Reads a date key back into year, month (counted from 1) and day. */
  function DecodeKey(s: string): Option<(int, int, int)> {
    if |s| < 7 || s[|s| - 3] != '-' || s[|s| - 6] != '-' then None
    else
      var ms := s[|s| - 5..|s| - 3];
      var ds := s[|s| - 2..];
      var y := SignedValue(s[..|s| - 6]);
      if !AllDigits(ms) || !AllDigits(ds) || y.None? then None
      else Some((y.value, DigitsValue(ms), DigitsValue(ds)))
  }

  /** A printed integer reads back as itself. */
  lemma SignedValueOfPrinted(i: int)
    ensures SignedValue(IntToString(i)) == Some(i)
  {
    var d := NatToString(if i < 0 then 0 - i else i);
    NatToStringRoundTrip(if i < 0 then 0 - i else i);
    if i < 0 {
      assert IntToString(i) == "-" + d;
      SignedOfNegative(d);
    } else {
      assert IntToString(i) == d;
      SignedOfDigits(d);
    }
  }

  lemma SignedOfDigits(d: string)
    requires |d| >= 1 && AllDigits(d)
    ensures SignedValue(d) == Some(DigitsValue(d))
  {
    assert IsDigit(d[0]);
  }

  lemma SignedOfNegative(d: string)
    requires |d| >= 1 && AllDigits(d)
    ensures SignedValue("-" + d) == Some(0 - DigitsValue(d))
  {
    assert ("-" + d)[1..] == d;
  }

  /** A number below 100, printed and padded to two digits, reads back as itself. */
  lemma PaddedRoundTrip(n: nat)
    requires 1 <= n <= 99
    ensures |PadStart2(IntToString(n))| == 2 && AllDigits(PadStart2(IntToString(n)))
    ensures DigitsValue(PadStart2(IntToString(n))) == n
  {
    var s := NatToString(n);
    NatToStringRoundTrip(n);
    if n >= 10 {
      NatToStringLong(n, 1);
      assert n / 10 < 10;
      assert |s| == 2;
    } else {
      var p := PadStart2(s);
      assert p == "0" + s;
      assert p[..1] == "0";
    }
  }

  /** For a real month and day the key decodes to the year, the month counted from 1,
      and the day. */
  lemma DateKeyRoundTrip(year: int, month: int, day: int)
    requires 0 <= month <= 11 && 1 <= day <= 31
    ensures DecodeKey(DateKey(year, month, day)) == Some((year, month + 1, day))
  {
    var ys := IntToString(year);
    var ms := PadStart2(IntToString(month + 1));
    var ds := PadStart2(IntToString(day));
    PaddedRoundTrip(month + 1);
    PaddedRoundTrip(day);
    SignedValueOfPrinted(year);
    DecodeParts(ys, ms, ds);
  }

  /** A key assembled from a year text and two two-digit texts decodes into their
      values. */
  lemma DecodeParts(ys: string, ms: string, ds: string)
    requires |ys| >= 1 && SignedValue(ys).Some?
    requires |ms| == 2 && AllDigits(ms) && |ds| == 2 && AllDigits(ds)
    ensures DecodeKey(ys + "-" + ms + "-" + ds) == Some((SignedValue(ys).value, DigitsValue(ms), DigitsValue(ds)))
  {
    var s := ys + "-" + ms + "-" + ds;
    assert |s| == |ys| + 6;
    assert s[|s| - 3] == '-' && s[|s| - 6] == '-';
    assert s[..|s| - 6] == ys;
    assert s[|s| - 5..|s| - 3] == ms;
    assert s[|s| - 2..] == ds;
    DecodeLaidOut(s, ys, ms, ds);
  }

  /** A text with dashes six and three characters from its end decodes into the
      values of the three pieces they separate. */
  lemma DecodeLaidOut(s: string, ys: string, ms: string, ds: string)
    requires |s| >= 7 && s[|s| - 3] == '-' && s[|s| - 6] == '-'
    requires s[..|s| - 6] == ys && s[|s| - 5..|s| - 3] == ms && s[|s| - 2..] == ds
    requires AllDigits(ms) && AllDigits(ds) && SignedValue(ys).Some?
    ensures DecodeKey(s) == Some((SignedValue(ys).value, DigitsValue(ms), DigitsValue(ds)))
  {
  }

  /** Different days of one month have different keys. */
  lemma DateKeyInjective(year: int, month: int, a: int, b: int)
    requires 0 <= month <= 11 && 1 <= a <= 31 && 1 <= b <= 31
    ensures DateKey(year, month, a) == DateKey(year, month, b) ==> a == b
  {
    DateKeyRoundTrip(year, month, a);
    DateKeyRoundTrip(year, month, b);
  }

  // ---- Marking days ----

  /** `saveWorkoutDuration`: the day is marked with the trimmed duration text, which may
      be empty; no other day changes. */
  function SaveWorkout(data: WorkoutData, key: string, input: string): (r: WorkoutData)
    ensures key in r && r[key] == Trim(input)
    ensures forall k :: k != key ==> (k in r <==> k in data)
    ensures forall k :: k != key && k in data ==> r[k] == data[k]
  {
    data[key := Trim(input)]
  }

  /** `removeWorkout`: when confirmed, the day is unmarked; no other day changes. */
  function RemoveWorkout(data: WorkoutData, key: string, confirmed: bool): (r: WorkoutData)
    ensures !confirmed ==> r == data
    ensures confirmed ==> key !in r
    ensures forall k :: k != key ==> (k in r <==> k in data)
    ensures forall k :: k != key && k in r ==> r[k] == data[k]
  {
    if confirmed then data - {key} else data
  }

  /** Removing a day just saved leaves the record as it was before, for a day that was
      not marked. */
  lemma RemoveUndoesSave(data: WorkoutData, key: string, input: string)
    requires key !in data
    ensures RemoveWorkout(SaveWorkout(data, key, input), key, true) == data
  {
    var r := RemoveWorkout(SaveWorkout(data, key, input), key, true);
    assert r == data[key := Trim(input)] - {key};
    assert r.Keys == data.Keys;
  }

  // ---- Statistics ----

  /** `Object.keys(workoutData).length` */
  function TotalWorkouts(data: WorkoutData): (r: nat)
    ensures r == |data.Keys|
    ensures r == 0 <==> data == map[]
  {
    if data == map[] then 0
    else
      var k :| k in data;
      assert k in data.Keys;
      |data.Keys|
  }

  /** How many checks `calculateCurrentStreak` makes: today and the 364 days before. */
  const StreakDays: nat := 365

  /** `calculateCurrentStreak`: `days[i]` is the key of the day `i` days before today;
      the streak is the number of marked days counted back from today, stopping at the
      first unmarked one and after at most 365 days. */
  method CurrentStreak(data: WorkoutData, days: seq<string>) returns (streak: nat)
    ensures streak <= StreakDays && streak <= |days|
    ensures forall i :: 0 <= i < streak ==> days[i] in data
    ensures streak < |days| && streak < StreakDays ==> days[streak] !in data
    ensures |days| > 0 ==> (streak == 0 <==> days[0] !in data)
  {
    streak := 0;
    var i := 0;
    while i < StreakDays && i < |days|
      invariant i == streak <= StreakDays && i <= |days|
      invariant forall j :: 0 <= j < i ==> days[j] in data
    {
      if days[i] in data {
        streak := streak + 1;
      } else {
        break;
      }
      i := i + 1;
    }
  }

  /** The marked days among days `1..n` of a month. */
  function MonthCount(data: WorkoutData, year: int, month: int, n: nat): (r: nat)
    ensures r <= n
  {
    if n == 0 then 0
    else MonthCount(data, year, month, n - 1) + (if DateKey(year, month, n) in data then 1 else 0)
  }

  /** `calculateMonthWorkouts`: the marked days among days 1 to 31 of the shown month. */
  function MonthWorkouts(data: WorkoutData, year: int, month: int): (r: nat)
    ensures r <= 31
  {
    MonthCount(data, year, month, 31)
  }

  /** The key of each day of a month. */
  function DayKeys(year: int, month: int): nat -> string {
    d => DateKey(year, month, d)
  }

  /** The keys of the marked days among days `1..n`, for any naming of the days. */
  function Marked(data: WorkoutData, key: nat -> string, n: nat): set<string> {
    set d: nat | 1 <= d <= n && key(d) in data :: key(d)
  }

  /** The keys of the marked days among days `1..n` of a month. */
  function MarkedKeys(data: WorkoutData, year: int, month: int, n: nat): set<string> {
    Marked(data, DayKeys(year, month), n)
  }

  /** The month count is the number of marked keys of the month. */
  lemma {:induction false} MonthCountIsKeys(data: WorkoutData, year: int, month: int, n: nat)
    requires 0 <= month <= 11 && n <= 31
    ensures MonthCount(data, year, month, n) == |MarkedKeys(data, year, month, n)|
  {
    if n > 0 {
      MonthCountIsKeys(data, year, month, n - 1);
      MarkedKeysStep(data, year, month, n);
    }
  }

  /** When day `n` is named differently from the days before it, it adds its key to the
      marked keys exactly when it is marked. */
  lemma MarkedStep(data: WorkoutData, key: nat -> string, n: nat)
    requires n >= 1
    requires forall d: nat :: 1 <= d < n ==> key(d) != key(n)
    ensures key(n) !in Marked(data, key, n - 1)
    ensures Marked(data, key, n) == Marked(data, key, n - 1) + (if key(n) in data then {key(n)} else {})
  {
    var a := Marked(data, key, n);
    var b := Marked(data, key, n - 1);
    var c := b + (if key(n) in data then {key(n)} else {});
    forall k | k in a ensures k in c {
      var d: nat :| 1 <= d <= n && key(d) in data && k == key(d);
      if d < n {
        assert k in b;
      }
    }
    forall k | k in c ensures k in a {
      if k in b {
        var d: nat :| 1 <= d <= n - 1 && key(d) in data && k == key(d);
        assert 1 <= d <= n;
      }
    }
  }

  /** Day `n` adds its key to the marked keys when it is marked, and that key is new. */
  lemma MarkedKeysStep(data: WorkoutData, year: int, month: int, n: nat)
    requires 0 <= month <= 11 && 1 <= n <= 31
    ensures DateKey(year, month, n) !in MarkedKeys(data, year, month, n - 1)
    ensures MarkedKeys(data, year, month, n) == MarkedKeys(data, year, month, n - 1)
      + (if DateKey(year, month, n) in data then {DateKey(year, month, n)} else {})
  {
    var key := DayKeys(year, month);
    forall d: nat | 1 <= d < n ensures key(d) != key(n) {
      if DateKey(year, month, d) == DateKey(year, month, n) {
        DateKeyInjective(year, month, d, n);
      }
    }
    MarkedStep(data, key, n);
  }

  /** The days counted for a month are workouts counted in the total, so the month
      count never exceeds the total. */
  lemma MonthWithinTotal(data: WorkoutData, year: int, month: int)
    requires 0 <= month <= 11
    ensures MonthWorkouts(data, year, month) <= TotalWorkouts(data)
  {
    MonthCountIsKeys(data, year, month, 31);
    var keys := MarkedKeys(data, year, month, 31);
    assert keys <= data.Keys;
    assert data.Keys == keys + (data.Keys - keys);
    if data == map[] {
      assert keys == {};
    }
  }

  // ---- The month grid ----

  /** A cell of the grid: a day of the month, or a blank of a neighbouring month. */
  datatype Cell = Blank | Day(day: int)

  /** The grid `renderCalendar` builds: a blank per weekday before the first of the
      month, the days in order, then blanks up to 42 cells (none when the first two
      parts already fill 42). */
  function Grid(startDay: nat, daysInMonth: nat): (r: seq<Cell>)
    ensures |r| == if startDay + daysInMonth >= 42 then startDay + daysInMonth else 42
    ensures forall i :: 0 <= i < startDay ==> r[i] == Blank
    ensures forall d :: 1 <= d <= daysInMonth ==> r[startDay + d - 1] == Day(d)
    ensures forall i :: startDay + daysInMonth <= i < |r| ==> r[i] == Blank
  {
    var trailing := if startDay + daysInMonth >= 42 then 0 else 42 - startDay - daysInMonth;
    var r := seq(startDay, _ => Blank) + seq(daysInMonth, i => Day(i + 1)) + seq(trailing, _ => Blank);
    assert forall d :: 1 <= d <= daysInMonth ==> r[startDay + d - 1] == Day(d);
    r
  }

  /** The number of day cells of a grid. */
  function DayCells(cells: seq<Cell>): (r: nat)
    ensures r <= |cells|
  {
    if |cells| == 0 then 0 else (if cells[0].Day? then 1 else 0) + DayCells(cells[1..])
  }

  lemma {:induction false} DayCellsAppend(a: seq<Cell>, b: seq<Cell>)
    ensures DayCells(a + b) == DayCells(a) + DayCells(b)
  {
    if |a| == 0 {
      assert a + b == b;
    } else {
      assert (a + b)[1..] == a[1..] + b;
      DayCellsAppend(a[1..], b);
    }
  }

  /** A run of blanks holds no day cell. */
  lemma {:induction false} BlankRun(n: nat)
    ensures DayCells(seq(n, _ => Blank)) == 0
  {
    if n > 0 {
      assert seq(n, _ => Blank)[1..] == seq(n - 1, _ => Blank);
      BlankRun(n - 1);
    }
  }

  /** A run of day cells holds one per day. */
  lemma {:induction false} DayRun(n: nat, first: nat)
    ensures DayCells(seq(n, i => Day(first + i))) == n
  {
    if n > 0 {
      assert seq(n, i => Day(first + i))[1..] == seq(n - 1, i => Day(first + 1 + i));
      DayRun(n - 1, first + 1);
    }
  }

  /** For a real month, starting on weekday 0 to 6 and lasting at most 31 days, the
      grid is six weeks of seven cells, with exactly one cell per day. */
  lemma GridIsSixWeeks(startDay: nat, daysInMonth: nat)
    requires startDay <= 6 && daysInMonth <= 31
    ensures |Grid(startDay, daysInMonth)| == 42
    ensures DayCells(Grid(startDay, daysInMonth)) == daysInMonth
  {
    var trailing := 42 - startDay - daysInMonth;
    var a := seq(startDay, _ => Blank);
    var b := seq(daysInMonth, i => Day(0 + i + 1));
    var c := seq(trailing, _ => Blank);
    assert Grid(startDay, daysInMonth) == a + b + c;
    DayCellsAppend(a + b, c);
    DayCellsAppend(a, b);
    BlankRun(startDay);
    BlankRun(trailing);
    assert b == seq(daysInMonth, i => Day(1 + i));
    DayRun(daysInMonth, 1);
  }

  // ---- The statistics cards ----

  datatype Card = TotalCard | StreakCard | MonthCard

  /** `updateStatsLayout`: the cards whose value is positive, in the order total,
      streak, month; all three when none is. */
  function VisibleCards(total: int, streak: int, month: int): (r: seq<Card>)
    ensures 1 <= |r| <= 3
    ensures total <= 0 && streak <= 0 && month <= 0 ==> r == [TotalCard, StreakCard, MonthCard]
    ensures total > 0 || streak > 0 || month > 0 ==>
      (TotalCard in r <==> total > 0) && (StreakCard in r <==> streak > 0) && (MonthCard in r <==> month > 0)
    ensures forall i, j :: 0 <= i < j < |r| ==> Rank(r[i]) < Rank(r[j])
  {
    var shown := (if total > 0 then [TotalCard] else [])
      + (if streak > 0 then [StreakCard] else [])
      + (if month > 0 then [MonthCard] else []);
    if |shown| == 0 then [TotalCard, StreakCard, MonthCard] else shown
  }

  /** The position of a card in the stats row. */
  function Rank(c: Card): nat {
    match c
    case TotalCard => 0
    case StreakCard => 1
    case MonthCard => 2
  }

  /** The `cols-n` class of the stats grid: one column per visible card. */
  function Columns(total: int, streak: int, month: int): (r: nat)
    ensures 1 <= r <= 3
    ensures r == |VisibleCards(total, streak, month)|
  {
    var n := |VisibleCards(total, streak, month)|;
    if n < 3 then n else 3
  }
}

=== FILE: durations.dfy ===
/** The two readers of rest-duration text in the program builder.

    The strict reader backs the rest-edit dialog: an input is accepted only when it is
    a run of digits, optional white space and one of the minute or second spellings.
    The loose reader backs the "default rest between exercises" field: it looks for
    "min" or "sec" anywhere, takes the first digit run, and falls back to 60 seconds. */
module Durations {
  import opened Options
  import opened Text
  import opened Workout

  /** The unit words `/minute?s?/` and `/min/` accept. */
  const MinuteUnits: set<string> := {"minut", "minute", "minuts", "minutes", "min"}

  /** The unit words `/second?s?/` and `/sec/` accept. */
  const SecondUnits: set<string> := {"secon", "second", "secons", "seconds", "sec"}

  /** `parseTimeInput`: lower-case and trim the input, then read the text. */
  function ParseTimeInput(input: string): Option<int> {
    ParseTimeText(Trim(Lower(input)))
  }

  /** Match `digits, white space, unit` against the four patterns and scale by 60
      when the text mentions "minute" or "min". */
  function ParseTimeText(text: string): Option<int> {
    var d := DigitPrefix(text);
    var unit := TrimStart(text[|d|..]);
    if |d| == 0 || (unit !in MinuteUnits && unit !in SecondUnits) then None
    else if Contains(text, "minute") || Contains(text, "min") then Some(DigitsValue(d) * 60)
    else Some(DigitsValue(d))
  }

  /** A needle that starts with a character absent from a prefix cannot occur in it,
      nor straddle it. */
  lemma {:induction false} ContainsAfter(p: string, u: string, t: string)
    requires |t| > 0
    requires forall i :: 0 <= i < |p| ==> p[i] != t[0]
    ensures Contains(p + u, t) == Contains(u, t)
    decreases |p|
  {
    var s := p + u;
    if |p| == 0 {
      assert s == u;
    } else if |t| > |s| {
      assert !Contains(s, t);
      assert !Contains(u, t);
    } else {
      assert s[..|t|][0] == p[0];
      assert s[..|t|] != t;
      assert s[1..] == p[1..] + u;
      ContainsAfter(p[1..], u, t);
    }
  }

  /** A text contains each of its prefixes. */
  lemma ContainsPrefix(s: string, t: string)
    requires |t| <= |s| && s[..|t|] == t
    ensures Contains(s, t)
  {
  }

  /** A text lacking the needle's first character does not contain it. */
  lemma ContainsNotFirst(s: string, t: string)
    requires |t| > 0
    requires forall i :: 0 <= i < |s| ==> s[i] != t[0]
    ensures !Contains(s, t)
  {
    ContainsAfter(s, "", t);
    assert s + "" == s;
  }

  /** Which of the unit words mention "min": exactly the minute ones. */
  lemma UnitMentionsMinutes(u: string)
    requires u in MinuteUnits || u in SecondUnits
    ensures (Contains(u, "minute") || Contains(u, "min")) <==> u in MinuteUnits
  {
    if u in MinuteUnits {
      MinutePrefix(u);
      ContainsPrefix(u, "min");
    } else {
      SecondLacksM(u);
      ContainsNotFirst(u, "min");
      ContainsNotFirst(u, "minute");
    }
  }

  lemma MinutePrefix(u: string)
    requires u in MinuteUnits
    ensures |u| >= 3 && u[..3] == "min"
  {
  }

  lemma SecondLacksM(u: string)
    requires u in SecondUnits
    ensures forall i :: 0 <= i < |u| ==> u[i] != 'm'
  {
  }

  /** The value `parseTimeInput` gives a digit run followed by a unit word. */
  function UnitValue(d: string, u: string): int
    requires AllDigits(d)
  {
    if u in MinuteUnits then DigitsValue(d) * 60 else DigitsValue(d)
  }

  /** Every `digits, blanks, unit` text is accepted, minutes counting sixty seconds. */
  lemma ParseTimeTextAccepts(d: string, sp: string, u: string)
    requires |d| > 0 && AllDigits(d) && IsBlank(sp)
    requires u in MinuteUnits || u in SecondUnits
    ensures ParseTimeText(d + sp + u) == Some(UnitValue(d, u))
  {
    var text := d + sp + u;
    var rest := sp + u;
    assert text == d + rest;
    UnitStart(u);
    DigitPrefixOfDigits(d, rest);
    assert text[|d|..] == rest;
    TrimStartBlank(sp, u);
    DigitsBlanksLackM(d, sp);
    assert text == (d + sp) + u;
    ContainsAfter(d + sp, u, "minute");
    ContainsAfter(d + sp, u, "min");
    UnitMentionsMinutes(u);
  }

  lemma UnitStart(u: string)
    requires u in MinuteUnits || u in SecondUnits
    ensures |u| > 0 && !IsDigit(u[0]) && !IsSpace(u[0])
  {
  }

  lemma DigitsBlanksLackM(d: string, sp: string)
    requires AllDigits(d) && IsBlank(sp)
    ensures forall i :: 0 <= i < |d + sp| ==> (d + sp)[i] != 'm'
  {
    forall i | 0 <= i < |d + sp| ensures (d + sp)[i] != 'm' {
      if i < |d| { assert IsDigit(d[i]); } else { assert IsSpace(sp[i - |d|]); }
    }
  }

  /** Blanks in front of a word are what `TrimStart` removes. */
  lemma {:induction false} TrimStartBlank(sp: string, u: string)
    requires IsBlank(sp)
    requires |u| > 0 && !IsSpace(u[0])
    ensures TrimStart(sp + u) == u
    decreases |sp|
  {
    if |sp| > 0 {
      assert (sp + u)[1..] == sp[1..] + u;
      TrimStartBlank(sp[1..], u);
    } else {
      assert sp + u == u;
    }
  }

  /** Three consecutive slices of a text make up the text. */
  lemma Glue(text: string, d: string, rest: string, sp: string, u: string)
    requires |d| <= |text| && d == text[..|d|] && rest == text[|d|..]
    requires |u| <= |rest| && u == rest[|rest| - |u|..] && sp == rest[..|rest| - |u|]
    ensures text == d + sp + u
  {
    assert text == d + rest;
    assert rest == sp + u;
    assert d + (sp + u) == d + sp + u;
  }

  /** A text made of a digit run, blanks and a unit word. */
  predicate TimeShaped(text: string, d: string, sp: string, u: string) {
    text == d + sp + u && |d| > 0 && AllDigits(d) && IsBlank(sp)
    && (u in MinuteUnits || u in SecondUnits)
  }

  /** Conversely, whatever `parseTimeInput` reads has that shape. */
  lemma ParseTimeTextShape(text: string)
    requires ParseTimeText(text).Some?
    ensures exists d, sp, u :: TimeShaped(text, d, sp, u) && ParseTimeText(text) == Some(UnitValue(d, u))
  {
    var d := DigitPrefix(text);
    var rest := text[|d|..];
    var u := TrimStart(rest);
    var sp := rest[..|rest| - |u|];
    Glue(text, d, rest, sp, u);
    assert TimeShaped(text, d, sp, u);
    ParseTimeTextAccepts(d, sp, u);
  }

  /** JavaScript's `%`, whose remainder takes the sign of the dividend. */
  function JsRem(a: int, b: int): (r: int)
    requires b > 0
    ensures a >= 0 ==> r == a % b
    ensures a < 0 ==> r == 0 - ((0 - a) % b)
    ensures a < 0 ==> -b < r <= 0 && (a - r) % b == 0
    ensures -b < r < b
  {
    if a >= 0 then a % b
    else
      var q := (0 - a) / b;
      var r := 0 - ((0 - a) % b);
      assert a - r == b * (0 - q);
      MultipleMod(b, 0 - q);
      r
  }

  /** A multiple of `b` leaves no remainder. */
  lemma MultipleMod(b: int, k: int)
    requires b > 0
    ensures (b * k) % b == 0
  {
    var q := (b * k) / b;
    var m := (b * k) % b;
    var d := k - q;
    assert m == b * d;
    if d >= 1 {
      assert b * d == b + b * (d - 1);
      NonNegProduct(b, d - 1);
    } else if d <= -1 {
      assert b * d == 0 - b - b * (0 - d - 1);
      NonNegProduct(b, 0 - d - 1);
    }
  }

  lemma NonNegProduct(x: int, y: int)
    requires x >= 0 && y >= 0
    ensures x * y >= 0
  {
  }

  /** The text `openRestEditModal` puts into the dialog for a rest of `d` seconds:
      whole minutes when there is at least one, the seconds otherwise. */
  function RestEditPrefill(d: int): string {
    var minutes := d / 60;
    if minutes > 0 then IntToString(minutes) + " minutes"
    else IntToString(JsRem(d, 60)) + " seconds"
  }

  lemma LowerPrinted(n: nat, w: string)
    requires forall i :: 0 <= i < |w| ==> !('A' <= w[i] <= 'Z')
    ensures Lower(NatToString(n) + w) == NatToString(n) + w
  {
    var s := NatToString(n) + w;
    forall i | 0 <= i < |s| ensures LowerChar(s[i]) == s[i] {
      if i < |NatToString(n)| { assert IsDigit(NatToString(n)[i]); }
    }
  }

  lemma {:induction false} TrimPrinted(n: nat, w: string)
    requires |w| > 0 && !IsSpace(w[|w| - 1])
    ensures Trim(NatToString(n) + w) == NatToString(n) + w
  {
    var s := NatToString(n) + w;
    assert s[|s| - 1] == w[|w| - 1];
    assert TrimEnd(s) == s;
    assert IsDigit(s[0]);
  }

  /** A printed number followed by a lower-case word is its own trimmed lower-case form. */
  lemma NormalisedPrinted(n: nat, w: string)
    requires |w| > 0 && !IsSpace(w[|w| - 1])
    requires forall i :: 0 <= i < |w| ==> !('A' <= w[i] <= 'Z')
    ensures Lower(NatToString(n) + w) == NatToString(n) + w
    ensures Trim(Lower(NatToString(n) + w)) == NatToString(n) + w
  {
    LowerPrinted(n, w);
    TrimPrinted(n, w);
  }

  /** On a printed number followed by a lower-case word, `parseTimeInput` reads the
      text as it stands. */
  lemma ParsePrinted(n: nat, w: string)
    requires |w| > 0 && !IsSpace(w[|w| - 1])
    requires forall i :: 0 <= i < |w| ==> !('A' <= w[i] <= 'Z')
    ensures ParseTimeInput(NatToString(n) + w) == ParseTimeText(NatToString(n) + w)
  {
    NormalisedPrinted(n, w);
  }

  /** The dialog's texts are a number, one space and a unit word. */
  lemma SpacedUnits(n: nat)
    ensures NatToString(n) + " minutes" == NatToString(n) + " " + "minutes"
    ensures NatToString(n) + " seconds" == NatToString(n) + " " + "seconds"
  {
    assert " minutes" == " " + "minutes";
    assert " seconds" == " " + "seconds";
  }

  /** No word is both a minute and a second unit. */
  lemma UnitsDisjoint(u: string)
    requires u in SecondUnits
    ensures u !in MinuteUnits
  {
    assert u[0] == 's';
  }

  lemma ReadMinutes(n: nat, u: string)
    requires u in MinuteUnits
    ensures ParseTimeText(NatToString(n) + " " + u) == Some(n * 60)
  {
    ParseTimeTextAccepts(NatToString(n), " ", u);
    NatToStringRoundTrip(n);
  }

  lemma ReadSeconds(n: nat, u: string)
    requires u in SecondUnits
    ensures ParseTimeText(NatToString(n) + " " + u) == Some(n)
  {
    UnitsDisjoint(u);
    ParseTimeTextAccepts(NatToString(n), " ", u);
    NatToStringRoundTrip(n);
  }

  /** The dialog's minutes text reads back as that many minutes. */
  lemma PrefillMinutes(m: nat)
    ensures ParseTimeInput(NatToString(m) + " minutes") == Some(m * 60)
  {
    ParsePrinted(m, " minutes");
    SpacedUnits(m);
    ReadMinutes(m, "minutes");
  }

  /** The dialog's seconds text reads back as that many seconds. */
  lemma PrefillSeconds(k: nat)
    ensures ParseTimeInput(NatToString(k) + " seconds") == Some(k)
  {
    ParsePrinted(k, " seconds");
    SpacedUnits(k);
    ReadSeconds(k, "seconds");
  }

  /** The dialog's text for a rest of at least a minute names whole minutes. */
  lemma PrefillOfLong(d: int)
    requires d >= 60
    ensures RestEditPrefill(d) == NatToString(d / 60) + " minutes"
  {
  }

  /** The dialog's text for a rest under a minute names its seconds. */
  lemma PrefillOfShort(d: int)
    requires 0 <= d < 60
    ensures RestEditPrefill(d) == NatToString(d) + " seconds"
  {
    assert d / 60 == 0;
    assert JsRem(d, 60) == d;
  }

  lemma WholeMinutes(d: int)
    requires d >= 0
    ensures d / 60 * 60 == d <==> d % 60 == 0
  {
    assert d == d / 60 * 60 + d % 60;
  }

  /** Saving the dialog unchanged keeps a rest exactly when it is under a minute or a
      whole number of minutes; otherwise the seconds part is dropped. */
  lemma PrefillRoundTrip(d: int)
    requires d >= 0
    ensures ParseTimeInput(RestEditPrefill(d)) == Some(if d >= 60 then d / 60 * 60 else d)
    ensures ParseTimeInput(RestEditPrefill(d)) == Some(d) <==> d < 60 || d % 60 == 0
  {
    if d >= 60 {
      PrefillOfLong(d);
      PrefillMinutes(d / 60);
      WholeMinutes(d);
    } else {
      PrefillOfShort(d);
      PrefillSeconds(d);
    }
  }

  /** The loose reading of the default-rest field: blank means 60 seconds, anything
      else is trimmed, lower-cased and read by `LooseRead`. */
  function DefaultRest(field: string): int {
    var t := Trim(field);
    if t == "" then 60 else LooseRead(Lower(t))
  }

  /** Text mentioning minutes takes its first number (or 1) as minutes; text
      mentioning seconds takes its first number (or 60); anything else is read by
      `parseInt`, falling back to 60. */
  function LooseRead(input: string): int {
    if Contains(input, "minute") || Contains(input, "min") then
      match FirstDigitRun(input)
      case Some(run) => DigitsValue(run) * 60
      case None => 60
    else if Contains(input, "second") || Contains(input, "sec") then
      match FirstDigitRun(input)
      case Some(run) => DigitsValue(run)
      case None => 60
    else
      match ParseIntPrefix(input)
      case Some(n) => n
      case None => 60
  }

  /** On a printed number, possibly followed by a lower-case word, the loose reader
      reads the text as it stands. */
  lemma LoosePrinted(n: nat, w: string)
    requires |w| == 0 || !IsSpace(w[|w| - 1])
    requires forall i :: 0 <= i < |w| ==> !('A' <= w[i] <= 'Z')
    ensures DefaultRest(NatToString(n) + w) == LooseRead(NatToString(n) + w)
  {
    var s := NatToString(n) + w;
    if |w| > 0 {
      NormalisedPrinted(n, w);
    } else {
      assert s == NatToString(n);
      assert TrimEnd(s) == s;
      assert TrimStart(s) == s;
      LowerPrinted(n, w);
    }
    ReadAsItStands(s);
  }

  /** Text that trimming and lower-casing leave as it is is read as it stands. */
  lemma ReadAsItStands(s: string)
    requires |s| > 0 && Trim(s) == s && Lower(s) == s
    ensures DefaultRest(s) == LooseRead(s)
  {
  }

  /** The first digit run of a printed number followed by a non-digit is the number. */
  lemma FirstRunPrinted(n: nat, w: string)
    requires |w| == 0 || !IsDigit(w[0])
    ensures FirstDigitRun(NatToString(n) + w) == Some(NatToString(n))
  {
    assert IsDigit((NatToString(n) + w)[0]);
    DigitPrefixOfDigits(NatToString(n), w);
  }

  /** On a bare number the loose reader gives that number of seconds. */
  lemma DefaultRestOfNumber(n: nat)
    ensures DefaultRest(NatToString(n)) == n
  {
    var s := NatToString(n);
    LoosePrinted(n, "");
    assert s + "" == s;
    ContainsNotFirst(s, "minute");
    ContainsNotFirst(s, "min");
    ContainsNotFirst(s, "second");
    ContainsNotFirst(s, "sec");
    ParseIntPrefixOfPrinted(n, "");
  }

  /** The loose reader takes the dialog's minutes text as that many minutes. */
  lemma DefaultRestMinutes(m: nat)
    ensures DefaultRest(NatToString(m) + " minutes") == m * 60
  {
    LoosePrinted(m, " minutes");
    MentionsMinutes(m);
    FirstRunPrinted(m, " minutes");
    NatToStringRoundTrip(m);
  }

  lemma MentionsMinutes(m: nat)
    ensures Contains(NatToString(m) + " minutes", "min")
  {
    DigitsBlanksLackM(NatToString(m), " ");
    SpacedUnits(m);
    ContainsAfter(NatToString(m) + " ", "minutes", "min");
    ContainsPrefix("minutes", "min");
  }

  /** The loose reader takes the dialog's seconds text as that many seconds. */
  lemma DefaultRestSeconds(k: nat)
    ensures DefaultRest(NatToString(k) + " seconds") == k
  {
    LoosePrinted(k, " seconds");
    MentionsSecondsOnly(k);
    FirstRunPrinted(k, " seconds");
    NatToStringRoundTrip(k);
  }

  lemma MentionsSecondsOnly(k: nat)
    ensures !Contains(NatToString(k) + " seconds", "minute")
    ensures !Contains(NatToString(k) + " seconds", "min")
    ensures Contains(NatToString(k) + " seconds", "second")
  {
    var p := NatToString(k) + " ";
    DigitsBlanksLackM(NatToString(k), " ");
    forall i | 0 <= i < |p| ensures p[i] != 's' {
      if i < |NatToString(k)| { assert IsDigit(NatToString(k)[i]); }
    }
    SpacedUnits(k);
    ContainsAfter(p, "seconds", "minute");
    ContainsAfter(p, "seconds", "min");
    ContainsAfter(p, "seconds", "second");
    SecondLacksM("seconds");
    ContainsNotFirst("seconds", "minute");
    ContainsNotFirst("seconds", "min");
    ContainsPrefix("seconds", "second");
  }

  /** Both readers agree on the text the rest-edit dialog proposes. */
  lemma PrefillReadersAgree(d: int)
    requires d >= 0
    ensures ParseTimeInput(RestEditPrefill(d)) == Some(DefaultRest(RestEditPrefill(d)))
  {
    PrefillRoundTrip(d);
    if d >= 60 {
      PrefillOfLong(d);
      DefaultRestMinutes(d / 60);
    } else {
      PrefillOfShort(d);
      DefaultRestSeconds(d);
    }
  }

  /** The rest after exercise `i`: the program's own entry when there is one, the
      loose reading of the default field otherwise (`getRestDurationForExercise`). */
  function RestFor(custom: map<int, int>, field: string, i: int): (r: int)
    ensures i in custom ==> r == custom[i]
    ensures i !in custom ==> r == DefaultRest(field)
  {
    if i in custom then custom[i] else DefaultRest(field)
  }

  /** How the rest-edit dialog's save ends. */
  datatype RestSave = NoTarget | Blank | Invalid | Saved(seconds: int)

  /** `saveRestDuration`: with a target exercise and an accepted duration, record it
      for that exercise; otherwise leave the program as it is. */
  function SaveRestDuration(p: Program, editing: int, input: string): (r: (Program, RestSave))
    ensures r.1.Saved? <==> editing != -1 && Trim(input) != "" && ParseTimeInput(Trim(input)).Some?
    ensures r.1.Saved? ==> r.1.seconds == ParseTimeInput(Trim(input)).value
    ensures r.1.Saved? ==> r.0 == p.(customRest := p.customRest[editing := r.1.seconds])
    ensures !r.1.Saved? ==> r.0 == p
  {
    if editing == -1 then (p, NoTarget)
    else
      var text := Trim(input);
      if text == "" then (p, Blank)
      else
        match ParseTimeInput(text)
        case None => (p, Invalid)
        case Some(v) => (p.(customRest := p.customRest[editing := v]), Saved(v))
  }

  /** After a save the edited exercise rests for the saved time, whatever the default
      field says, and every other exercise keeps its rest. */
  lemma SavedRestTakesEffect(p: Program, editing: int, input: string, field: string, j: int)
    ensures SaveRestDuration(p, editing, input).1.Saved? ==>
            RestFor(SaveRestDuration(p, editing, input).0.customRest, field, editing)
            == SaveRestDuration(p, editing, input).1.seconds
    ensures SaveRestDuration(p, editing, input).1.Saved? && j != editing ==>
            RestFor(SaveRestDuration(p, editing, input).0.customRest, field, j) == RestFor(p.customRest, field, j)
  {
  }
}

=== FILE: engine_props.dfy ===
/** Properties of the program timer's state machine: at most one countdown ticks at a
    time in the corrected engine, and the stale countdown of the engine as written;
    pause and resume keep the live countdown; where the skips and the jumps land on a
    queue built from a program. */
module EngineProps {
  import opened Options
  import opened Workout
  import opened Durations
  import opened ProgramQueue
  import opened Search
  import opened ProgramEngine
  import opened ProgramSummary

  /** Everything the user or the clock can do to the program timer. */
  datatype Command =
    | Tick(id: nat)
    | PauseCmd
    | ResumeCmd
    | StopCmd
    | StartCmd(exs: seq<Exercise>, rs: RestSettings)
    | RestartCmd(exs: seq<Exercise>, rs: RestSettings)
    | SkipExerciseCmd
    | SkipRestCmd
    | SkipSetRestCmd
    | SkipSetCmd
    | ForwardCmd
    | BackwardCmd
    | JumpExerciseCmd(hasProgram: bool, x: int)
    | JumpSetCmd(hasProgram: bool, x: int, setNumber: int)

  /** One command on the corrected engine. */
  function Apply(e: Engine, c: Command): Engine {
    match c
    case Tick(id) => Fire(e, id)
    case PauseCmd => Pause(e)
    case ResumeCmd => Resume(e)
    case StopCmd => Stop(e)
    case StartCmd(exs, rs) => Start(e, exs, rs)
    case RestartCmd(exs, rs) => Restart(e, exs, rs)
    case SkipExerciseCmd => SkipExercise(e)
    case SkipRestCmd => SkipRest(e)
    case SkipSetRestCmd => SkipSetRest(e)
    case SkipSetCmd => SkipCurrentSet(e)
    case ForwardCmd => StepForward(e)
    case BackwardCmd => StepBackward(e)
    case JumpExerciseCmd(h, x) => JumpToExercise(e, h, x)
    case JumpSetCmd(h, x, s) => JumpToExerciseSet(e, h, x, s)
  }

  function Run(e: Engine, cs: seq<Command>): Engine
    decreases |cs|
  {
    if |cs| == 0 then e else Run(Apply(e, cs[0]), cs[1..])
  }

  /** At most one countdown is live: every live ticker is the one under the handle, and
      one is live only while the timer runs unpaused. */
  predicate OneTicker(e: Engine) {
    (forall id :: id in e.tickers ==> e.handle == Some(id) && id < e.nextId)
    && (e.tickers != map[] ==> e.running && !e.paused)
  }

  lemma ClearEmpties(e: Engine)
    requires OneTicker(e)
    ensures ClearInterval(e).tickers == map[]
  {
    assert ClearInterval(e).tickers.Keys == {};
  }

  lemma RunStepKeeps(x: Engine)
    requires x.tickers == map[] && (x.running || x.paused)
    ensures OneTicker(RunStep(x))
  {
  }

  lemma RunStepGuardedKeeps(x: Engine)
    requires x.tickers == map[]
    ensures OneTicker(RunStepGuarded(x))
  {
    if x.running {
      RunStepKeeps(x);
    }
  }

  lemma FireKeeps(e: Engine, id: nat)
    requires OneTicker(e)
    ensures OneTicker(Fire(e, id))
  {
    if id in e.tickers && !e.paused {
      var e1 := Tock(e, id);
      if e1.remaining.value <= 0 {
        ClearEmpties(e1);
        var e2 := ClearInterval(e1);
        RunStepKeeps(e2.(cues := e2.cues + [Play(EndSound(e1.audio, e.tickers[id].slot))],
                         remaining := None, active := -1, index := e1.index + 1));
      }
    }
  }

  lemma StartKeeps(e: Engine, exs: seq<Exercise>, rs: RestSettings)
    requires OneTicker(e)
    ensures OneTicker(Start(e, exs, rs))
  {
    ClearEmpties(e);
    if !e.running {
      assert e.tickers == map[];
    }
  }

  lemma SkipsKeep(e: Engine)
    requires OneTicker(e)
    ensures OneTicker(SkipExercise(e)) && OneTicker(SkipRest(e))
  {
    if OnStep(e) {
      ClearEmpties(e);
      forall t: nat { RunStepKeeps(ClearInterval(e).(index := t)); }
      forall t: nat { RunStepKeeps(ClearInterval(e).(index := t, remaining := None, active := -1)); }
    }
  }

  lemma SetSkipsKeep(e: Engine)
    requires OneTicker(e)
    ensures OneTicker(SkipSetRest(e)) && OneTicker(SkipCurrentSet(e))
  {
    if OnStep(e) {
      ClearEmpties(e);
      forall t: nat { RunStepKeeps(ClearInterval(e).(index := t)); }
      forall t: nat { RunStepKeeps(ClearInterval(e).(index := t, remaining := None, active := -1)); }
    }
  }

  lemma StepsKeep(e: Engine)
    requires OneTicker(e)
    ensures OneTicker(StepForward(e)) && OneTicker(StepBackward(e))
  {
    if |e.queue| > 0 {
      ClearEmpties(e);
      RunStepGuardedKeeps(ClearInterval(e).(index := ForwardIndex(e)));
      RunStepGuardedKeeps(ClearInterval(e).(index := BackwardIndex(e)));
    }
  }

  lemma JumpKeeps(e: Engine, h: bool, t: int)
    requires OneTicker(e)
    ensures OneTicker(JumpTo(e, h, t))
  {
    if h && |e.queue| > 0 && t >= 0 {
      ClearEmpties(e);
      RunStepKeeps(ClearInterval(e).(index := t, running := true, paused := false));
    }
  }

  lemma ResumeKeeps(e: Engine)
    requires OneTicker(e)
    ensures OneTicker(Resume(e)) && OneTicker(Pause(e)) && OneTicker(Stop(e))
  {
    ClearEmpties(e);
    if e.running && e.paused { RunStepKeeps(e.(paused := false)); }
  }

  /** Every command of the corrected engine keeps at most one countdown live. */
  lemma ApplyKeeps(e: Engine, c: Command)
    requires OneTicker(e)
    ensures OneTicker(Apply(e, c))
  {
    if IsControl(c) {
      ControlKeeps(e, c);
    } else {
      MoveKeeps(e, c);
    }
  }

  /** The commands that run or stop the countdown rather than move through the queue. */
  predicate IsControl(c: Command) {
    c.Tick? || c.PauseCmd? || c.ResumeCmd? || c.StopCmd? || c.StartCmd? || c.RestartCmd?
  }

  lemma ControlKeeps(e: Engine, c: Command)
    requires OneTicker(e) && IsControl(c)
    ensures OneTicker(Apply(e, c))
  {
    if c.Tick? {
      FireKeeps(e, c.id);
    } else if c.StartCmd? {
      StartKeeps(e, c.exs, c.rs);
    } else if c.RestartCmd? {
      ClearEmpties(e);
      StartKeeps(ClearInterval(e).(running := false, paused := false, index := 0), c.exs, c.rs);
    } else {
      ResumeKeeps(e);
    }
  }

  lemma MoveKeeps(e: Engine, c: Command)
    requires OneTicker(e) && !IsControl(c)
    ensures OneTicker(Apply(e, c))
  {
    if c.JumpExerciseCmd? || c.JumpSetCmd? {
      JumpCmdKeeps(e, c);
    } else if c.ForwardCmd? || c.BackwardCmd? {
      StepsKeep(e);
    } else if c.SkipExerciseCmd? || c.SkipRestCmd? {
      SkipsKeep(e);
    } else {
      SetSkipsKeep(e);
    }
  }

  lemma JumpCmdKeeps(e: Engine, c: Command)
    requires OneTicker(e) && (c.JumpExerciseCmd? || c.JumpSetCmd?)
    ensures OneTicker(Apply(e, c))
  {
    if c.JumpExerciseCmd? {
      JumpKeeps(e, c.hasProgram, IndexForExercise(e.queue, c.x));
    } else {
      JumpKeeps(e, c.hasProgram, IndexForExerciseSet(e.queue, c.x, c.setNumber));
    }
  }

  /** Whatever the commands, the corrected engine never has two countdowns live. */
  lemma {:induction false} RunKeeps(e: Engine, cs: seq<Command>)
    requires OneTicker(e)
    ensures OneTicker(Run(e, cs))
    decreases |cs|
  {
    if |cs| > 0 {
      ApplyKeeps(e, cs[0]);
      RunKeeps(Apply(e, cs[0]), cs[1..]);
    }
  }

  lemma IdleHasNoTicker(audio: AudioSettings)
    ensures OneTicker(Idle(audio))
    ensures forall cs :: OneTicker(Run(Idle(audio), cs))
  {
    forall cs ensures OneTicker(Run(Idle(audio), cs)) {
      RunKeeps(Idle(audio), cs);
    }
  }

  /** Start a program on an idle timer, stop it, step forward: the step runs, ticking. */
  function StoppedAndStepped(audio: AudioSettings, exs: seq<Exercise>, rs: RestSettings): Engine {
    StepForwardAsWritten(Stop(Start(Idle(audio), exs, rs)))
  }

  lemma StartFromIdle(audio: AudioSettings, exs: seq<Exercise>, rs: RestSettings)
    requires |exs| > 0
    ensures var e := Start(Idle(audio), exs, rs);
            e.tickers == map[] && e.nextId == 0 && e.handle.None? && e.running && |e.queue| > 0
  {
    BuildQueueShape(exs, rs);
  }

  /** As written, a stopped timer that is stepped forward has a live countdown, which
      goes on moving the stopped timer through the queue. */
  lemma StoppedStepTicks(audio: AudioSettings, exs: seq<Exercise>, rs: RestSettings)
    requires |exs| > 0
    ensures var e := StoppedAndStepped(audio, exs, rs);
            !e.running && 0 in e.tickers && e.nextId == 1
  {
    StartFromIdle(audio, exs, rs);
    var e2 := Stop(Start(Idle(audio), exs, rs));
    assert e2.tickers == map[] && !e2.paused && e2.nextId == 0 && |e2.queue| > 0;
  }

  /** Start a program on an idle timer, stop it, step back: as with the forward step,
      the step runs, ticking. */
  function StoppedAndSteppedBack(audio: AudioSettings, exs: seq<Exercise>, rs: RestSettings): Engine {
    StepBackwardAsWritten(Stop(Start(Idle(audio), exs, rs)))
  }

  /** As written, a stopped timer that is stepped back has a live countdown too. */
  lemma StoppedStepBackTicks(audio: AudioSettings, exs: seq<Exercise>, rs: RestSettings)
    requires |exs| > 0
    ensures var e := StoppedAndSteppedBack(audio, exs, rs);
            !e.running && 0 in e.tickers && e.nextId == 1
  {
  }

  /** The corrected backward step in the same situation has nothing ticking. */
  lemma StoppedStepBackIsStill(audio: AudioSettings, exs: seq<Exercise>, rs: RestSettings)
    requires |exs| > 0
    ensures StepBackward(Stop(Start(Idle(audio), exs, rs))).tickers == map[]
  {
  }

  /** Starting and resuming that timer leaves two countdowns live, each counting its own
      copy of the seconds and each moving the same index on when it runs out. */
  lemma StaleTickerDoubles(audio: AudioSettings, exs: seq<Exercise>, rs: RestSettings)
    requires |exs| > 0
    ensures var e := Resume(Start(StoppedAndStepped(audio, exs, rs), exs, rs));
            0 in e.tickers && 1 in e.tickers && e.running && !e.paused
  {
    StoppedStepTicks(audio, exs, rs);
    BuildQueueShape(exs, rs);
    var e4 := Start(StoppedAndStepped(audio, exs, rs), exs, rs);
    assert 0 in e4.tickers && e4.nextId == 1 && e4.running && e4.paused && e4.index == 0;
  }

  /** A live countdown that is not under the handle and has reached its last second:
      clearing the handle at the end of a step never stops it. */
  predicate StaleRunOut(e: Engine, id: nat) {
    id in e.tickers && e.handle != Some(id) && id < e.nextId && !e.paused
    && e.tickers[id].remaining <= 1
  }

  /** Once a stale countdown runs out, each of its later ticks ends the current step
      and it stays live and run out: every step after that lasts about one second. */
  lemma StaleTickerRunsOn(e: Engine, id: nat)
    requires StaleRunOut(e, id)
    ensures var r := Fire(e, id);
            r.index == e.index + 1 && StaleRunOut(r, id)
            && r.tickers[id].remaining == e.tickers[id].remaining - 1
  {
  }

  /** The corrected engine in the same situation has nothing ticking. */
  lemma StoppedStepIsStill(audio: AudioSettings, exs: seq<Exercise>, rs: RestSettings)
    requires |exs| > 0
    ensures StepForward(Stop(Start(Idle(audio), exs, rs))).tickers == map[]
  {
    StartFromIdle(audio, exs, rs);
  }

  // ---- Pause, resume and the single steps ----

  /** Pausing and resuming a running step goes on from the second it was paused at, with
      a new countdown holding that second. */
  lemma PauseResumeKeepsCountdown(e: Engine)
    requires OnStep(e) && !e.paused && e.active == e.index && e.remaining.Some?
    ensures var r := Resume(Pause(e));
            r.index == e.index && r.running && !r.paused && r.remaining == e.remaining
            && r.handle.Some? && r.handle.value in r.tickers
            && r.tickers[r.handle.value].remaining == e.remaining.value
  {
    var p := ClearInterval(e).(paused := true);
    assert Show(p.(paused := false)).remaining == e.remaining;
  }

  /** Stepping forward on the last step stays there and keeps its countdown. */
  lemma StepAtEndKeepsCountdown(e: Engine)
    requires |e.queue| > 0 && e.index == |e.queue| - 1 && e.active == e.index && e.remaining.Some?
    ensures StepForward(e).index == e.index && StepForward(e).remaining == e.remaining
  {
    assert Show(ClearInterval(e).(index := ForwardIndex(e))).remaining == e.remaining;
  }

  // ---- Where the skips and the jumps land on a built queue ----

  /** Step `m` of block `k` sits in the concatenation. */
  lemma {:induction false} ConcatAt(bs: seq<seq<Step>>, k: nat, m: nat) returns (j: nat)
    requires k < |bs| && m < |bs[k]|
    ensures j < |Concat(bs)| && Concat(bs)[j] == bs[k][m]
    decreases k
  {
    if k == 0 {
      j := m;
    } else {
      assert bs[1..][k - 1] == bs[k];
      var j' := ConcatAt(bs[1..], k - 1, m);
      j := |bs[0]| + j';
      assert Concat(bs)[j] == Concat(bs[1..])[j'];
    }
  }

  /** Set `s` starts somewhere in the sets from `from` on. */
  lemma {:induction false} SetStartIn(p: Plan, xi: int, from: int, s: int) returns (m: nat)
    requires PlanOk(p) && 1 <= from <= s <= p.setCount
    ensures m < |SetsFrom(p, xi, from)| && SetsFrom(p, xi, from)[m] == MoveStep(p, xi, s, 1, 0)
    decreases s - from
  {
    if s == from {
      m := 0;
    } else {
      var m' := SetStartIn(p, xi, from + 1, s);
      SetsFromIndex(p, xi, from, m');
      m := |SetSteps(p, xi, from)| + m';
    }
  }

  /** Step `m` of the sets after `from` sits `|SetSteps(p, xi, from)|` further on in the
      sets from `from`. */
  lemma SetsFromIndex(p: Plan, xi: int, from: int, m: nat)
    requires PlanOk(p) && 1 <= from <= p.setCount && m < |SetsFrom(p, xi, from + 1)|
    ensures |SetSteps(p, xi, from)| + m < |SetsFrom(p, xi, from)|
    ensures SetsFrom(p, xi, from)[|SetSteps(p, xi, from)| + m] == SetsFrom(p, xi, from + 1)[m]
  {
    var a, b := SetSteps(p, xi, from), SetsFrom(p, xi, from + 1);
    assert SetsFrom(p, xi, from) == a + b;
  }

  /** The first move of every set of every exercise is in the queue. */
  lemma SetStart(exs: seq<Exercise>, rs: RestSettings, x: int, s: int) returns (j: nat)
    requires 0 <= x < |exs| && 1 <= s <= Normalize(exs[x], x).setCount
    ensures j < |BuildQueue(exs, rs)|
    ensures BuildQueue(exs, rs)[j] == MoveStep(Normalize(exs[x], x), x, s, 1, 0)
  {
    var p := Normalize(exs[x], x);
    var m := SetStartIn(p, x, 1, s);
    assert ExerciseBlock(exs, x, rs)[m] == SetsFrom(p, x, 1)[m];
    j := ConcatAt(Blocks(exs, rs), x, m);
  }

  /** A jump to an exercise finds a step exactly when the program has that exercise. */
  lemma JumpExerciseFound(exs: seq<Exercise>, rs: RestSettings, x: int)
    ensures IndexForExercise(BuildQueue(exs, rs), x) >= 0 <==> 0 <= x < |exs|
  {
    BuildQueueShape(exs, rs);
    if 0 <= x < |exs| {
      var j := SetStart(exs, rs, x, 1);
    }
  }

  /** A jump to a set finds a step exactly when the program has that exercise and the
      exercise has that many sets. */
  lemma JumpSetFound(exs: seq<Exercise>, rs: RestSettings, x: int, s: int)
    ensures IndexForExerciseSet(BuildQueue(exs, rs), x, s) >= 0 <==>
      0 <= x < |exs| && 1 <= s <= Normalize(exs[x], x).setCount
  {
    var i := IndexForExerciseSet(BuildQueue(exs, rs), x, s);
    if 0 <= x < |exs| && 1 <= s <= Normalize(exs[x], x).setCount {
      var j := SetStart(exs, rs, x, s);
    } else if i >= 0 {
      SetNumberInRange(exs, rs, i);
    }
  }

  /** On an ordered step list, the first step after `index` of a later exercise, when
      there is a step of the very next exercise after `index`, is that exercise's first. */
  lemma FirstOfNext(q: seq<Step>, index: nat, n: nat, t: nat)
    requires ExercisesOrdered(q) && index < n < |q| && index < t < |q|
    requires q[n].exerciseIndex == q[index].exerciseIndex + 1
    requires forall j :: index < j < t ==> q[j].exerciseIndex <= q[index].exerciseIndex
    requires t == |q| - 1 || q[t].exerciseIndex > q[index].exerciseIndex
    ensures q[t].exerciseIndex == q[index].exerciseIndex + 1
    ensures forall j :: 0 <= j < t ==> q[j].exerciseIndex <= q[index].exerciseIndex
  {
    var cur := q[index].exerciseIndex;
    assert q[t].exerciseIndex <= q[n].exerciseIndex;
    forall j | 0 <= j <= index ensures q[j].exerciseIndex <= cur {
      if j < index { assert q[j].exerciseIndex <= q[index].exerciseIndex; }
    }
  }

  /** On an ordered queue with a step of the next exercise, skipping the exercise lands
      on that exercise's first step. */
  lemma SkipLandsOnNext(e: Engine, n: nat)
    requires OnStep(e) && ExercisesOrdered(e.queue) && n < |e.queue|
    requires e.queue[n].exerciseIndex == e.queue[e.index].exerciseIndex + 1
    ensures var r := SkipExercise(e);
            r.queue[r.index].exerciseIndex == e.queue[e.index].exerciseIndex + 1
            && forall j :: 0 <= j < r.index ==> r.queue[j].exerciseIndex <= e.queue[e.index].exerciseIndex
  {
    var r := SkipExercise(e);
    FirstOfNext(e.queue, e.index, n, r.index);
  }

  /** On a built queue, skipping an exercise that has a next one lands on that next
      exercise's first step. */
  lemma SkipExerciseLands(e: Engine, exs: seq<Exercise>, rs: RestSettings)
    requires e.queue == BuildQueue(exs, rs) && OnStep(e)
    requires e.queue[e.index].exerciseIndex + 1 < |exs|
    ensures var r := SkipExercise(e);
            r.queue[r.index].exerciseIndex == e.queue[e.index].exerciseIndex + 1
            && forall j :: 0 <= j < r.index ==> r.queue[j].exerciseIndex <= e.queue[e.index].exerciseIndex
  {
    BuildQueueShape(exs, rs);
    var n := SetStart(exs, rs, e.queue[e.index].exerciseIndex + 1, 1);
    SkipLandsOnNext(e, n);
  }
}

=== FILE: exercise_order.dfy ===
/** The exercise order list of the program page (src/features/program-timer.js):
    dragging an exercise onto another position, and removing one. Both are `splice`s
    on the current program's exercise list; the positions come from the rendered
    rows, so they always name an exercise of the list. */
module ExerciseOrder {
  import opened Workout

  /** `s.splice(i, 1)`: the list without its element at `i`. */
  function RemoveAt<T>(s: seq<T>, i: nat): (r: seq<T>)
    requires i < |s|
    ensures |r| == |s| - 1
    ensures forall k :: 0 <= k < i ==> r[k] == s[k]
    ensures forall k :: i <= k < |r| ==> r[k] == s[k + 1]
    ensures multiset(r) + multiset{s[i]} == multiset(s)
  {
    assert s == s[..i] + [s[i]] + s[i + 1..];
    s[..i] + s[i + 1..]
  }

  /** `s.splice(i, 0, x)`: the list with `x` placed at `i`. */
  function InsertAt<T>(s: seq<T>, i: nat, x: T): (r: seq<T>)
    requires i <= |s|
    ensures |r| == |s| + 1 && r[i] == x
    ensures forall k :: 0 <= k < i ==> r[k] == s[k]
    ensures forall k :: i < k < |r| ==> r[k] == s[k - 1]
    ensures multiset(r) == multiset(s) + multiset{x}
  {
    assert s == s[..i] + s[i..];
    s[..i] + [x] + s[i..]
  }

  /** Putting the removed element back where it was restores the list. */
  lemma InsertRemoved<T>(s: seq<T>, i: nat)
    requires i < |s|
    ensures InsertAt(RemoveAt(s, i), i, s[i]) == s
  {
    var r := InsertAt(RemoveAt(s, i), i, s[i]);
    assert forall k :: 0 <= k < |s| ==> r[k] == s[k];
  }

  /** Removing what was just inserted restores the list. */
  lemma RemoveInserted<T>(s: seq<T>, i: nat, x: T)
    requires i <= |s|
    ensures RemoveAt(InsertAt(s, i, x), i) == s
  {
    var r := RemoveAt(InsertAt(s, i, x), i);
    assert forall k :: 0 <= k < |s| ==> r[k] == s[k];
  }

  /** The splice pair of `handleDrop`: the element dragged from `from` ends up at `to`;
      the ones between the two positions shift by one towards the gap it left, the
      others stay put; dropping on itself changes nothing. */
  function Reorder<T>(s: seq<T>, from: nat, to: nat): (r: seq<T>)
    requires from < |s| && to < |s|
    ensures |r| == |s| && r[to] == s[from]
    ensures multiset(r) == multiset(s)
    ensures from == to ==> r == s
    ensures forall k :: 0 <= k < |s| && ((k < from && k < to) || (k > from && k > to)) ==> r[k] == s[k]
    ensures forall k :: from < to && from <= k < to ==> r[k] == s[k + 1]
    ensures forall k :: to < from && to < k <= from ==> r[k] == s[k - 1]
  {
    if from == to then s else InsertAt(RemoveAt(s, from), to, s[from])
  }

  /** Dragging the element back to where it came from undoes a reorder. */
  lemma ReorderUndo<T>(s: seq<T>, from: nat, to: nat)
    requires from < |s| && to < |s|
    ensures Reorder(Reorder(s, from, to), to, from) == s
  {
    if from != to {
      var t := Reorder(s, from, to);
      assert RemoveAt(t, to) == RemoveAt(s, from) by {
        RemoveInserted(RemoveAt(s, from), to, s[from]);
      }
      InsertRemoved(s, from);
    }
  }

  /** `handleDrop`: the current program's exercise list reordered; nothing else of the
      program changes. */
  function HandleDrop(p: Program, from: nat, to: nat): (r: Program)
    requires from < |p.exercises| && to < |p.exercises|
    ensures r == p.(exercises := r.exercises)
    ensures |r.exercises| == |p.exercises| && r.exercises[to] == p.exercises[from]
    ensures multiset(r.exercises) == multiset(p.exercises)
  {
    p.(exercises := Reorder(p.exercises, from, to))
  }

  /** `removeExerciseFromOrder`: when confirmed, the exercise at `index` leaves the list
      and the rest keep their order; otherwise nothing changes. */
  function RemoveExercise(p: Program, index: nat, confirmed: bool): (r: Program)
    requires index < |p.exercises|
    ensures r == p.(exercises := r.exercises)
    ensures !confirmed ==> r == p
    ensures confirmed ==> |r.exercises| == |p.exercises| - 1
    ensures confirmed ==> multiset(r.exercises) + multiset{p.exercises[index]} == multiset(p.exercises)
    ensures confirmed ==> InsertAt(r.exercises, index, p.exercises[index]) == p.exercises
  {
    if confirmed then
      InsertRemoved(p.exercises, index);
      p.(exercises := RemoveAt(p.exercises, index))
    else p
  }
}

=== FILE: exercise_timer.dfy ===
/** The single-exercise timer (src/features/timer.js): its queue, built from the stored
    fields of one exercise as they are, and its state machine.

    It differs from the program timer on purpose: it starts ticking at once instead of
    starting paused, every run of a step restarts that step's countdown from full, its
    skips land one step before the target so that the step they name is the one that
    runs after it, and it does not normalise anything. As in the program timer, a
    `setInterval` callback is a `Ticker` kept in `tickers` under its interval id,
    `clearInterval(timer)` removes the ticker whose id is in `handle`, and sounds and
    spoken words are appended to `cues`. */
module ExerciseTimer {
  import opened Options
  import opened Text
  import opened Workout
  import opened Search

  /** The step types 'Move', 'Move Rest', 'Rep Rest' and 'Set Rest'. */
  datatype TimerKind = Moving | MoveRest | RepRest | SetRest

  /** A queue entry. A set rest has no rep and no move; a rep rest has no move. The
      duration is the stored field as it is. */
  datatype TimerStep = TimerStep(
    kind: TimerKind,
    name: string,
    moveName: string,
    duration: Num,
    setNo: int,
    repNo: Option<int>,
    moveNo: Option<int>)

  predicate IsRestKind(k: TimerKind) { k != Moving }

  /** Rests between moves and between reps are taken when enabled and positive. */
  predicate RestOn(ex: Exercise) { ex.restBetweenMovesEnabled && Positive(ex.restBetweenMoves) }

  // ---- The queue ----

  /** Moves `k..` of rep `r` of set `s`, each followed by a move rest except the last. */
  function MoveRun(ex: Exercise, s: int, r: int, k: nat): (q: seq<TimerStep>)
    requires k <= |StoredMoves(ex)|
    ensures |q| > 0 <==> k < |StoredMoves(ex)|
    ensures forall i :: 0 <= i < |q| ==>
      q[i].setNo == s && q[i].repNo == Some(r) && (q[i].kind == Moving || q[i].kind == MoveRest)
    ensures |q| > 0 ==> q[0].kind == Moving
    decreases |StoredMoves(ex)| - k
  {
    if k == |StoredMoves(ex)| then []
    else
      var m := StoredMoves(ex)[k];
      var rest := if RestOn(ex) && k < |StoredMoves(ex)| - 1 then
                    [TimerStep(MoveRest, ex.name, "", ex.restBetweenMoves, s, Some(r), Some(k + 1))]
                  else [];
      [TimerStep(Moving, ex.name, m.name, m.duration, s, Some(r), Some(k + 1))] + rest + MoveRun(ex, s, r, k + 1)
  }

  /** Rep `r` of set `s`: its moves, then a rep rest unless it is the last rep. */
  function RepRun(ex: Exercise, s: int, r: int): (q: seq<TimerStep>)
    ensures forall i :: 0 <= i < |q| ==> q[i].setNo == s && q[i].kind != SetRest
  {
    MoveRun(ex, s, r, 0)
      + (if RestOn(ex) && r < LoopCount(ex.repCount) then
           [TimerStep(RepRest, ex.name, "", ex.restBetweenMoves, s, Some(r), None)]
         else [])
  }

  /** Reps `r..` of set `s`. */
  function RepRunsFrom(ex: Exercise, s: int, r: nat): (q: seq<TimerStep>)
    requires 1 <= r
    ensures forall i :: 0 <= i < |q| ==> q[i].setNo == s && q[i].kind != SetRest
    decreases LoopCount(ex.repCount) + 1 - r
  {
    if r > LoopCount(ex.repCount) then [] else RepRun(ex, s, r) + RepRunsFrom(ex, s, r + 1)
  }

  /** The steps of set `s` before its set rest. */
  function SetBody(ex: Exercise, s: int): (q: seq<TimerStep>)
    ensures forall i :: 0 <= i < |q| ==> q[i].setNo == s && q[i].kind != SetRest
  {
    RepRunsFrom(ex, s, 1)
  }

  /** Set `s`: its reps, then a set rest unless it is the last set. */
  function SetRun(ex: Exercise, s: int): (q: seq<TimerStep>)
    ensures forall i :: 0 <= i < |q| ==> q[i].setNo == s
  {
    SetBody(ex, s)
      + (if Positive(ex.restBetweenSets) && s < LoopCount(ex.setCount) then
           [TimerStep(SetRest, ex.name, "", ex.restBetweenSets, s, None, None)]
         else [])
  }

  /** Sets `s..` of the exercise. */
  function SetRunsFrom(ex: Exercise, s: nat): (q: seq<TimerStep>)
    requires 1 <= s
    ensures forall i :: 0 <= i < |q| ==> s <= q[i].setNo <= LoopCount(ex.setCount)
    decreases LoopCount(ex.setCount) + 1 - s
  {
    if s > LoopCount(ex.setCount) then [] else SetRun(ex, s) + SetRunsFrom(ex, s + 1)
  }

  /** The queue `startTimer` builds. */
  function TimerQueue(ex: Exercise): (q: seq<TimerStep>)
    ensures forall i :: 0 <= i < |q| ==> 1 <= q[i].setNo <= LoopCount(ex.setCount)
  {
    SetRunsFrom(ex, 1)
  }

  // ---- The engine ----

  /** A live interval callback and the variables its closure holds: its own countdown
      (`None` once it is `NaN`), whether its step is a rest, its end sound slot and the
      last word it spoke. */
  datatype Ticker = Ticker(remaining: Num, isRest: bool, slot: SoundSlot, lastAnnounced: Option<int>)

  /** `timerQueue`, `timerIndex`, `timerRunning`, `timerPaused`, `currentSet`,
      `currentRep`, `currentMove`, the live intervals, `timer`, the next interval id,
      the audio settings, and what has been played or said so far. */
  datatype Timer = Timer(
    queue: seq<TimerStep>,
    index: nat,
    running: bool,
    paused: bool,
    curSet: int,
    curRep: int,
    curMove: int,
    tickers: map<nat, Ticker>,
    handle: Option<nat>,
    nextId: nat,
    audio: AudioSettings,
    cues: seq<Cue>)

  /** The state before any exercise has been started. */
  function Idle(audio: AudioSettings): Timer {
    Timer([], 0, false, false, 1, 1, 1, map[], None, 0, audio, [])
  }

  /** The end-of-step sound slot of a step type. */
  function SlotOf(k: TimerKind): SoundSlot {
    match k
    case Moving => MoveEnd
    case SetRest => SetEnd
    case _ => RestEnd
  }

  /** The end sound as written: the slot's key name itself is passed to `playSound`. */
  function EndSoundAsWritten(slot: SoundSlot): string {
    Resolve(SlotKey(slot))
  }

  /** The end sound as the program timer chooses it: the user's choice for the slot,
      else the beep. */
  function EndSound(a: AudioSettings, slot: SoundSlot): (r: string)
    ensures SlotChoice(a, slot) in Sounds ==> r == SlotChoice(a, slot)
    ensures r in Sounds
  {
    Resolve(TextOr(SlotChoice(a, slot), "beep"))
  }

  /** `clearInterval(timer)`: the ticker under the handle stops; the handle keeps its
      old id. */
  function ClearInterval(t: Timer): (r: Timer)
    ensures r == t.(tickers := r.tickers)
    ensures forall id :: id in r.tickers <==> id in t.tickers && t.handle != Some(id)
    ensures forall id :: id in r.tickers ==> r.tickers[id] == t.tickers[id]
  {
    if t.handle.Some? then t.(tickers := t.tickers - {t.handle.value}) else t
  }

  /** `runTimerStep`: the end of the exercise, or the current step from its full
      duration, with a new interval whether or not the timer is paused. */
  function RunStep(t: Timer): (r: Timer)
    ensures r.queue == t.queue && r.index == t.index && r.audio == t.audio
    ensures |r.cues| >= |t.cues| && r.cues[..|t.cues|] == t.cues
    ensures t.index >= |t.queue| ==>
      !r.running && !r.paused && r.tickers == t.tickers && r.nextId == t.nextId
      && r.cues == t.cues + [Play(Resolve(t.audio.exerciseEnd))]
    ensures t.index < |t.queue| ==>
      r.running == t.running && r.paused == t.paused && r.curSet == t.queue[t.index].setNo
      && r.handle == Some(t.nextId) && r.nextId == t.nextId + 1
      && r.tickers == t.tickers[t.nextId := Ticker(t.queue[t.index].duration,
                                                   IsRestKind(t.queue[t.index].kind),
                                                   SlotOf(t.queue[t.index].kind), None)]
  {
    if t.index >= |t.queue| then
      t.(running := false, paused := false, cues := t.cues + [Play(Resolve(t.audio.exerciseEnd))])
    else
      var step := t.queue[t.index];
      var said := if IsRestKind(step.kind) then [Play(Resolve(TextOr(t.audio.restStart, "whistle")))] else [];
      t.(curSet := step.setNo, curRep := OrOne(step.repNo), curMove := OrOne(step.moveNo),
         cues := t.cues + said,
         tickers := t.tickers[t.nextId := Ticker(step.duration, IsRestKind(step.kind), SlotOf(step.kind), None)],
         handle := Some(t.nextId), nextId := t.nextId + 1)
  }

  /** One second of ticker `id`: its countdown goes down by one (`NaN` stays `NaN`),
      and on a rest the countdown word is spoken once. */
  function Tock(t: Timer, id: nat): (r: Timer)
    requires id in t.tickers
    ensures r.tickers.Keys == t.tickers.Keys
    ensures r == t.(tickers := r.tickers, cues := r.cues)
    ensures t.tickers[id].remaining.Some? ==>
      r.tickers[id].remaining == Some(t.tickers[id].remaining.value - 1)
    ensures t.tickers[id].remaining.None? ==> r.tickers[id].remaining.None?
  {
    var k := t.tickers[id];
    match k.remaining
    case None => t
    case Some(n) =>
      var (word, last) := Announce(k.isRest, n - 1, k.lastAnnounced);
      var said := if word.Some? then [Say(word.value)] else [];
      t.(tickers := t.tickers[id := k.(remaining := Some(n - 1), lastAnnounced := last)],
         cues := t.cues + said)
  }

  /** Whether ticker `id` has just run out. */
  predicate RanOut(t: Timer, id: nat)
    requires id in t.tickers
  {
    t.tickers[id].remaining.Some? && t.tickers[id].remaining.value <= 0
  }

  /** The end of a step: the interval under the handle is cleared, `sound` plays and
      the next step runs. */
  function Advance(t: Timer, sound: string): (r: Timer)
    ensures r.index == t.index + 1
    ensures |r.cues| > |t.cues| && r.cues[|t.cues|] == Play(sound)
  {
    var t1 := ClearInterval(t);
    RunStep(t1.(cues := t1.cues + [Play(sound)], index := t.index + 1))
  }

  /** One firing of ticker `id`, with the end sound chosen from the user's settings:
      nothing when that interval was cleared or the timer is paused. */
  function Fire(t: Timer, id: nat): (r: Timer)
    ensures id !in t.tickers || t.paused ==> r == t
    ensures id in t.tickers && !t.paused && !RanOut(Tock(t, id), id) ==> r == Tock(t, id)
    ensures id in t.tickers && !t.paused && RanOut(Tock(t, id), id) ==> r.index == t.index + 1
  {
    if id !in t.tickers || t.paused then t
    else
      var t1 := Tock(t, id);
      if RanOut(t1, id) then Advance(t1, EndSound(t.audio, t.tickers[id].slot)) else t1
  }

  /** One firing of ticker `id` as written: the end sound is looked up by the slot's
      key name. */
  function FireAsWritten(t: Timer, id: nat): (r: Timer)
    ensures id !in t.tickers || t.paused ==> r == t
    ensures id in t.tickers && !t.paused && !RanOut(Tock(t, id), id) ==> r == Tock(t, id)
    ensures id in t.tickers && !t.paused && RanOut(Tock(t, id), id) ==>
      r.index == t.index + 1 && |r.cues| > |Tock(t, id).cues| && r.cues[|Tock(t, id).cues|] == Play("beep")
  {
    if id !in t.tickers || t.paused then t
    else
      var t1 := Tock(t, id);
      if RanOut(t1, id) then Advance(t1, EndSoundAsWritten(t.tickers[id].slot)) else t1
  }

  /** `pauseTimer`: the live interval stops; the step stays where it is. */
  function Pause(t: Timer): (r: Timer)
    ensures t.running && !t.paused ==>
      r.running && r.paused && r.queue == t.queue && r.index == t.index && r.cues == t.cues
      && forall id :: id in r.tickers <==> id in t.tickers && t.handle != Some(id)
    ensures !(t.running && !t.paused) ==> r == t
  {
    if t.running && !t.paused then ClearInterval(t).(paused := true) else t
  }

  /** `resumeTimer` as written: the step runs again without clearing the interval
      under the handle. */
  function ResumeAsWritten(t: Timer): (r: Timer)
    ensures t.running && t.paused && t.index < |t.queue| ==>
      r.running && !r.paused && r.index == t.index && r.handle == Some(t.nextId)
      && (forall id :: id in r.tickers <==> id in t.tickers || id == t.nextId)
      && r.tickers[t.nextId].remaining == t.queue[t.index].duration
    ensures t.running && t.paused && t.index >= |t.queue| ==> !r.running
    ensures !(t.running && t.paused) ==> r == t
  {
    if t.running && t.paused then RunStep(t.(paused := false)) else t
  }

  /** `resumeTimer`, corrected: the interval under the handle is cleared before the
      step runs again. */
  function Resume(t: Timer): (r: Timer)
    ensures t.running && t.paused && t.index < |t.queue| ==>
      r.running && !r.paused && r.index == t.index && r.handle == Some(t.nextId)
      && (forall id :: id in r.tickers <==> (id in t.tickers && t.handle != Some(id)) || id == t.nextId)
      && r.tickers[t.nextId].remaining == t.queue[t.index].duration
    ensures t.running && t.paused && t.index >= |t.queue| ==> !r.running
    ensures !(t.running && t.paused) ==> r == t
  {
    if t.running && t.paused then RunStep(ClearInterval(t).(paused := false)) else t
  }

  /** `stopTimer` (and the first half of `restartTimer`): back to the first step of
      the first set, rep and move. */
  function Stop(t: Timer): (r: Timer)
    ensures t.running ==> !r.running && !r.paused && r.index == 0 && r.queue == t.queue
                          && r.curSet == 1 && r.curRep == 1 && r.curMove == 1
                          && r.nextId == t.nextId
                          && forall id :: id in r.tickers <==> id in t.tickers && t.handle != Some(id)
    ensures !t.running ==> r == t
  {
    if t.running then
      ClearInterval(t).(running := false, paused := false, index := 0, curSet := 1, curRep := 1, curMove := 1)
    else t
  }

  /** Whether `startTimer` throws: on a record without a moves array,
      `exercise.moves.forEach` fails at the first rep, after the queue was emptied. */
  predicate StartThrows(ex: Exercise) {
    ex.moves.None? && LoopCount(ex.setCount) > 0 && LoopCount(ex.repCount) > 0
  }

  /** `startTimer` on the current exercise: nothing while running; a record without
      moves leaves only an emptied queue; otherwise the queue is built and its first
      step runs, unpaused. */
  function Start(t: Timer, ex: Exercise): (r: Timer)
    ensures t.running ==> r == t
    ensures !t.running && StartThrows(ex) ==> r == t.(queue := [])
    ensures !t.running && !StartThrows(ex) && |TimerQueue(ex)| > 0 ==>
      r.queue == TimerQueue(ex) && r.index == 0 && r.running && !r.paused
      && r.handle == Some(t.nextId) && t.nextId in r.tickers
      && r.tickers[t.nextId].remaining == TimerQueue(ex)[0].duration
      && forall id :: id in r.tickers <==> id in t.tickers || id == t.nextId
    ensures !t.running && |TimerQueue(ex)| == 0 ==> !r.running
  {
    if t.running then t
    else if StartThrows(ex) then t.(queue := [])
    else
      RunStep(t.(queue := TimerQueue(ex), index := 0, running := true, paused := false,
                 curSet := 1, curRep := 1, curMove := 1))
  }

  /** `restartTimer`: only while running, a stop and then a start (the 500 ms delay is
      left out). */
  function Restart(t: Timer, ex: Exercise): (r: Timer)
    ensures !t.running ==> r == t
    ensures t.running && StartThrows(ex) ==> !r.running && r.queue == []
    ensures t.running && !StartThrows(ex) && |TimerQueue(ex)| > 0 ==>
      r.running && !r.paused && r.index == 0 && r.queue == TimerQueue(ex) && r.handle == Some(t.nextId)
      && (forall id :: id in r.tickers <==> (id in t.tickers && t.handle != Some(id)) || id == t.nextId)
      && r.tickers[t.nextId].remaining == TimerQueue(ex)[0].duration
    ensures t.running && |TimerQueue(ex)| == 0 ==> !r.running
  {
    if t.running then Start(Stop(t), ex) else t
  }

  // ---- Skips ----

  /** Whether a skip has a current step to act on. */
  predicate OnStep(t: Timer) { t.running && t.index < |t.queue| }

  /** `step.rep > currentStep.rep`: a missing rep on either side compares false. */
  predicate LaterRep(a: Option<int>, b: Option<int>) {
    a.Some? && b.Some? && a.value > b.value
  }

  /** `skipToNextSet`: one step before the first later step of a later set, else the
      last step; that step runs again. */
  function SkipToNextSet(t: Timer): (r: Timer)
    ensures !OnStep(t) ==> r == t
    ensures OnStep(t) ==> r.queue == t.queue && t.index <= r.index < |t.queue|
    ensures OnStep(t) ==> forall j :: t.index < j <= r.index ==> t.queue[j].setNo <= t.queue[t.index].setNo
    ensures OnStep(t) && r.index < |t.queue| - 1 ==> t.queue[r.index + 1].setNo > t.queue[t.index].setNo
  {
    if !OnStep(t) then t
    else
      var cur := t.queue[t.index].setNo;
      var target := match FindFrom(t.queue, t.index + 1, (s: TimerStep) => s.setNo > cur)
                    case Some(i) => i - 1
                    case None => |t.queue| - 1;
      RunStep(ClearInterval(t).(index := target))
  }

  /** `skipToNextRep`: one step before the first later step of a later rep; when there
      is none, `skipToNextSet`. */
  function SkipToNextRep(t: Timer): (r: Timer)
    ensures !OnStep(t) ==> r == t
    ensures OnStep(t) ==> r.queue == t.queue && t.index <= r.index < |t.queue|
    ensures OnStep(t) && r.index < |t.queue| - 1 && LaterRep(t.queue[r.index + 1].repNo, t.queue[t.index].repNo) ==>
      forall j :: t.index < j <= r.index ==> !LaterRep(t.queue[j].repNo, t.queue[t.index].repNo)
    ensures OnStep(t) && (forall j :: t.index < j < |t.queue| ==> !LaterRep(t.queue[j].repNo, t.queue[t.index].repNo)) ==>
      r == SkipToNextSet(t)
  {
    if !OnStep(t) then t
    else
      var cur := t.queue[t.index].repNo;
      match FindFrom(t.queue, t.index + 1, (s: TimerStep) => LaterRep(s.repNo, cur))
      case Some(i) => RunStep(ClearInterval(t).(index := i - 1))
      case None => SkipToNextSet(t)
  }

  /** `skipMove`: only on a move, to the next step. */
  function SkipMove(t: Timer): (r: Timer)
    ensures !(OnStep(t) && t.queue[t.index].kind == Moving) ==> r == t
    ensures OnStep(t) && t.queue[t.index].kind == Moving ==> r.index == t.index + 1
  {
    if !(OnStep(t) && t.queue[t.index].kind == Moving) then t
    else RunStep(ClearInterval(t).(index := t.index + 1))
  }

  /** `skipSetRest`: only on a set rest, one step before the first later step that is
      not a set rest; the index stays when there is none. */
  function SkipSetRest(t: Timer): (r: Timer)
    ensures !(OnStep(t) && t.queue[t.index].kind == SetRest) ==> r == t
    ensures OnStep(t) && t.queue[t.index].kind == SetRest ==>
      r.queue == t.queue && t.index <= r.index < |t.queue|
      && (forall j :: t.index < j <= r.index ==> t.queue[j].kind == SetRest)
      && ((forall j :: t.index < j < |t.queue| ==> t.queue[j].kind == SetRest) ==> r.index == t.index)
  {
    if !(OnStep(t) && t.queue[t.index].kind == SetRest) then t
    else
      var target := match FindFrom(t.queue, t.index + 1, (s: TimerStep) => s.kind != SetRest)
                    case Some(i) => i - 1
                    case None => t.index;
      RunStep(ClearInterval(t).(index := target))
  }

  // ---- Labels and colours ----

  /** `getNextMoveName`: the name of the move after the step's move, or 'next rep'; the
      exercise may be missing. */
  function NextMoveName(ex: Option<Exercise>, step: TimerStep): (r: string)
    requires step.moveNo.Some? ==> step.moveNo.value >= 0
    ensures ex.None? ==> r == "next move"
    ensures ex.Some? && ex.value.moves.None? ==> r == "next move"
    ensures ex.Some? && ex.value.moves.Some? && step.moveNo.Some? && step.moveNo.value < |ex.value.moves.value| ==>
      r == ex.value.moves.value[step.moveNo.value].name
    ensures ex.Some? && ex.value.moves.Some? && !(step.moveNo.Some? && step.moveNo.value < |ex.value.moves.value|) ==>
      r == "next rep"
  {
    if ex.None? || ex.value.moves.None? then "next move"
    else if step.moveNo.Some? && step.moveNo.value < |ex.value.moves.value| then ex.value.moves.value[step.moveNo.value].name
    else "next rep"
  }

  /** `getNextRepInfo` */
  function NextRepInfo(ex: Option<Exercise>, step: TimerStep): string {
    if ex.None? then "next rep"
    else if step.repNo.Some? && ex.value.repCount.Some? && step.repNo.value + 1 <= ex.value.repCount.value then
      "Rep " + IntToString(step.repNo.value + 1)
    else "next set"
  }

  /** `getNextSetInfo` */
  function NextSetInfo(ex: Option<Exercise>, step: TimerStep): string {
    if ex.None? then "next set"
    else if ex.value.setCount.Some? && step.setNo + 1 <= ex.value.setCount.value then
      "Set " + IntToString(step.setNo + 1)
    else "exercise end"
  }

  /** `getTimerColor`, as a palette key: a move takes its own colour, a set rest the
      exercise's set-rest colour, other rests its rest colour; an unknown key falls
      back to blue, orange or green. */
  function TimerColor(ex: Exercise, k: TimerKind, moveIndex: Option<int>): (c: string)
    ensures c in Palette
    ensures k == Moving && moveIndex.Some? && 0 <= moveIndex.value < |StoredMoves(ex)| ==>
      c == (if StoredMoves(ex)[moveIndex.value].color in Palette then StoredMoves(ex)[moveIndex.value].color else "blue")
    ensures k == Moving && !(moveIndex.Some? && 0 <= moveIndex.value < |StoredMoves(ex)|) ==> c == "blue"
    ensures k == SetRest ==> c == (if ex.setRestColor in Palette then ex.setRestColor else "orange")
    ensures k == MoveRest || k == RepRest ==> c == (if ex.restColor in Palette then ex.restColor else "green")
  {
    match k
    case Moving =>
      var key := if moveIndex.Some? && 0 <= moveIndex.value < |StoredMoves(ex)| then StoredMoves(ex)[moveIndex.value].color else "blue";
      PaletteOr(key, "blue")
    case SetRest => PaletteOr(TextOr(ex.setRestColor, "orange"), "orange")
    case _ => PaletteOr(TextOr(ex.restColor, "green"), "green")
  }
}

=== FILE: exercises.dfy ===
/** Exercise editing (src/features/exercises.js): adding an exercise with its defaults,
    and saving the detail form, which rebuilds the move list from the move fields.

    The form is an input: what `parseInt` reads from the set, rep and move count
    fields, one `MoveInput` per move row (a missing row reads as empty), the rest
    fields and the colour buttons that are active. */
module Exercises {
  import opened Options
  import opened Text
  import opened Workout
  import ExerciseTimer
  import ExerciseOrder

  /** The exercise `addExercise` appends: two sets of ten reps of one three-second blue
      move, no rest between moves, thirty seconds between sets. */
  function NewExercise(name: string): Exercise {
    Exercise("", name, Some(2), Some(10), Some(1), Some([Move("1. Move", Some(3), "blue")]),
             Some(0), Some(30), false, "blue", "green", "orange")
  }

  /** `addExercise`: nothing without a current program or with a blank name; otherwise
      the program gains the new exercise at its end. */
  function AddExercise(current: Option<Program>, nameInput: string): (r: Option<Program>)
    ensures current.None? || Trim(nameInput) == "" ==> r == current
    ensures current.Some? && Trim(nameInput) != "" ==>
      r.Some? && r.value == current.value.(exercises := r.value.exercises)
      && |r.value.exercises| == |current.value.exercises| + 1
      && r.value.exercises[..|current.value.exercises|] == current.value.exercises
      && r.value.exercises[|current.value.exercises|] == NewExercise(Trim(nameInput))
      && r.value.exercises[|current.value.exercises|].name == Trim(nameInput)
  {
    var name := Trim(nameInput);
    if current.None? || name == "" then current
    else Some(current.value.(exercises := current.value.exercises + [NewExercise(name)]))
  }

  /** Removing, confirmed, the exercise just added at the end gives the program back. */
  lemma RemoveUndoesAdd(p: Program, nameInput: string)
    requires Trim(nameInput) != ""
    ensures ExerciseOrder.RemoveExercise(AddExercise(Some(p), nameInput).value, |p.exercises|, true) == p
  {
    var r := AddExercise(Some(p), nameInput).value;
    assert r.exercises[..|p.exercises|] == p.exercises;
    assert ExerciseOrder.RemoveAt(r.exercises, |p.exercises|) == p.exercises;
  }

  // ---- The detail form ----

  /** One move row: the name field; `parseInt(field?.value || 0)` of the duration field,
      which reads an empty or missing field as 0; the colour of the row's active colour
      button, if any. */
  datatype MoveInput = MoveInput(name: string, duration: Num, activeColor: Option<string>)

  /** The detail form as `saveExercise` and `startExercise` read it. */
  datatype ExerciseForm = ExerciseForm(
    setCount: Num,
    repCount: Num,
    moveCount: Num,
    moves: seq<MoveInput>,
    restBetweenMoves: Num,
    restBetweenSets: Num,
    restEnabled: bool,
    restColor: Option<string>,
    setRestColor: Option<string>)

  /** Row `i` (1-based); a row that is not on the page reads as empty. */
  function Row(rows: seq<MoveInput>, i: int): MoveInput {
    if 1 <= i <= |rows| then rows[i - 1] else MoveInput("", Some(0), None)
  }

  /** The default name of move `i`, "i. Move". */
  function MoveLabel(i: nat): string {
    NatToString(i) + ". Move"
  }

  /** Whether row `i` makes a move: its duration reads as a positive number. */
  predicate Kept(rows: seq<MoveInput>, i: int) {
    Positive(Row(rows, i).duration)
  }

  /** The move row `i` makes: the entered name or "i. Move", the duration, and the
      active button's colour or blue. */
  function MoveOf(rows: seq<MoveInput>, i: nat): Move {
    var row := Row(rows, i);
    Move(TextOr(row.name, MoveLabel(i)), row.duration,
         if row.activeColor.Some? then row.activeColor.value else "blue")
  }

  /** The moves rows `1..n` make, in row order: one for each row whose duration is
      positive. */
  function KeptMoves(rows: seq<MoveInput>, n: nat): (r: seq<Move>)
    ensures |r| <= n
  {
    if n == 0 then [] else KeptMoves(rows, n - 1) + (if Kept(rows, n) then [MoveOf(rows, n)] else [])
  }

  /** One move per kept row. */
  lemma {:induction false} KeptMovesCount(rows: seq<MoveInput>, n: nat)
    ensures |KeptMoves(rows, n)| == |set i: nat | 1 <= i <= n && Kept(rows, i)|
  {
    if n > 0 {
      KeptMovesCount(rows, n - 1);
      var before := set i: nat | 1 <= i <= n - 1 && Kept(rows, i);
      var now := set i: nat | 1 <= i <= n && Kept(rows, i);
      if Kept(rows, n) {
        assert now == before + {n};
      } else {
        assert now == before;
      }
    }
  }

  /** Every move is made from a kept row: it has that row's positive duration and a
      name that is not empty. */
  lemma {:induction false} KeptMovesFrom(rows: seq<MoveInput>, n: nat, k: nat)
    requires k < |KeptMoves(rows, n)|
    ensures exists i: nat :: 1 <= i <= n && Kept(rows, i) && KeptMoves(rows, n)[k] == MoveOf(rows, i)
    ensures Positive(KeptMoves(rows, n)[k].duration) && KeptMoves(rows, n)[k].name != ""
  {
    var before := KeptMoves(rows, n - 1);
    if k < |before| {
      KeptMovesFrom(rows, n - 1, k);
      assert KeptMoves(rows, n)[k] == before[k];
    } else {
      assert KeptMoves(rows, n)[k] == MoveOf(rows, n);
    }
  }

  /** `moves[j]?.color`: the colour of move `j`, "" when there is no such move. */
  function ColorAt(moves: seq<Move>, j: int): string {
    if 0 <= j < |moves| then moves[j].color else ""
  }

  /** The move loop of `saveExercise`, as written: the list is emptied first, so the
      "keep the existing colour" lookup reads the moves rebuilt so far. */
  method RebuildMoves(rows: seq<MoveInput>, moveCount: Num) returns (moves: seq<Move>)
    ensures moves == KeptMoves(rows, LoopCount(moveCount))
    ensures |moves| <= LoopCount(moveCount)
  {
    moves := [];
    var n := LoopCount(moveCount);
    var i := 1;
    while i <= n
      invariant 1 <= i <= n + 1
      invariant moves == KeptMoves(rows, i - 1)
    {
      var row := Row(rows, i);
      var name := TextOr(row.name, MoveLabel(i));
      var duration := row.duration;
      var color := "blue";
      if row.activeColor.Some? {
        color := row.activeColor.value;
      } else if ColorAt(moves, i - 1) != "" {
        color := ColorAt(moves, i - 1);
      }
      if Positive(duration) {
        moves := moves + [Move(name, duration, color)];
      }
      i := i + 1;
    }
  }

  /** `parseInt(x) || 0` */
  function NumOrZero(n: Num): Num {
    Some(OrZero(n))
  }

  /** `saveExercise`: the counts are stored as read, unvalidated; the moves are rebuilt;
      the rests fall back to 0; a rest colour changes only when its button is active. */
  method SaveExercise(ex: Exercise, form: ExerciseForm) returns (r: Exercise)
    ensures r.setCount == form.setCount && r.repCount == form.repCount
    ensures r.moveCount == form.moveCount
    ensures r.moves == Some(KeptMoves(form.moves, LoopCount(form.moveCount)))
    ensures r.restBetweenMoves.Some? && r.restBetweenSets.Some?
    ensures r.restBetweenMoves == NumOrZero(form.restBetweenMoves)
    ensures r.restBetweenSets == NumOrZero(form.restBetweenSets)
    ensures r.restBetweenMovesEnabled == form.restEnabled
    ensures r.restColor == (if form.restColor.Some? then form.restColor.value else ex.restColor)
    ensures r.setRestColor == (if form.setRestColor.Some? then form.setRestColor.value else ex.setRestColor)
    ensures r.id == ex.id && r.name == ex.name && r.moveColor == ex.moveColor
  {
    var moveCount := form.moveCount;
    var moves := RebuildMoves(form.moves, moveCount);
    r := ex.(setCount := form.setCount, repCount := form.repCount,
             moveCount := moveCount, moves := Some(moves),
             restBetweenMoves := NumOrZero(form.restBetweenMoves),
             restBetweenSets := NumOrZero(form.restBetweenSets),
             restBetweenMovesEnabled := form.restEnabled);
    if form.restColor.Some? {
      r := r.(restColor := form.restColor.value);
    }
    if form.setRestColor.Some? {
      r := r.(setRestColor := form.setRestColor.value);
    }
  }

  /** `startExercise`: the same save, then `startTimer` on the saved exercise. */
  method StartExercise(t: ExerciseTimer.Timer, ex: Exercise, form: ExerciseForm)
    returns (saved: Exercise, r: ExerciseTimer.Timer)
    ensures saved.moves == Some(KeptMoves(form.moves, LoopCount(form.moveCount)))
    ensures r == ExerciseTimer.Start(t, saved)
    ensures !t.running && |ExerciseTimer.TimerQueue(saved)| > 0 ==> r.running && !r.paused && r.index == 0
  {
    saved := SaveExercise(ex, form);
    r := ExerciseTimer.Start(t, saved);
  }
}

=== FILE: options.dfy ===
/** The optional value used wherever the application reads something that may be
    absent: a JSON field, a `parseInt` result, a storage read, a search that may miss. */
module Options {

  datatype Option<+T> = None | Some(value: T) {

    /** The value, or the given default when absent (JavaScript's `x || d` on
        values that are never falsy when present). */
    function GetOr(default: T): T {
      match this
      case Some(v) => v
      case None => default
    }
  }
}

=== FILE: program_engine.dfy ===
/** The program timer's state machine (src/features/program-timer.js): start, the
    one-second tick, pause, resume, stop, restart, the skips, the single steps and the
    jumps.

    The source keeps its state in module variables; here it is one `Engine` value and
    each operation returns the next one. A `setInterval` callback is a `Ticker` kept in
    `tickers` under its interval id: its closure's own copy of the countdown, the step
    kind it was made for and the last word it spoke. `clearInterval(programTimer)`
    removes the ticker whose id is in `handle`; a tick is `Fire(e, id)`. Sounds and
    spoken words are appended to `cues`. */
module ProgramEngine {
  import opened Options
  import opened Workout
  import opened Durations
  import opened ProgramQueue
  import opened Search

  /** A live interval callback and the variables its closure holds. */
  datatype Ticker = Ticker(remaining: int, isRest: bool, slot: SoundSlot, lastAnnounced: Option<int>)

  /** `programTimerQueue`, `programTimerIndex`, `programTimerRunning`,
      `programTimerPaused`, `programRemainingSeconds`, `programActiveStepIndex`, the live
      intervals, `programTimer`, the next interval id, the audio settings, and what has
      been played or said so far. */
  datatype Engine = Engine(
    queue: seq<Step>,
    index: nat,
    running: bool,
    paused: bool,
    remaining: Option<int>,
    active: int,
    tickers: map<nat, Ticker>,
    handle: Option<nat>,
    nextId: nat,
    audio: AudioSettings,
    cues: seq<Cue>)

  /** The state before any program has been started. */
  function Idle(audio: AudioSettings): Engine {
    Engine([], 0, false, false, None, -1, map[], None, 0, audio, [])
  }

  /** The end-of-step sound slot of a step kind. */
  function SlotOf(k: Kind): SoundSlot {
    match k
    case ExerciseMove => MoveEnd
    case SetRest => SetEnd
    case _ => RestEnd
  }

  /** `audioSettings[soundType] || 'beep'`, then played. */
  function EndSound(a: AudioSettings, slot: SoundSlot): string {
    Resolve(TextOr(SlotChoice(a, slot), "beep"))
  }

  /** `audioSettings.restStart || 'whistle'`, then played. */
  function RestStartSound(a: AudioSettings): string {
    Resolve(TextOr(a.restStart, "whistle"))
  }

  /** `clearInterval(programTimer)`: the ticker under the handle stops; the handle keeps
      its old id. */
  function ClearInterval(e: Engine): (r: Engine)
    ensures r == e.(tickers := r.tickers)
    ensures forall id :: id in r.tickers <==> id in e.tickers && e.handle != Some(id)
    ensures forall id :: id in r.tickers ==> r.tickers[id] == e.tickers[id]
  {
    if e.handle.Some? then e.(tickers := e.tickers - {e.handle.value}) else e
  }

  /** The part of `runProgramTimerStep` before the interval is set up: the end of the
      program, or the current step's countdown (kept when the same step is shown again)
      and the rest-start sound. */
  function Show(e: Engine): (r: Engine)
    ensures r.queue == e.queue && r.index == e.index && r.tickers == e.tickers
    ensures r.handle == e.handle && r.nextId == e.nextId && r.audio == e.audio
    ensures e.index >= |e.queue| ==>
      r == e.(running := false, paused := false, cues := e.cues + [Play(Resolve(e.audio.exerciseEnd))])
    ensures e.index < |e.queue| ==>
      r.running == e.running && r.paused == e.paused && r.active == e.index
      && r.remaining == (if e.active == e.index && e.remaining.Some? then e.remaining
                         else Some(e.queue[e.index].duration))
      && r.cues == e.cues + (if IsRest(e.queue[e.index].kind) then [Play(RestStartSound(e.audio))] else [])
  {
    if e.index >= |e.queue| then
      e.(running := false, paused := false, cues := e.cues + [Play(Resolve(e.audio.exerciseEnd))])
    else
      var step := e.queue[e.index];
      var e1 := if e.active != e.index || e.remaining.None? then
                  e.(active := e.index, remaining := Some(step.duration))
                else e;
      if IsRest(step.kind) then e1.(cues := e1.cues + [Play(RestStartSound(e.audio))]) else e1
  }

  /** `setInterval(...)`: a new ticker counting down from the live countdown, under a
      fresh id that becomes the handle. */
  function StartTicker(e: Engine): (r: Engine)
    requires e.index < |e.queue| && e.remaining.Some?
  {
    var k := e.queue[e.index].kind;
    e.(tickers := e.tickers[e.nextId := Ticker(e.remaining.value, IsRest(k), SlotOf(k), None)],
       handle := Some(e.nextId), nextId := e.nextId + 1)
  }

  /** `runProgramTimerStep`: show the step, and unless paused start ticking. */
  function RunStep(e: Engine): (r: Engine)
    ensures r.queue == e.queue && r.index == e.index && r.audio == e.audio
    ensures r.nextId == if e.index < |e.queue| && !e.paused then e.nextId + 1 else e.nextId
    ensures e.index >= |e.queue| ==> !r.running && !r.paused && r.tickers == e.tickers
    ensures e.index < |e.queue| ==> r.running == e.running && r.paused == e.paused
    ensures e.index < |e.queue| && e.paused ==> r.tickers == e.tickers && r.handle == e.handle
    ensures e.index < |e.queue| && !e.paused ==>
      r.handle == Some(e.nextId) && e.nextId in r.tickers
      && r.remaining.Some? && r.tickers[e.nextId].remaining == r.remaining.value
      && forall id :: id in r.tickers <==> id in e.tickers || id == e.nextId
  {
    var s := Show(e);
    if e.index < |e.queue| && !s.paused then StartTicker(s) else s
  }

  /** One second of ticker `id`: its own countdown and the shared one go down by one,
      and on a rest the countdown word is spoken once. */
  function Tock(e: Engine, id: nat): (r: Engine)
    requires id in e.tickers
    ensures r.tickers.Keys == e.tickers.Keys && r.remaining == Some(e.tickers[id].remaining - 1)
    ensures r.tickers[id].remaining == e.tickers[id].remaining - 1
    ensures r == e.(tickers := r.tickers, remaining := r.remaining, cues := r.cues)
  {
    var t := e.tickers[id];
    var left := t.remaining - 1;
    var (word, last) := Announce(t.isRest, left, t.lastAnnounced);
    var said := if word.Some? then [Say(word.value)] else [];
    e.(tickers := e.tickers[id := t.(remaining := left, lastAnnounced := last)],
       remaining := Some(left), cues := e.cues + said)
  }

  /** The end of a step: the interval under the handle is cleared, the end sound plays,
      the countdown is dropped and the next step runs. */
  function Advance(e: Engine, slot: SoundSlot): (r: Engine)
    ensures r.index == e.index + 1
  {
    var e1 := ClearInterval(e);
    RunStep(e1.(cues := e1.cues + [Play(EndSound(e.audio, slot))],
                remaining := None, active := -1, index := e.index + 1))
  }

  /** One firing of ticker `id`: nothing when that interval was cleared or the timer is
      paused; otherwise one second less, and at zero the next step. */
  function Fire(e: Engine, id: nat): (r: Engine)
    ensures id !in e.tickers || e.paused ==> r == e
    ensures id in e.tickers && !e.paused && e.tickers[id].remaining > 1 ==>
      r.index == e.index && r.remaining == Some(e.tickers[id].remaining - 1)
      && r.tickers.Keys == e.tickers.Keys
      && r.tickers[id].remaining == e.tickers[id].remaining - 1
    ensures id in e.tickers && !e.paused && e.tickers[id].remaining <= 1 ==>
      r.index == e.index + 1
  {
    if id !in e.tickers || e.paused then e
    else
      var e1 := Tock(e, id);
      if e1.remaining.value > 0 then e1 else Advance(e1, e.tickers[id].slot)
  }

  /** `pauseProgramTimer`: the live interval stops and the countdown is kept where it
      is. */
  function Pause(e: Engine): (r: Engine)
    ensures e.running && !e.paused ==>
      r.running && r.paused && r.queue == e.queue && r.index == e.index
      && r.remaining == e.remaining && r.active == e.active && r.cues == e.cues
      && forall id :: id in r.tickers <==> id in e.tickers && e.handle != Some(id)
    ensures !(e.running && !e.paused) ==> r == e
  {
    if e.running && !e.paused then ClearInterval(e).(paused := true) else e
  }

  /** `resumeProgramTimer`: the current step runs on from the countdown the pause kept,
      under one new interval; past the end, the program finishes. */
  function Resume(e: Engine): (r: Engine)
    ensures e.running && e.paused && e.index < |e.queue| ==>
      r.running && !r.paused && r.index == e.index && r.handle == Some(e.nextId)
      && (forall id :: id in r.tickers <==> id in e.tickers || id == e.nextId)
      && r.remaining.Some? && r.tickers[e.nextId].remaining == r.remaining.value
      && (e.active == e.index && e.remaining.Some? ==> r.remaining == e.remaining)
    ensures e.running && e.paused && e.index >= |e.queue| ==> !r.running && !r.paused
    ensures !(e.running && e.paused) ==> r == e
  {
    if e.running && e.paused then RunStep(e.(paused := false)) else e
  }

  /** `stopProgramTimer`: the countdown and the active step are left as they were. */
  function Stop(e: Engine): (r: Engine)
    ensures e.running ==> !r.running && !r.paused && r.index == 0 && r.queue == e.queue
                          && r.remaining == e.remaining && r.active == e.active
    ensures !e.running ==> r == e
  {
    if e.running then ClearInterval(e).(running := false, paused := false, index := 0) else e
  }

  /** `startProgramTimer`: a running timer is reset first; a program without exercises
      changes nothing more; otherwise the queue is rebuilt and its first step shown,
      paused. */
  function Start(e: Engine, exs: seq<Exercise>, rs: RestSettings): (r: Engine)
    ensures |exs| == 0 ==> r.queue == e.queue && !r.running
    ensures |exs| > 0 ==>
      r.queue == BuildQueue(exs, rs) && r.index == 0 && r.running && r.paused
      && r.remaining == Some(BuildQueue(exs, rs)[0].duration) && r.active == 0
  {
    var e1 := if e.running then ClearInterval(e).(running := false, paused := false, index := 0) else e;
    if |exs| == 0 then e1
    else
      var q := BuildQueue(exs, rs);
      BuildQueueShape(exs, rs);
      RunStep(e1.(queue := q, index := 0, running := true, paused := true, active := -1, remaining := None))
  }

  /** `startProgramTimer` together with what it does to the current program: building
      the queue writes the default moves into every exercise whose moves array is
      empty. The program then builds the same queue, and none of its exercises has an
      empty moves array; exercises without an array are left as they were. */
  function StartProgram(e: Engine, p: Program, rs: RestSettings): (r: (Engine, Program))
    ensures r.0 == Start(e, p.exercises, rs)
    ensures r.1 == p.(exercises := r.1.exercises) && |r.1.exercises| == |p.exercises|
    ensures BuildQueue(r.1.exercises, rs) == BuildQueue(p.exercises, rs)
    ensures forall k :: 0 <= k < |r.1.exercises| ==> r.1.exercises[k].moves != Some([])
    ensures forall k :: 0 <= k < |p.exercises| && p.exercises[k].moves != Some([]) ==>
      r.1.exercises[k] == p.exercises[k]
    ensures forall k :: 0 <= k < |p.exercises| && p.exercises[k].moves == Some([]) ==>
      r.1.exercises[k].moves == Some(DefaultMoves(PositiveOr1(p.exercises[k].moveCount)))
  {
    WriteBackKeepsQueue(p.exercises, rs);
    (Start(e, p.exercises, rs), p.(exercises := WrittenBack(p.exercises)))
  }

  /** `restartProgramTimer`: always reset, then start again (the 100 ms delay is left
      out). */
  function Restart(e: Engine, exs: seq<Exercise>, rs: RestSettings): (r: Engine)
    ensures |exs| > 0 ==> r.running && r.paused && r.index == 0 && r.queue == BuildQueue(exs, rs)
    ensures |exs| == 0 ==> !r.running
  {
    Start(ClearInterval(e).(running := false, paused := false, index := 0), exs, rs)
  }

  // ---- Skips ----

  /** Whether a skip has a current step to act on. */
  predicate OnStep(e: Engine) { e.running && e.index < |e.queue| }

  /** `skipProgramExercise`: to the first later step of a later exercise, else the last
      step, with a fresh countdown. */
  function SkipExercise(e: Engine): (r: Engine)
    ensures !OnStep(e) ==> r == e
    ensures OnStep(e) ==> r.index < |e.queue| && r.queue == e.queue
    ensures OnStep(e) && r.index != |e.queue| - 1 ==>
      e.index < r.index && r.queue[r.index].exerciseIndex > e.queue[e.index].exerciseIndex
    ensures OnStep(e) ==> forall j :: e.index < j < r.index ==>
      e.queue[j].exerciseIndex <= e.queue[e.index].exerciseIndex
    ensures OnStep(e) ==> r.remaining == Some(e.queue[r.index].duration)
  {
    if !OnStep(e) then e
    else
      var cur := e.queue[e.index].exerciseIndex;
      var target := match FindFrom(e.queue, e.index + 1, (s: Step) => s.exerciseIndex > cur)
                    case Some(j) => j
                    case None => |e.queue| - 1;
      RunStep(ClearInterval(e).(index := target, remaining := None, active := -1))
  }

  /** `skipProgramRest`: only on a program rest, to the first later step that is not
      one; the countdown is kept when there is none. */
  function SkipRest(e: Engine): (r: Engine)
    ensures !(OnStep(e) && e.queue[e.index].kind == ProgramRest) ==> r == e
    ensures OnStep(e) && e.queue[e.index].kind == ProgramRest ==>
      r.queue == e.queue && e.index <= r.index < |e.queue|
      && (r.index > e.index ==> r.queue[r.index].kind != ProgramRest)
      && (forall j :: e.index < j < r.index ==> e.queue[j].kind == ProgramRest)
      && (r.index == e.index ==> forall j :: e.index < j < |e.queue| ==> e.queue[j].kind == ProgramRest)
  {
    if !(OnStep(e) && e.queue[e.index].kind == ProgramRest) then e
    else
      var target := match FindFrom(e.queue, e.index + 1, (s: Step) => s.kind != ProgramRest)
                    case Some(j) => j
                    case None => e.index;
      RunStep(ClearInterval(e).(index := target))
  }

  /** `skipProgramSetRest`: only on a set rest, to the first later step that is not
      one. */
  function SkipSetRest(e: Engine): (r: Engine)
    ensures !(OnStep(e) && e.queue[e.index].kind == SetRest) ==> r == e
    ensures OnStep(e) && e.queue[e.index].kind == SetRest ==>
      r.queue == e.queue && e.index <= r.index < |e.queue|
      && (r.index > e.index ==> r.queue[r.index].kind != SetRest)
      && (forall j :: e.index < j < r.index ==> e.queue[j].kind == SetRest)
      && (r.index == e.index ==> forall j :: e.index < j < |e.queue| ==> e.queue[j].kind == SetRest)
  {
    if !(OnStep(e) && e.queue[e.index].kind == SetRest) then e
    else
      var target := match FindFrom(e.queue, e.index + 1, (s: Step) => s.kind != SetRest)
                    case Some(j) => j
                    case None => e.index;
      RunStep(ClearInterval(e).(index := target))
  }

  /** The target test of `skipCurrentSetProgram`: a move of a later set of the same
      exercise (a missing set number counts as 1), or a move of a later exercise. */
  predicate NextSetStart(s: Step, ex: int, curSet: int) {
    s.kind == ExerciseMove
    && ((s.exerciseIndex == ex && OrOne(s.setNo) > curSet) || s.exerciseIndex > ex)
  }

  /** `skipCurrentSetProgram`: to the first later step starting the next set or the next
      exercise, else the last step. */
  function SkipCurrentSet(e: Engine): (r: Engine)
    ensures !OnStep(e) ==> r == e
    ensures OnStep(e) ==> r.queue == e.queue && r.index < |e.queue|
    ensures OnStep(e) && r.index != |e.queue| - 1 ==>
      e.index < r.index
      && NextSetStart(e.queue[r.index], e.queue[e.index].exerciseIndex, OrOne(e.queue[e.index].setNo))
    ensures OnStep(e) ==> forall j :: e.index < j < r.index ==>
      !NextSetStart(e.queue[j], e.queue[e.index].exerciseIndex, OrOne(e.queue[e.index].setNo))
  {
    if !OnStep(e) then e
    else
      var cur := e.queue[e.index];
      var ex := cur.exerciseIndex;
      var curSet := OrOne(cur.setNo);
      var target := match FindFrom(e.queue, e.index + 1, (s: Step) => NextSetStart(s, ex, curSet))
                    case Some(j) => j
                    case None => |e.queue| - 1;
      RunStep(ClearInterval(e).(index := target))
  }

  // ---- Single steps ----

  /** The index one step forward, kept at the last step. */
  function ForwardIndex(e: Engine): nat {
    if e.index < |e.queue| - 1 then e.index + 1 else e.index
  }

  /** The index one step back, kept at 0. */
  function BackwardIndex(e: Engine): nat {
    if e.index > 0 then e.index - 1 else e.index
  }

  /** `stepProgramForward`, as written: the step is run, and ticks, even on a stopped
      timer. */
  function StepForwardAsWritten(e: Engine): (r: Engine)
    ensures |e.queue| == 0 ==> r == e
    ensures |e.queue| > 0 ==> r.index == ForwardIndex(e) && r.running == (e.running && ForwardIndex(e) < |e.queue|)
  {
    if |e.queue| == 0 then e else RunStep(ClearInterval(e).(index := ForwardIndex(e)))
  }

  /** `runProgramTimerStep` that starts an interval only on a running timer. */
  function RunStepGuarded(e: Engine): (r: Engine)
    ensures r.queue == e.queue && r.index == e.index
    ensures !e.running ==> r.tickers == e.tickers
    ensures e.running ==> r == RunStep(e)
  {
    var s := Show(e);
    if e.index < |e.queue| && !s.paused && s.running then StartTicker(s) else s
  }

  /** `stepProgramForward`, corrected: a stopped timer shows the step without ticking. */
  function StepForward(e: Engine): (r: Engine)
    ensures |e.queue| == 0 ==> r == e
    ensures |e.queue| > 0 ==> r.index == ForwardIndex(e)
    ensures |e.queue| > 0 && e.running ==> r == StepForwardAsWritten(e)
    ensures |e.queue| > 0 && !e.running ==> r.tickers == ClearInterval(e).tickers
  {
    if |e.queue| == 0 then e else RunStepGuarded(ClearInterval(e).(index := ForwardIndex(e)))
  }

  /** `stepProgramBackward`, as written: like the forward step, the step is run, and
      ticks, even on a stopped timer. */
  function StepBackwardAsWritten(e: Engine): (r: Engine)
    ensures |e.queue| == 0 ==> r == e
    ensures |e.queue| > 0 ==> r.index == BackwardIndex(e) && r.running == (e.running && BackwardIndex(e) < |e.queue|)
  {
    if |e.queue| == 0 then e else RunStep(ClearInterval(e).(index := BackwardIndex(e)))
  }

  /** `stepProgramBackward`, corrected in the same way: a stopped timer shows the step
      without ticking. */
  function StepBackward(e: Engine): (r: Engine)
    ensures |e.queue| == 0 ==> r == e
    ensures |e.queue| > 0 ==> r.index == BackwardIndex(e)
    ensures |e.queue| > 0 && e.running ==> r == StepBackwardAsWritten(e)
    ensures |e.queue| > 0 && !e.running ==> r.tickers == ClearInterval(e).tickers
  {
    if |e.queue| == 0 then e else RunStepGuarded(ClearInterval(e).(index := BackwardIndex(e)))
  }

  // ---- Jumps ----

  /** `getProgramIndexForExercise`: the first move of exercise `x`, or -1. */
  function IndexForExercise(q: seq<Step>, x: int): (r: int)
    ensures -1 <= r < |q|
    ensures r >= 0 ==> q[r].exerciseIndex == x && q[r].kind == ExerciseMove
    ensures r >= 0 ==> forall j :: 0 <= j < r ==> !(q[j].exerciseIndex == x && q[j].kind == ExerciseMove)
    ensures r == -1 <==> forall j :: 0 <= j < |q| ==> !(q[j].exerciseIndex == x && q[j].kind == ExerciseMove)
  {
    match FindFrom(q, 0, (s: Step) => s.exerciseIndex == x && s.kind == ExerciseMove)
    case Some(j) => j
    case None => -1
  }

  /** `getProgramIndexForExerciseSet`: the first move of set `setNumber` of exercise `x`, or -1. */
  function IndexForExerciseSet(q: seq<Step>, x: int, setNumber: int): (r: int)
    ensures -1 <= r < |q|
    ensures r >= 0 ==> q[r].exerciseIndex == x && q[r].setNo == Some(setNumber) && q[r].kind == ExerciseMove
    ensures r >= 0 ==> forall j :: 0 <= j < r ==>
      !(q[j].exerciseIndex == x && q[j].setNo == Some(setNumber) && q[j].kind == ExerciseMove)
    ensures r == -1 <==> forall j :: 0 <= j < |q| ==>
      !(q[j].exerciseIndex == x && q[j].setNo == Some(setNumber) && q[j].kind == ExerciseMove)
  {
    match FindFrom(q, 0, (s: Step) => s.exerciseIndex == x && s.setNo == Some(setNumber) && s.kind == ExerciseMove)
    case Some(j) => j
    case None => -1
  }

  /** Jump to queue position `target` when it exists: the timer runs, unpaused. */
  function JumpTo(e: Engine, hasProgram: bool, target: int): (r: Engine)
    ensures !(hasProgram && |e.queue| > 0 && target >= 0) ==> r == e
    ensures hasProgram && |e.queue| > 0 && 0 <= target < |e.queue| ==>
      r.index == target && r.running && !r.paused && r.queue == e.queue
  {
    if hasProgram && |e.queue| > 0 && target >= 0 then
      RunStep(ClearInterval(e).(index := target, running := true, paused := false))
    else e
  }

  /** `jumpToExercise` */
  function JumpToExercise(e: Engine, hasProgram: bool, x: int): Engine {
    JumpTo(e, hasProgram, IndexForExercise(e.queue, x))
  }

  /** `jumpToExerciseSet` */
  function JumpToExerciseSet(e: Engine, hasProgram: bool, x: int, setNumber: int): Engine {
    JumpTo(e, hasProgram, IndexForExerciseSet(e.queue, x, setNumber))
  }

  // ---- Buttons and colours ----

  /** Which skip buttons are enabled. */
  datatype SkipButtons = SkipButtons(skipExercise: bool, skipRest: bool, skipSetRest: bool, skipSet: bool)

  /** `updateProgramSkipButtonStates`: all off on a stopped timer; left as they are
      (`None`) when there is no current step. */
  function Buttons(e: Engine): (r: Option<SkipButtons>)
    ensures !e.running ==> r == Some(SkipButtons(false, false, false, false))
    ensures e.running && e.index >= |e.queue| ==> r.None?
  {
    if !e.running then Some(SkipButtons(false, false, false, false))
    else if e.index >= |e.queue| then None
    else
      var k := e.queue[e.index].kind;
      Some(SkipButtons(true, k == ProgramRest, k == SetRest, k != ProgramRest))
  }

  /** The buttons offer exactly the skips that would act: an enabled rest button means
      that skip moves past a rest, a disabled one that it would change nothing. */
  lemma ButtonsMatchSkips(e: Engine)
    requires Buttons(e).Some?
    ensures Buttons(e).value.skipExercise <==> OnStep(e)
    ensures Buttons(e).value.skipRest <==> OnStep(e) && e.queue[e.index].kind == ProgramRest
    ensures !Buttons(e).value.skipRest ==> SkipRest(e) == e
    ensures !Buttons(e).value.skipSetRest ==> SkipSetRest(e) == e
    ensures Buttons(e).value.skipSetRest ==> OnStep(e) && e.queue[e.index].kind == SetRest
  {
  }

  /** `getProgramTimerColor`, as a palette key: program rests take the selected colour
      button's key when there is one, everything else the step's colour; unknown keys
      fall back to blue. */
  function TimerColor(k: Kind, colorKey: string, selected: Option<string>): (c: string)
    ensures c in Palette
    ensures k == ProgramRest && selected.Some? && selected.value in Palette ==> c == selected.value
    ensures (k != ProgramRest || selected.None?) && colorKey in Palette ==> c == colorKey
  {
    if k == ProgramRest && selected.Some? then PaletteOr(selected.value, "blue")
    else PaletteOr(colorKey, "blue")
  }
}

=== FILE: program_queue.dfy ===
/** The program timer's queue: the flat list of timed steps a whole program expands
    into (`startProgramTimer`, src/features/program-timer.js).

    Each exercise is first normalised (defaults for a missing name, counts, rests,
    colours and moves), then expanded set by set, rep by rep, move by move, with
    optional rests between moves, between reps and between sets; a program rest
    follows every exercise but the last when its rest is positive. */
module ProgramQueue {
  import opened Options
  import opened Text
  import opened Workout
  import opened Durations

  datatype Kind = ExerciseMove | ExerciseRest | RepRest | SetRest | ProgramRest

  /** One timed step. `moveName` is "" on rests; `setNo`, `repNo` and `moveNo` (the
      source's `set`, `rep` and `move`) are absent where the source leaves them out of
      the step object. */
  datatype Step = Step(
    kind: Kind,
    exerciseIndex: int,
    exerciseName: string,
    moveName: string,
    duration: int,
    setNo: Option<int>,
    repNo: Option<int>,
    moveNo: Option<int>,
    color: string)

  predicate IsRest(k: Kind) { k != ExerciseMove }

  /** A move after normalisation: a name, a positive duration, a colour. */
  datatype PlanMove = PlanMove(name: string, duration: int, color: string)

  /** An exercise after normalisation. */
  datatype Plan = Plan(
    name: string,
    setCount: int,
    repCount: int,
    restEnabled: bool,
    restBetweenMoves: int,
    restBetweenSets: int,
    setRestColor: string,
    restColor: string,
    moves: seq<PlanMove>)

  /** What normalisation guarantees and the expansion relies on. */
  predicate PlanOk(p: Plan) {
    p.setCount >= 1 && p.repCount >= 1 && |p.moves| >= 1
    && forall k :: 0 <= k < |p.moves| ==> p.moves[k].duration >= 1
  }

  /** Rests between moves and between reps are taken only when enabled and positive. */
  predicate MoveRestOn(p: Plan) { p.restEnabled && p.restBetweenMoves > 0 }

  /** The label of the `i`-th move (from 1): "i. Move". */
  function MoveLabel(i: nat): string { NatToString(i) + ". Move" }

  /** The moves made up for an exercise that has none: `count` moves of 3 seconds. */
  function DefaultMoves(count: nat): (r: seq<Move>)
    ensures |r| == count
    ensures forall k :: 0 <= k < count ==> r[k] == Move(MoveLabel(k + 1), Some(3), "blue")
  {
    seq(count, k requires 0 <= k < count => Move(MoveLabel(k + 1), Some(3), "blue"))
  }

  function NormalizeMove(m: Move, idx: nat): (r: PlanMove)
    ensures r.duration >= 1
    ensures r.name != "" && r.color != ""
  {
    PlanMove(TextOr(m.name, MoveLabel(idx + 1)), PositiveOr1(m.duration), TextOr(m.color, "blue"))
  }

  /** The `.filter(m => m.duration > 0)` pass. */
  function KeepTimed(ms: seq<PlanMove>): (r: seq<PlanMove>)
    ensures forall k :: 0 <= k < |r| ==> r[k].duration > 0
  {
    if |ms| == 0 then []
    else if ms[0].duration > 0 then [ms[0]] + KeepTimed(ms[1..])
    else KeepTimed(ms[1..])
  }

  /** After normalisation every duration is already positive, so the filter keeps
      every move. */
  lemma {:induction false} KeepTimedKeepsAll(ms: seq<PlanMove>)
    requires forall k :: 0 <= k < |ms| ==> ms[k].duration >= 1
    ensures KeepTimed(ms) == ms
  {
    if |ms| > 0 {
      KeepTimedKeepsAll(ms[1..]);
      assert ms == [ms[0]] + ms[1..];
    }
  }

  function NormalizeMoves(ms: seq<Move>): (r: seq<PlanMove>)
    ensures |r| == |ms|
    ensures forall k :: 0 <= k < |ms| ==> r[k] == NormalizeMove(ms[k], k)
  {
    var mapped := seq(|ms|, k requires 0 <= k < |ms| => NormalizeMove(ms[k], k));
    KeepTimedKeepsAll(mapped);
    KeepTimed(mapped)
  }

  /** The normalised form of the exercise at position `xi`. */
  function Normalize(ex: Exercise, xi: nat): (p: Plan)
    ensures PlanOk(p)
    ensures p.name != "" && (ex.name != "" ==> p.name == ex.name)
    ensures ex.name == "" ==> p.name == "Exercise " + NatToString(xi + 1)
    ensures p.setCount == PositiveOr1(ex.setCount) && p.repCount == PositiveOr1(ex.repCount)
    ensures p.restBetweenMoves == OrZero(ex.restBetweenMoves)
    ensures p.restBetweenSets == OrZero(ex.restBetweenSets)
    ensures |StoredMoves(ex)| > 0 ==> |p.moves| == |StoredMoves(ex)|
    ensures |StoredMoves(ex)| > 0 ==>
      forall k :: 0 <= k < |StoredMoves(ex)| ==> p.moves[k].duration == PositiveOr1(StoredMoves(ex)[k].duration)
    ensures |StoredMoves(ex)| == 0 ==> |p.moves| == PositiveOr1(ex.moveCount)
    ensures |StoredMoves(ex)| == 0 ==>
      forall k :: 0 <= k < |p.moves| ==> p.moves[k] == PlanMove(MoveLabel(k + 1), 3, "blue")
  {
    var source := if |StoredMoves(ex)| == 0 then DefaultMoves(PositiveOr1(ex.moveCount)) else StoredMoves(ex);
    Plan(
      TextOr(ex.name, "Exercise " + NatToString(xi + 1)),
      PositiveOr1(ex.setCount),
      PositiveOr1(ex.repCount),
      ex.restBetweenMovesEnabled,
      OrZero(ex.restBetweenMoves),
      OrZero(ex.restBetweenSets),
      TextOr(ex.setRestColor, "orange"),
      TextOr(ex.restColor, "green"),
      NormalizeMoves(source))
  }

  // ---- What the build writes back ----

  /** The exercise as the build leaves it in the current program. The normalised
      exercise's move list is the stored array itself when there is one, so the
      default moves pushed into an empty array land in the stored exercise; a record
      without an array gets a fresh one and stays as it was. */
  function WithDefaultMoves(ex: Exercise): (r: Exercise)
    ensures r == ex.(moves := r.moves)
    ensures ex.moves != Some([]) ==> r == ex
    ensures ex.moves == Some([]) ==> r.moves == Some(DefaultMoves(PositiveOr1(ex.moveCount)))
    ensures r.moves != Some([])
  {
    if ex.moves == Some([]) then
      var d := DefaultMoves(PositiveOr1(ex.moveCount));
      assert |d| >= 1;
      ex.(moves := Some(d))
    else ex
  }

  /** Every exercise of the program as the build leaves it. */
  function WrittenBack(exs: seq<Exercise>): (r: seq<Exercise>)
    ensures |r| == |exs|
    ensures forall k :: 0 <= k < |r| ==> r[k] == WithDefaultMoves(exs[k])
  {
    seq(|exs|, k requires 0 <= k < |exs| => WithDefaultMoves(exs[k]))
  }

  /** The written-back exercise normalises to the same plan, so a later build from it
      gives the same steps. */
  lemma WriteBackKeepsPlan(ex: Exercise, xi: nat)
    ensures Normalize(WithDefaultMoves(ex), xi) == Normalize(ex, xi)
  {
    if ex.moves == Some([]) {
      assert |StoredMoves(WithDefaultMoves(ex))| == PositiveOr1(ex.moveCount) > 0;
    }
  }

  /** Writing back never happens twice: a second build leaves the program as the first
      one did. */
  lemma WriteBackOnce(exs: seq<Exercise>)
    ensures WrittenBack(WrittenBack(exs)) == WrittenBack(exs)
  {
  }

  // ---- Expansion of one exercise ----

  function MoveStep(p: Plan, xi: int, s: int, r: int, k: nat): Step
    requires k < |p.moves|
  {
    Step(ExerciseMove, xi, p.name, p.moves[k].name, p.moves[k].duration, Some(s), Some(r), Some(k + 1), p.moves[k].color)
  }

  function MoveRestStep(p: Plan, xi: int, s: int, r: int, k: nat): Step {
    Step(ExerciseRest, xi, p.name, "", p.restBetweenMoves, Some(s), Some(r), Some(k + 1), p.restColor)
  }

  function RepRestStep(p: Plan, xi: int, s: int, r: int): Step {
    Step(RepRest, xi, p.name, "", p.restBetweenMoves, Some(s), Some(r), None, p.restColor)
  }

  function SetRestStep(p: Plan, xi: int, s: int): Step {
    Step(SetRest, xi, p.name, "", p.restBetweenSets, Some(s), None, None, p.setRestColor)
  }

  /** Moves `k..` of one rep, each followed by a move rest except the last. */
  function MoveSteps(p: Plan, xi: int, s: int, r: int, k: nat): (q: seq<Step>)
    requires PlanOk(p) && k <= |p.moves|
    ensures |q| > 0 <==> k < |p.moves|
    ensures forall i :: 0 <= i < |q| ==>
      q[i].exerciseIndex == xi && q[i].setNo == Some(s) && q[i].repNo == Some(r) && q[i].duration >= 1
      && (q[i].kind == ExerciseMove || q[i].kind == ExerciseRest)
    ensures |q| > 0 ==> q[0] == MoveStep(p, xi, s, r, k)
    decreases |p.moves| - k
  {
    if k == |p.moves| then []
    else
      var rest := if MoveRestOn(p) && k < |p.moves| - 1 then [MoveRestStep(p, xi, s, r, k)] else [];
      [MoveStep(p, xi, s, r, k)] + rest + MoveSteps(p, xi, s, r, k + 1)
  }

  /** One rep: its moves, then a rep rest unless it is the last rep. */
  function RepSteps(p: Plan, xi: int, s: int, r: int): (q: seq<Step>)
    requires PlanOk(p)
    ensures |q| > 0 && q[0] == MoveStep(p, xi, s, r, 0)
    ensures forall i :: 0 <= i < |q| ==>
      q[i].exerciseIndex == xi && q[i].setNo == Some(s) && q[i].repNo == Some(r) && q[i].duration >= 1
      && q[i].kind != SetRest && q[i].kind != ProgramRest
  {
    MoveSteps(p, xi, s, r, 0)
      + (if MoveRestOn(p) && r < p.repCount then [RepRestStep(p, xi, s, r)] else [])
  }

  /** Reps `r..repCount` of one set. */
  function RepsFrom(p: Plan, xi: int, s: int, r: int): (q: seq<Step>)
    requires PlanOk(p) && 1 <= r <= p.repCount + 1
    ensures |q| > 0 <==> r <= p.repCount
    ensures |q| > 0 ==> q[0] == MoveStep(p, xi, s, r, 0)
    ensures forall i :: 0 <= i < |q| ==>
      q[i].exerciseIndex == xi && q[i].setNo == Some(s) && q[i].duration >= 1
      && q[i].repNo.Some? && r <= q[i].repNo.value <= p.repCount
      && q[i].kind != SetRest && q[i].kind != ProgramRest
    decreases p.repCount - r
  {
    if r > p.repCount then [] else RepSteps(p, xi, s, r) + RepsFrom(p, xi, s, r + 1)
  }

  /** One set: its reps, then a set rest unless it is the last set. */
  function SetSteps(p: Plan, xi: int, s: int): (q: seq<Step>)
    requires PlanOk(p)
    ensures |q| > 0 && q[0] == MoveStep(p, xi, s, 1, 0)
    ensures forall i :: 0 <= i < |q| ==>
      q[i].exerciseIndex == xi && q[i].setNo == Some(s) && q[i].duration >= 1 && q[i].kind != ProgramRest
  {
    RepsFrom(p, xi, s, 1)
      + (if p.restBetweenSets > 0 && s < p.setCount then [SetRestStep(p, xi, s)] else [])
  }

  /** Sets `s..setCount` of one exercise; set numbers never go down along the list. */
  function SetsFrom(p: Plan, xi: int, s: int): (q: seq<Step>)
    requires PlanOk(p) && 1 <= s <= p.setCount + 1
    ensures |q| > 0 <==> s <= p.setCount
    ensures |q| > 0 ==> q[0] == MoveStep(p, xi, s, 1, 0)
    ensures forall i :: 0 <= i < |q| ==>
      q[i].exerciseIndex == xi && q[i].duration >= 1 && q[i].kind != ProgramRest
      && q[i].setNo.Some? && s <= q[i].setNo.value <= p.setCount
    decreases p.setCount - s
  {
    if s > p.setCount then [] else SetSteps(p, xi, s) + SetsFrom(p, xi, s + 1)
  }

  /** The whole expansion of one normalised exercise. */
  function ExerciseSteps(p: Plan, xi: int): (q: seq<Step>)
    requires PlanOk(p)
    ensures |q| > 0 && q[0] == MoveStep(p, xi, 1, 1, 0)
    ensures forall i :: 0 <= i < |q| ==>
      q[i].exerciseIndex == xi && q[i].duration >= 1 && q[i].kind != ProgramRest
      && q[i].setNo.Some? && 1 <= q[i].setNo.value <= p.setCount
  {
    SetsFrom(p, xi, 1)
  }

  /** Set numbers never go down along a step list. */
  predicate SetsOrdered(q: seq<Step>)
    requires forall i :: 0 <= i < |q| ==> q[i].setNo.Some?
  {
    forall i, j :: 0 <= i < j < |q| ==> q[i].setNo.value <= q[j].setNo.value
  }

  /** An exercise runs its sets in order: once set `s` is left, no step of an
      earlier set comes back. */
  lemma {:induction false} SetsFromOrdered(p: Plan, xi: int, s: int)
    requires PlanOk(p) && 1 <= s <= p.setCount + 1
    ensures SetsOrdered(SetsFrom(p, xi, s))
    decreases p.setCount - s
  {
    if s <= p.setCount {
      SetsFromOrdered(p, xi, s + 1);
      SetsFromOrderedStep(p, xi, s);
    }
  }

  lemma SetsFromOrderedStep(p: Plan, xi: int, s: int)
    requires PlanOk(p) && 1 <= s <= p.setCount
    requires SetsOrdered(SetsFrom(p, xi, s + 1))
    ensures SetsOrdered(SetsFrom(p, xi, s))
  {
    var a, b := SetSteps(p, xi, s), SetsFrom(p, xi, s + 1);
    assert SetsFrom(p, xi, s) == a + b;
    OrderedAfterOneSet(a, b, s);
  }

  /** The steps of set `s` followed by an ordered list of later sets stay ordered. */
  lemma OrderedAfterOneSet(a: seq<Step>, b: seq<Step>, s: int)
    requires forall i :: 0 <= i < |a| ==> a[i].setNo == Some(s)
    requires forall i :: 0 <= i < |b| ==> b[i].setNo.Some? && s <= b[i].setNo.value
    requires SetsOrdered(b)
    ensures SetsOrdered(a + b)
  {
    var c := a + b;
    forall i: int, j: int | 0 <= i < j < |c|
      ensures c[i].setNo.value <= c[j].setNo.value
    {
      if i >= |a| {
        assert c[i] == b[i - |a|] && c[j] == b[j - |a|];
      } else if j >= |a| {
        assert c[j] == b[j - |a|];
      }
    }
  }

  lemma ExerciseStepsOrdered(p: Plan, xi: int)
    requires PlanOk(p)
    ensures SetsOrdered(ExerciseSteps(p, xi))
  {
    SetsFromOrdered(p, xi, 1);
  }

  // ---- The program queue ----

  /** The colour of program rests: the selected colour button's key, else blue. */
  function ProgramRestColor(selected: Option<string>): (c: string)
    ensures c != ""
    ensures selected.Some? && selected.value != "" ==> c == selected.value
    ensures !(selected.Some? && selected.value != "") ==> c == "blue"
  {
    if selected.Some? && selected.value != "" then selected.value else "blue"
  }

  /** The settings the builder reads besides the exercises: the program's own rests,
      the number of seconds the default-rest field reads as, and the program-rest
      colour. The field is read inside one synchronous loop, so it reads the same for
      every exercise of a build. */
  datatype RestSettings = RestSettings(custom: map<int, int>, defaultRest: int, color: string)

  /** The settings as read from the page: the default-rest field's text goes through
      the loose reading of `getRestDurationForExercise`. */
  function ReadSettings(custom: map<int, int>, field: string, color: string): RestSettings {
    RestSettings(custom, DefaultRest(field), color)
  }

  /** `getRestDurationForExercise(xi)` with the default field already read. */
  function RestOf(rs: RestSettings, xi: int): int {
    if xi in rs.custom then rs.custom[xi] else rs.defaultRest
  }

  /** Reading the field once gives every exercise the rest a fresh reading would. */
  lemma RestOfIsRestFor(custom: map<int, int>, field: string, color: string, xi: int)
    ensures RestOf(ReadSettings(custom, field, color), xi) == RestFor(custom, field, xi)
    ensures xi in custom ==> RestOf(ReadSettings(custom, field, color), xi) == custom[xi]
  {
  }

  function ProgramRestAfter(n: int, xi: int, name: string, rs: RestSettings): (q: seq<Step>)
    ensures |q| <= 1
    ensures |q| == 1 <==> xi < n - 1 && RestOf(rs, xi) > 0
    ensures |q| == 1 ==> q[0].kind == ProgramRest && q[0].exerciseIndex == xi
                         && q[0].duration == RestOf(rs, xi)
  {
    if xi < n - 1 && RestOf(rs, xi) > 0 then
      [Step(ProgramRest, xi, name, "", RestOf(rs, xi), None, None, None, rs.color)]
    else []
  }

  /** Everything exercise `xi` contributes: its steps and the rest after it. */
  function ExerciseBlock(exs: seq<Exercise>, xi: nat, rs: RestSettings): (q: seq<Step>)
    requires xi < |exs|
    ensures |q| > 0
    ensures forall i :: 0 <= i < |q| ==> q[i].exerciseIndex == xi && q[i].duration >= 1
  {
    var p := Normalize(exs[xi], xi);
    ExerciseSteps(p, xi) + ProgramRestAfter(|exs|, xi, p.name, rs)
  }

  /** Each exercise's block, in program order. */
  function Blocks(exs: seq<Exercise>, rs: RestSettings): (bs: seq<seq<Step>>)
    ensures |bs| == |exs|
    ensures forall k :: 0 <= k < |exs| ==> bs[k] == ExerciseBlock(exs, k, rs)
  {
    seq(|exs|, k requires 0 <= k < |exs| => ExerciseBlock(exs, k, rs))
  }

  /** The blocks one after another, as the `forEach` pushes them. */
  function Concat(bs: seq<seq<Step>>): seq<Step> {
    if |bs| == 0 then [] else bs[0] + Concat(bs[1..])
  }

  /** The program timer's queue. */
  function BuildQueue(exs: seq<Exercise>, rs: RestSettings): seq<Step> {
    Concat(Blocks(exs, rs))
  }

  /** Non-empty blocks whose steps belong to exercises `base`, `base + 1`, ... in turn
      and last at least a second. */
  ghost predicate BlockShape(bs: seq<seq<Step>>, base: int) {
    (forall k :: 0 <= k < |bs| ==> |bs[k]| > 0)
    && forall k, m :: 0 <= k < |bs| && 0 <= m < |bs[k]| ==>
         bs[k][m].exerciseIndex == base + k && bs[k][m].duration >= 1
  }

  /** Exercise positions never go down along a step list. */
  predicate ExercisesOrdered(q: seq<Step>) {
    forall i, j :: 0 <= i < j < |q| ==> q[i].exerciseIndex <= q[j].exerciseIndex
  }

  lemma {:induction false} ConcatShape(bs: seq<seq<Step>>, base: int)
    requires BlockShape(bs, base)
    ensures |Concat(bs)| > 0 <==> |bs| > 0
    ensures forall i :: 0 <= i < |Concat(bs)| ==>
      base <= Concat(bs)[i].exerciseIndex < base + |bs| && Concat(bs)[i].duration >= 1
    ensures ExercisesOrdered(Concat(bs))
  {
    if |bs| > 0 {
      var a := bs[0];
      var t := bs[1..];
      assert BlockShape(t, base + 1) by {
        forall k: int, m: int | 0 <= k < |t| && 0 <= m < |t[k]|
          ensures t[k][m].exerciseIndex == base + 1 + k && t[k][m].duration >= 1
        {
          assert t[k] == bs[k + 1];
        }
      }
      ConcatShape(t, base + 1);
      var b := Concat(t);
      var c: seq<Step> := a + b;
      assert Concat(bs) == c;
      forall i | 0 <= i < |c|
        ensures base <= c[i].exerciseIndex < base + |bs| && c[i].duration >= 1
      {
        if i >= |a| { assert c[i] == b[i - |a|]; } else { assert c[i] == bs[0][i]; }
      }
      forall i: int, j: int | 0 <= i < j < |c|
        ensures c[i].exerciseIndex <= c[j].exerciseIndex
      {
        if i >= |a| {
          assert c[i] == b[i - |a|] && c[j] == b[j - |a|];
        } else if j >= |a| {
          assert c[i] == bs[0][i] && c[j] == b[j - |a|];
        } else {
          assert c[i] == bs[0][i] && c[j] == bs[0][j];
        }
      }
    }
  }

  lemma BlocksShape(exs: seq<Exercise>, rs: RestSettings)
    ensures BlockShape(Blocks(exs, rs), 0)
  {
    var bs: seq<seq<Step>> := Blocks(exs, rs);
    forall k: int, m: int | 0 <= k < |bs| && 0 <= m < |bs[k]|
      ensures bs[k][m].exerciseIndex == k && bs[k][m].duration >= 1
    {
      assert bs[k] == ExerciseBlock(exs, k, rs);
    }
  }

  /** The program the build leaves behind builds the same queue again. */
  lemma WriteBackKeepsQueue(exs: seq<Exercise>, rs: RestSettings)
    ensures BuildQueue(WrittenBack(exs), rs) == BuildQueue(exs, rs)
  {
    var w := WrittenBack(exs);
    forall k | 0 <= k < |exs| ensures ExerciseBlock(w, k, rs) == ExerciseBlock(exs, k, rs) {
      WriteBackKeepsPlan(exs[k], k);
    }
    assert Blocks(w, rs) == Blocks(exs, rs);
  }

  /** The queue is empty only for a program without exercises, every step lasts at
      least a second, and it runs the exercises in program order. */
  lemma BuildQueueShape(exs: seq<Exercise>, rs: RestSettings)
    ensures |BuildQueue(exs, rs)| > 0 <==> |exs| > 0
    ensures forall i :: 0 <= i < |BuildQueue(exs, rs)| ==>
      0 <= BuildQueue(exs, rs)[i].exerciseIndex < |exs| && BuildQueue(exs, rs)[i].duration >= 1
    ensures ExercisesOrdered(BuildQueue(exs, rs))
  {
    BlocksShape(exs, rs);
    ConcatShape(Blocks(exs, rs), 0);
  }

  /** Some step of `q` is the program rest after exercise `j`. */
  ghost predicate HasProgramRest(q: seq<Step>, j: int) {
    exists i :: 0 <= i < |q| && q[i].kind == ProgramRest && q[i].exerciseIndex == j
  }

  lemma HasProgramRestAppend(a: seq<Step>, b: seq<Step>, j: int)
    ensures HasProgramRest(a + b, j) <==> HasProgramRest(a, j) || HasProgramRest(b, j)
  {
    if HasProgramRest(a + b, j) {
      var i :| 0 <= i < |a + b| && (a + b)[i].kind == ProgramRest && (a + b)[i].exerciseIndex == j;
      if i >= |a| { assert (a + b)[i] == b[i - |a|]; }
    }
    if HasProgramRest(b, j) {
      var i :| 0 <= i < |b| && b[i].kind == ProgramRest && b[i].exerciseIndex == j;
      assert (a + b)[|a| + i] == b[i];
    }
    if HasProgramRest(a, j) {
      var i :| 0 <= i < |a| && a[i].kind == ProgramRest && a[i].exerciseIndex == j;
      assert (a + b)[i] == a[i];
    }
  }

  lemma BlockProgramRest(exs: seq<Exercise>, xi: nat, rs: RestSettings, j: int)
    requires xi < |exs|
    ensures HasProgramRest(ExerciseBlock(exs, xi, rs), j)
            <==> j == xi && xi < |exs| - 1 && RestOf(rs, xi) > 0
  {
    var p := Normalize(exs[xi], xi);
    var r := ProgramRestAfter(|exs|, xi, p.name, rs);
    HasProgramRestAppend(ExerciseSteps(p, xi), r, j);
    if |r| == 1 { assert r[0].kind == ProgramRest; }
  }

  lemma {:induction false} ConcatProgramRest(bs: seq<seq<Step>>, j: int)
    ensures HasProgramRest(Concat(bs), j) <==> exists k :: 0 <= k < |bs| && HasProgramRest(bs[k], j)
  {
    if |bs| > 0 {
      ConcatProgramRest(bs[1..], j);
      HasProgramRestAppend(bs[0], Concat(bs[1..]), j);
      if exists k :: 0 <= k < |bs| && HasProgramRest(bs[k], j) {
        var k :| 0 <= k < |bs| && HasProgramRest(bs[k], j);
        if k > 0 { assert bs[1..][k - 1] == bs[k]; }
      }
      if exists k :: 0 <= k < |bs[1..]| && HasProgramRest(bs[1..][k], j) {
        var k :| 0 <= k < |bs[1..]| && HasProgramRest(bs[1..][k], j);
        assert bs[1..][k] == bs[k + 1];
      }
    }
  }

  /** A program rest for exercise `j` is in the queue exactly when `j` is not the last
      exercise and its rest is positive. */
  lemma ProgramRestPlacement(exs: seq<Exercise>, rs: RestSettings, j: int)
    ensures HasProgramRest(BuildQueue(exs, rs), j)
            <==> 0 <= j < |exs| - 1 && RestOf(rs, j) > 0
  {
    var bs: seq<seq<Step>> := Blocks(exs, rs);
    ConcatProgramRest(bs, j);
    if 0 <= j < |exs| - 1 && RestOf(rs, j) > 0 {
      BlockProgramRest(exs, j, rs, j);
    } else {
      forall k | 0 <= k < |bs| ensures !HasProgramRest(bs[k], j) {
        BlockProgramRest(exs, k, rs, j);
      }
    }
  }
}

=== FILE: program_summary.dfy ===
/** The program timer's summary panel (`computeProgramDurations`,
    `computeRemainingTime`, `formatMinutesSeconds`, `isExerciseCompleted`,
    `estimateRemainingSets` in src/features/program-timer.js).

    The panel shows two numbers: a total computed from the exercise settings by a
    closed formula, and a remaining time summed over the queue from the current step.
    The formula reads the settings a little differently from the queue builder, so
    the two agree only on the settings `EstimateExact` describes; `QueueTotal` is the
    total that agrees with the queue on every program. */
module ProgramSummary {
  import opened Options
  import opened Workout
  import opened Durations
  import opened ProgramQueue
  import opened QueueCounts

  /** `Math.max(x, 0)` */
  function Max0(x: int): int { if x > 0 then x else 0 }

  /** The `reduce` over the moves: the sum of `parseInt(m.duration) || 0`. */
  function DurationSum(ms: seq<Move>): int {
    if |ms| == 0 then 0 else OrZero(ms[0].duration) + DurationSum(ms[1..])
  }

  /** The per-exercise seconds of `computeProgramDurations`, as written: counts read
      with `|| 1`, one made-up 3-second move when there are none, every move duration
      read with `|| 0`, and the set rest multiplied in whatever its sign. */
  function ExerciseEstimate(ex: Exercise): int {
    var sets := OrOne(ex.setCount);
    var reps := OrOne(ex.repCount);
    var moveCount := if |StoredMoves(ex)| == 0 then 1 else |StoredMoves(ex)|;
    var moveTime := if |StoredMoves(ex)| == 0 then 3 else DurationSum(StoredMoves(ex));
    var rbm := OrZero(ex.restBetweenMoves);
    sets * reps * moveTime
    + When(ex.restBetweenMovesEnabled && rbm > 0,
           sets * reps * Max0(moveCount - 1) * rbm + sets * Max0(reps - 1) * rbm)
    + Max0(sets - 1) * OrZero(ex.restBetweenSets)
  }

  /** The sum of a list of numbers. */
  function Total(xs: seq<int>): int {
    if |xs| == 0 then 0 else xs[0] + Total(xs[1..])
  }

  /** Adding two lists entry by entry adds their totals. */
  lemma {:induction false} TotalAdd(a: seq<int>, b: seq<int>, c: seq<int>)
    requires |a| == |b| == |c|
    requires forall j :: 0 <= j < |c| ==> c[j] == a[j] + b[j]
    ensures Total(a) + Total(b) == Total(c)
  {
    if |c| > 0 {
      TotalAdd(a[1..], b[1..], c[1..]);
    }
  }

  /** The first loop: each exercise's estimate. */
  function Estimates(exs: seq<Exercise>): seq<int> {
    seq(|exs|, j requires 0 <= j < |exs| => ExerciseEstimate(exs[j]))
  }

  /** The second loop: the rest after every exercise but the last, whatever its sign. */
  function Rests(exs: seq<Exercise>, rs: RestSettings): seq<int> {
    seq(|exs|, j => if j + 1 < |exs| then RestOf(rs, j) else 0)
  }

  /** `computeProgramDurations().totalSeconds`, as written. */
  function ProgramEstimate(exs: seq<Exercise>, rs: RestSettings): int {
    Total(Estimates(exs)) + Total(Rests(exs, rs))
  }

  // ---- The total as the queue has it ----

  /** The seconds exercise `k` and the program rest after it take in the queue. */
  function BlockSeconds(exs: seq<Exercise>, rs: RestSettings, k: nat): int
    requires k < |exs|
  {
    ExerciseSeconds(Normalize(exs[k], k))
    + When(k < |exs| - 1 && RestOf(rs, k) > 0, RestOf(rs, k))
  }

  function BlockTimes(exs: seq<Exercise>, rs: RestSettings): seq<int> {
    seq(|exs|, k requires 0 <= k < |exs| => BlockSeconds(exs, rs, k))
  }

  /** The total the panel evidently means: the normalised exercises' closed forms plus
      the positive program rests. */
  function QueueTotal(exs: seq<Exercise>, rs: RestSettings): int {
    Total(BlockTimes(exs, rs))
  }

  /** The seconds of each block. */
  function BlockLengths(bs: seq<seq<Step>>): seq<int> {
    seq(|bs|, k requires 0 <= k < |bs| => Seconds(bs[k]))
  }

  /** The blocks run one after another take the total of their lengths. */
  lemma {:induction false} ConcatSeconds(bs: seq<seq<Step>>)
    ensures Seconds(Concat(bs)) == Total(BlockLengths(bs))
  {
    if |bs| > 0 {
      ConcatSeconds(bs[1..]);
      SecondsAppend(bs[0], Concat(bs[1..]));
      assert BlockLengths(bs)[1..] == BlockLengths(bs[1..]);
    }
  }

  lemma ExerciseStepsSeconds(p: Plan, xi: int)
    requires PlanOk(p)
    ensures Seconds(ExerciseSteps(p, xi)) == ExerciseSeconds(p)
  {
    SecondsIsTallied(ExerciseSteps(p, xi));
    ExerciseTally(p, xi);
  }

  lemma ExerciseBlockSeconds(exs: seq<Exercise>, rs: RestSettings, k: nat)
    requires k < |exs|
    ensures Seconds(ExerciseBlock(exs, k, rs)) == BlockSeconds(exs, rs, k)
  {
    var p := Normalize(exs[k], k);
    var r := ProgramRestAfter(|exs|, k, p.name, rs);
    SecondsAppend(ExerciseSteps(p, k), r);
    ExerciseStepsSeconds(p, k);
    if |r| == 1 {
      assert Seconds(r) == r[0].duration + Seconds(r[1..]);
    }
  }

  /** `QueueTotal` is exactly how long the queue built for the same program takes. */
  lemma QueueTotalIsQueueLength(exs: seq<Exercise>, rs: RestSettings)
    ensures QueueTotal(exs, rs) == Seconds(BuildQueue(exs, rs))
  {
    ConcatSeconds(Blocks(exs, rs));
    BlockLengthsAreTimes(exs, rs);
  }

  lemma BlockLengthsAreTimes(exs: seq<Exercise>, rs: RestSettings)
    ensures BlockLengths(Blocks(exs, rs)) == BlockTimes(exs, rs)
  {
    var ls, ts := BlockLengths(Blocks(exs, rs)), BlockTimes(exs, rs);
    forall k | 0 <= k < |exs| ensures ls[k] == ts[k] {
      ExerciseBlockSeconds(exs, rs, k);
    }
  }

  // ---- Where the formula and the queue agree ----

  predicate NotNegative(n: Num) { n.None? || n.value >= 0 }

  /** The settings on which the closed formula reads an exercise as the queue builder
      does: counts not negative, a set rest not negative, every move timed, and at most
      one made-up move when the exercise has none. */
  predicate EstimateExact(ex: Exercise) {
    NotNegative(ex.setCount) && NotNegative(ex.repCount) && OrZero(ex.restBetweenSets) >= 0
    && (|StoredMoves(ex)| == 0 ==> PositiveOr1(ex.moveCount) == 1)
    && forall k :: 0 <= k < |StoredMoves(ex)| ==> Positive(StoredMoves(ex)[k].duration)
  }

  predicate ProgramEstimateExact(exs: seq<Exercise>, rs: RestSettings) {
    (forall i :: 0 <= i < |exs| ==> EstimateExact(exs[i]))
    && forall i :: 0 <= i < |exs| - 1 ==> RestOf(rs, i) >= 0
  }

  lemma {:induction false} DurationSumOfTimed(ex: Exercise, xi: nat, k: nat)
    requires EstimateExact(ex) && |StoredMoves(ex)| > 0 && k <= |StoredMoves(ex)|
    ensures MovesSeconds(Normalize(ex, xi).moves, k) == DurationSum(StoredMoves(ex)[k..])
    decreases |StoredMoves(ex)| - k
  {
    if k < |StoredMoves(ex)| {
      DurationSumOfTimed(ex, xi, k + 1);
      assert StoredMoves(ex)[k..][1..] == StoredMoves(ex)[k + 1..];
      assert Positive(StoredMoves(ex)[k].duration);
    }
  }

  lemma Distrib(x: int, y: int, z: int)
    ensures x * (y + z) == x * y + x * z
  {
  }

  lemma MulAssoc(x: int, y: int, z: int)
    ensures x * y * z == x * (y * z)
  {
  }

  /** The closed formula for one exercise, with the rests folded in. */
  lemma EstimateAlgebra(sets: int, reps: int, moveCount: int, moveTime: int, rbm: int, rbs: int, on: bool)
    requires sets >= 1 && reps >= 1 && moveCount >= 1 && rbs >= 0
    ensures sets * reps * moveTime
            + When(on, sets * reps * Max0(moveCount - 1) * rbm + sets * Max0(reps - 1) * rbm)
            + Max0(sets - 1) * rbs
         == sets * (reps * (moveTime + When(on, (moveCount - 1) * rbm)) + When(on, (reps - 1) * rbm))
            + When(rbs > 0, (sets - 1) * rbs)
  {
    var a := (moveCount - 1) * rbm;
    var b := (reps - 1) * rbm;
    MulAssoc(sets, reps, moveTime);
    if on {
      MulAssoc(sets * reps, moveCount - 1, rbm);
      MulAssoc(sets, reps, a);
      MulAssoc(sets, reps - 1, rbm);
      Distrib(sets, reps * (moveTime + a), b);
      Distrib(reps, moveTime, a);
      Distrib(sets, reps * moveTime, reps * a);
    }
    if rbs == 0 {
      assert Max0(sets - 1) * rbs == 0;
    }
  }

  /** On exact settings the formula's move count and move time are those of the
      normalised moves. */
  lemma MovesOfExact(ex: Exercise, xi: nat)
    requires EstimateExact(ex)
    ensures (if |StoredMoves(ex)| == 0 then 1 else |StoredMoves(ex)|) == |Normalize(ex, xi).moves|
    ensures (if |StoredMoves(ex)| == 0 then 3 else DurationSum(StoredMoves(ex))) == MovesSeconds(Normalize(ex, xi).moves, 0)
  {
    var p := Normalize(ex, xi);
    if |StoredMoves(ex)| > 0 {
      DurationSumOfTimed(ex, xi, 0);
      assert StoredMoves(ex)[0..] == StoredMoves(ex);
    } else {
      assert |p.moves| == 1 && p.moves[0].duration == 3;
      assert MovesSeconds(p.moves, 1) == 0;
    }
  }

  /** On exact settings the formula gives what the queue of that exercise takes. */
  lemma EstimateOfExact(ex: Exercise, xi: nat)
    requires EstimateExact(ex)
    ensures ExerciseEstimate(ex) == ExerciseSeconds(Normalize(ex, xi))
  {
    MovesOfExact(ex, xi);
    PlanOfExact(ex, xi);
    EstimateOfMatchingPlan(ex, Normalize(ex, xi));
  }

  /** The formula gives the seconds of any plan whose counts, rests and moves are the
      ones the formula reads. */
  lemma EstimateOfMatchingPlan(ex: Exercise, p: Plan)
    requires PlanOk(p) && p.restBetweenSets >= 0
    requires OrOne(ex.setCount) == p.setCount && OrOne(ex.repCount) == p.repCount
    requires OrZero(ex.restBetweenMoves) == p.restBetweenMoves
    requires OrZero(ex.restBetweenSets) == p.restBetweenSets
    requires (ex.restBetweenMovesEnabled && OrZero(ex.restBetweenMoves) > 0) == MoveRestOn(p)
    requires (if |StoredMoves(ex)| == 0 then 1 else |StoredMoves(ex)|) == |p.moves|
    requires (if |StoredMoves(ex)| == 0 then 3 else DurationSum(StoredMoves(ex))) == MovesSeconds(p.moves, 0)
    ensures ExerciseEstimate(ex) == ExerciseSeconds(p)
  {
    EstimateAlgebra(p.setCount, p.repCount, |p.moves|, MovesSeconds(p.moves, 0),
                    p.restBetweenMoves, p.restBetweenSets, MoveRestOn(p));
    SecondsFormula(p);
  }

  /** On exact settings the formula's counts and rests are the normalised ones. */
  lemma PlanOfExact(ex: Exercise, xi: nat)
    requires EstimateExact(ex)
    ensures var p := Normalize(ex, xi);
            OrOne(ex.setCount) == p.setCount && OrOne(ex.repCount) == p.repCount
            && OrZero(ex.restBetweenMoves) == p.restBetweenMoves
            && OrZero(ex.restBetweenSets) == p.restBetweenSets
            && (ex.restBetweenMovesEnabled && OrZero(ex.restBetweenMoves) > 0) == MoveRestOn(p)
  {
  }

  /** The seconds of an exercise's steps, sets, reps and moves multiplied out. */
  lemma SecondsFormula(p: Plan)
    requires PlanOk(p)
    ensures ExerciseSeconds(p)
         == p.setCount * (p.repCount * (MovesSeconds(p.moves, 0) + When(MoveRestOn(p), (|p.moves| - 1) * p.restBetweenMoves))
                          + When(MoveRestOn(p), (p.repCount - 1) * p.restBetweenMoves))
            + When(p.restBetweenSets > 0, (p.setCount - 1) * p.restBetweenSets)
  {
  }

  /** On exact settings one exercise's block lasts its estimate plus the rest after it. */
  lemma BlockSecondsExact(exs: seq<Exercise>, rs: RestSettings, k: nat)
    requires ProgramEstimateExact(exs, rs) && k < |exs|
    ensures BlockSeconds(exs, rs, k)
         == ExerciseEstimate(exs[k]) + (if k + 1 < |exs| then RestOf(rs, k) else 0)
  {
    EstimateOfExact(exs[k], k);
  }

  /** On exact settings the panel's total equals the length of the queue the timer
      runs. */
  lemma EstimateMatchesQueue(exs: seq<Exercise>, rs: RestSettings)
    requires ProgramEstimateExact(exs, rs)
    ensures ProgramEstimate(exs, rs) == Seconds(BuildQueue(exs, rs))
  {
    var es, rests, ts := Estimates(exs), Rests(exs, rs), BlockTimes(exs, rs);
    forall k | 0 <= k < |ts| ensures ts[k] == es[k] + rests[k] {
      BlockSecondsExact(exs, rs, k);
    }
    TotalAdd(es, rests, ts);
    QueueTotalIsQueueLength(exs, rs);
  }

  /** The settings the formula reads as the queue builder does, apart from the moves
      made up for an exercise that has none. */
  predicate SettingsExact(ex: Exercise) {
    NotNegative(ex.setCount) && NotNegative(ex.repCount) && OrZero(ex.restBetweenSets) >= 0
    && forall k :: 0 <= k < |StoredMoves(ex)| ==> Positive(StoredMoves(ex)[k].duration)
  }

  /** After a start has written the default moves back, the formula is exact for an
      exercise that has a moves array, whatever its move count. */
  lemma WrittenBackExact(ex: Exercise)
    requires ex.moves.Some? && SettingsExact(ex)
    ensures EstimateExact(WithDefaultMoves(ex))
  {
    var w := WithDefaultMoves(ex);
    if ex.moves == Some([]) {
      var d := DefaultMoves(PositiveOr1(ex.moveCount));
      assert StoredMoves(w) == d;
      assert forall k :: 0 <= k < |d| ==> d[k].duration == Some(3);
    }
  }

  /** The panel as `startProgramTimer` first shows it: on a program whose exercises all
      have a moves array, with exact settings, its total is the length of the queue
      the timer runs, even for exercises whose array was empty. */
  lemma SummaryAfterStartMatchesQueue(exs: seq<Exercise>, rs: RestSettings)
    requires forall i :: 0 <= i < |exs| ==> exs[i].moves.Some? && SettingsExact(exs[i])
    requires forall i :: 0 <= i < |exs| - 1 ==> RestOf(rs, i) >= 0
    ensures ProgramEstimate(WrittenBack(exs), rs) == Seconds(BuildQueue(exs, rs))
  {
    var w := WrittenBack(exs);
    forall i | 0 <= i < |w| ensures EstimateExact(w[i]) {
      WrittenBackExact(exs[i]);
    }
    EstimateMatchesQueue(w, rs);
    WriteBackKeepsQueue(exs, rs);
  }

  /** An exercise stored without a moves array and with a move count of 3: the timer
      runs three 3-second moves, the formula counts one. */
  const Unmoved := Exercise("1", "Squats", Some(1), Some(1), Some(3), None, None, None, false, "", "", "")

  /** The queue builder gives that exercise three moves of 3 seconds each. */
  lemma UnmovedRunsNine()
    ensures ExerciseSeconds(Normalize(Unmoved, 0)) == 9
  {
    var p := Normalize(Unmoved, 0);
    assert |p.moves| == 3;
    assert p.moves[0].duration == 3 && p.moves[1].duration == 3 && p.moves[2].duration == 3;
    assert MovesSeconds(p.moves, 3) == 0;
    assert MovesSeconds(p.moves, 2) == 3;
    assert MovesSeconds(p.moves, 1) == 6;
  }

  /** The start leaves that exercise as it is, and the formula's total for a program of
      that one exercise is then 3 seconds while its queue lasts 9. */
  lemma EstimateMissesDefaultMoves(rs: RestSettings)
    ensures WrittenBack([Unmoved]) == [Unmoved]
    ensures ProgramEstimate(WrittenBack([Unmoved]), rs) == 3
    ensures Seconds(BuildQueue([Unmoved], rs)) == 9
  {
    assert ExerciseEstimate(Unmoved) == 3;
    assert Estimates([Unmoved]) == [3];
    assert Rests([Unmoved], rs) == [0];
    UnmovedRunsNine();
    assert BlockTimes([Unmoved], rs) == [9];
    assert [3][1..] == [0][1..] == [9][1..] == [];
    QueueTotalIsQueueLength([Unmoved], rs);
  }

  // ---- The remaining time and the per-exercise progress ----

  /** `computeRemainingTime`: the durations of the steps from `index` to the end. */
  method RemainingTime(q: seq<Step>, index: nat) returns (remaining: int)
    ensures index <= |q| ==> remaining == Seconds(q[index..])
    ensures index >= |q| ==> remaining == 0
  {
    remaining := 0;
    var i := index;
    while i < |q|
      invariant index <= |q| ==> index <= i <= |q| && remaining + Seconds(q[i..]) == Seconds(q[index..])
      invariant index > |q| ==> i == index && remaining == 0
      decreases |q| - i
    {
      assert q[i..][1..] == q[i + 1..];
      remaining := remaining + q[i].duration;
      i := i + 1;
    }
  }

  /** The remaining time splits at any later index: what is left from `i` is what lies
      between `i` and `j` plus what is left from `j`. */
  lemma {:induction false} SecondsSplit(q: seq<Step>, i: nat, j: nat)
    requires i <= j <= |q|
    ensures Seconds(q[i..]) == Seconds(q[i..j]) + Seconds(q[j..])
  {
    assert q[i..] == q[i..j] + q[j..];
    SecondsAppend(q[i..j], q[j..]);
  }

  /** On a freshly built queue, before the first step, the remaining time is the whole
      queue's length, and it goes down by at least one second per step passed. */
  lemma RemainingAtStart(exs: seq<Exercise>, rs: RestSettings, i: nat, j: nat)
    requires i < j <= |BuildQueue(exs, rs)|
    ensures Seconds(BuildQueue(exs, rs)[0..]) == QueueTotal(exs, rs)
    ensures Seconds(BuildQueue(exs, rs)[i..]) >= Seconds(BuildQueue(exs, rs)[j..]) + (j - i)
  {
    var q := BuildQueue(exs, rs);
    assert q[0..] == q;
    QueueTotalIsQueueLength(exs, rs);
    BuildQueueShape(exs, rs);
    SecondsDrop(q, i, j);
  }

  /** On steps of at least a second each, passing `j - i` steps takes at least `j - i`
      seconds off what remains. */
  lemma SecondsDrop(q: seq<Step>, i: nat, j: nat)
    requires i < j <= |q|
    requires forall k :: 0 <= k < |q| ==> q[k].duration >= 1
    ensures Seconds(q[i..]) >= Seconds(q[j..]) + (j - i)
  {
    SecondsSplit(q, i, j);
    AtLeastOnePerStep(q[i..j]);
  }

  lemma {:induction false} AtLeastOnePerStep(q: seq<Step>)
    requires forall k :: 0 <= k < |q| ==> q[k].duration >= 1
    ensures Seconds(q) >= |q|
  {
    if |q| > 0 {
      AtLeastOnePerStep(q[1..]);
    }
  }

  /** `formatMinutesSeconds`: whole minutes rounded down and the seconds left over,
      with a negative remainder shown as 0. */
  function FormatMinutesSeconds(total: int): (r: (int, int))
    ensures 0 <= r.1 < 60
    ensures r.0 * 60 <= total < r.0 * 60 + 60
    ensures total >= 0 ==> r.0 * 60 + r.1 == total
    ensures total < 0 && total % 60 != 0 ==> r.1 == 0
  {
    (total / 60, Max0(JsRem(total, 60)))
  }

  /** `isExerciseCompleted`: the current step belongs to a later exercise. */
  function IsExerciseCompleted(q: seq<Step>, index: nat, e: int): bool {
    index < |q| && e < q[index].exerciseIndex
  }

  /** On a built queue an exercise counts as completed exactly when the timer still
      has steps to run and none of them belongs to that exercise. */
  lemma CompletedMeansNothingLeft(exs: seq<Exercise>, rs: RestSettings, index: nat, e: int)
    requires 0 <= e < |exs|
    ensures IsExerciseCompleted(BuildQueue(exs, rs), index, e)
        <==> index < |BuildQueue(exs, rs)|
             && forall j :: index <= j < |BuildQueue(exs, rs)| ==> BuildQueue(exs, rs)[j].exerciseIndex != e
  {
    BuildQueueShape(exs, rs);
    var first := ExerciseStart(exs, rs, e);
    CompletedInOrder(BuildQueue(exs, rs), index, e, first);
  }

  /** In a queue that runs the exercises in order, an exercise with a step is completed
      exactly when none of the steps left belongs to it. */
  lemma CompletedInOrder(q: seq<Step>, index: nat, e: int, first: nat)
    requires ExercisesOrdered(q)
    requires first < |q| && q[first].exerciseIndex == e
    ensures IsExerciseCompleted(q, index, e)
        <==> index < |q| && forall j :: index <= j < |q| ==> q[j].exerciseIndex != e
  {
    if IsExerciseCompleted(q, index, e) {
      forall j | index <= j < |q| ensures q[j].exerciseIndex != e {
        assert q[index].exerciseIndex <= q[j].exerciseIndex;
      }
    } else if index < |q| && forall j :: index <= j < |q| ==> q[j].exerciseIndex != e {
      if first < index {
        assert q[first].exerciseIndex <= q[index].exerciseIndex;
      }
    }
  }

  /** Every exercise of the program has a step in the queue. */
  lemma ExerciseStart(exs: seq<Exercise>, rs: RestSettings, e: int) returns (j: nat)
    requires 0 <= e < |exs|
    ensures j < |BuildQueue(exs, rs)| && BuildQueue(exs, rs)[j].exerciseIndex == e
  {
    var bs: seq<seq<Step>> := Blocks(exs, rs);
    j := ConcatHead(bs, e);
  }

  /** The first step of block `k` sits in the concatenation. */
  lemma {:induction false} ConcatHead(bs: seq<seq<Step>>, k: nat) returns (j: nat)
    requires k < |bs| && |bs[k]| > 0
    ensures j < |Concat(bs)| && Concat(bs)[j] == bs[k][0]
  {
    if k == 0 {
      j := 0;
    } else {
      assert bs[1..][k - 1] == bs[k];
      var j' := ConcatHead(bs[1..], k - 1);
      j := |bs[0]| + j';
      assert Concat(bs)[j] == Concat(bs[1..])[j'];
    }
  }

  /** `estimateRemainingSets`: none for an exercise behind the current step, all for one
      ahead of it, and for the current exercise the sets from the current one on. */
  function EstimateRemainingSets(q: seq<Step>, index: nat, e: int, totalSets: int): (r: int)
    ensures index >= |q| ==> r == totalSets
    ensures index < |q| && q[index].exerciseIndex < e ==> r == totalSets
    ensures index < |q| && q[index].exerciseIndex > e ==> r == 0
    ensures index < |q| && q[index].exerciseIndex == e ==> r >= 0
    ensures index < |q| && q[index].exerciseIndex == e && q[index].setNo.Some? && q[index].setNo.value >= 1
            ==> r == Max0(totalSets - q[index].setNo.value + 1) && r <= Max0(totalSets)
  {
    if index >= |q| then totalSets
    else
      var current := q[index];
      if current.exerciseIndex > e then 0
      else if current.exerciseIndex < e then totalSets
      else Max0(totalSets - OrOne(current.setNo) + 1)
  }

  /** The two progress readings agree: a completed exercise has no set left. */
  lemma CompletedHasNoSetsLeft(q: seq<Step>, index: nat, e: int, totalSets: int)
    requires IsExerciseCompleted(q, index, e)
    ensures EstimateRemainingSets(q, index, e, totalSets) == 0
  {
  }

  /** On a built queue, while exercise `e` runs set `s`, the estimate counts set `s`
      and the ones after it: from 1 (the last set) up to all of them (the first). */
  lemma RemainingSetsOfRunning(exs: seq<Exercise>, rs: RestSettings, index: nat, e: int)
    requires 0 <= e < |exs| && index < |BuildQueue(exs, rs)|
    requires BuildQueue(exs, rs)[index].exerciseIndex == e
    requires BuildQueue(exs, rs)[index].kind != ProgramRest
    ensures var sets := Normalize(exs[e], e).setCount;
            1 <= EstimateRemainingSets(BuildQueue(exs, rs), index, e, sets) <= sets
  {
    SetNumberInRange(exs, rs, index);
  }

  /** Every step of the queue but a program rest belongs to an exercise of the program
      and carries one of that exercise's set numbers. */
  lemma SetNumberInRange(exs: seq<Exercise>, rs: RestSettings, i: nat)
    requires i < |BuildQueue(exs, rs)| && BuildQueue(exs, rs)[i].kind != ProgramRest
    ensures var x := BuildQueue(exs, rs)[i].exerciseIndex;
            0 <= x < |exs| && BuildQueue(exs, rs)[i].setNo.Some?
            && 1 <= BuildQueue(exs, rs)[i].setNo.value <= Normalize(exs[x], x).setCount
  {
    var k, m := BlockOf(exs, rs, i);
    var p := Normalize(exs[k], k);
    assert ExerciseBlock(exs, k, rs) == ExerciseSteps(p, k) + ProgramRestAfter(|exs|, k, p.name, rs);
  }

  /** Which block, and where inside it, a queue position falls. */
  lemma BlockOf(exs: seq<Exercise>, rs: RestSettings, index: nat) returns (k: nat, m: nat)
    requires index < |BuildQueue(exs, rs)|
    ensures k < |exs| && m < |ExerciseBlock(exs, k, rs)|
    ensures BuildQueue(exs, rs)[index] == ExerciseBlock(exs, k, rs)[m]
  {
    var bs: seq<seq<Step>> := Blocks(exs, rs);
    k, m := ConcatLocate(bs, index);
  }

  lemma {:induction false} ConcatLocate(bs: seq<seq<Step>>, i: nat) returns (k: nat, m: nat)
    requires i < |Concat(bs)|
    ensures k < |bs| && m < |bs[k]| && Concat(bs)[i] == bs[k][m]
  {
    if i < |bs[0]| {
      k, m := 0, i;
    } else {
      var k', m' := ConcatLocate(bs[1..], i - |bs[0]|);
      k, m := k' + 1, m';
      assert bs[1..][k'] == bs[k];
    }
  }
}

=== FILE: programs.dfy ===
/** The program list (src/features/programs.js; js/programs.js repeats a subset of it
    with the same logic): loading the stored list, creating, opening, loading by id and
    deleting by id, and the current program.

    The store holds the `allPrograms` entry: missing (or empty), unreadable, or a parsed
    list. `Date.now()`, the creation time stamp and `confirm()` are inputs. */
module Programs {
  import opened Options
  import opened Text
  import opened Workout

  /** What `localStorage.getItem('allPrograms')` and `JSON.parse` give. */
  datatype Stored = Missing | Corrupt | Parsed(programs: seq<Program>)

  /** `loadAllPrograms`: the stored list, or the empty list when there is none or it
      cannot be parsed. */
  function LoadAll(s: Stored): (r: seq<Program>)
    ensures s.Parsed? ==> r == s.programs
    ensures !s.Parsed? ==> r == []
  {
    if s.Parsed? then s.programs else []
  }

  /** `saveAllPrograms`: the list written back. */
  function Save(programs: seq<Program>): (r: Stored)
    ensures r.Parsed?
  {
    Parsed(programs)
  }

  /** Loading what was saved gives the list back. */
  lemma LoadSaved(programs: seq<Program>)
    ensures LoadAll(Save(programs)) == programs
  {
  }

  /** The in-memory list, the current program and its position (set only when a
      program is opened from the home list). */
  datatype Library = Library(programs: seq<Program>, current: Option<Program>, currentIndex: int)

  predicate NameTaken(programs: seq<Program>, name: string) {
    exists k :: 0 <= k < |programs| && programs[k].name == name
  }

  /** No two programs share a name. */
  predicate DistinctNames(programs: seq<Program>) {
    forall i, j :: 0 <= i < j < |programs| ==> programs[i].name != programs[j].name
  }

  /** `createProgram`: a blank name or one already in the list changes nothing;
      otherwise a program with that name, the given id and no exercises is appended
      and becomes the current one. */
  function CreateProgram(lib: Library, input: string, now: int, createdAt: string): (r: Library)
    ensures Trim(input) == "" ==> r == lib
    ensures NameTaken(lib.programs, Trim(input)) ==> r == lib
    ensures Trim(input) != "" && !NameTaken(lib.programs, Trim(input)) ==>
      |r.programs| == |lib.programs| + 1 && r.programs[..|lib.programs|] == lib.programs
      && r.current == Some(r.programs[|lib.programs|])
      && r.programs[|lib.programs|] == Program(NumId(now), Trim(input), [], map[], createdAt)
    ensures r.currentIndex == lib.currentIndex
  {
    var name := Trim(input);
    if name == "" || NameTaken(lib.programs, name) then lib
    else
      var p := Program(NumId(now), name, [], map[], createdAt);
      assert (lib.programs + [p])[..|lib.programs|] == lib.programs;
      lib.(programs := lib.programs + [p], current := Some(p))
  }

  /** Creating never gives two programs the same name. */
  lemma CreateKeepsNamesDistinct(lib: Library, input: string, now: int, createdAt: string)
    requires DistinctNames(lib.programs)
    ensures DistinctNames(CreateProgram(lib, input, now, createdAt).programs)
  {
    var r := CreateProgram(lib, input, now, createdAt);
    if r != lib {
      var n := |lib.programs|;
      forall i, j | 0 <= i < j < |r.programs| ensures r.programs[i].name != r.programs[j].name {
        if j == n {
          assert r.programs[i] == lib.programs[i];
        } else {
          assert r.programs[i] == lib.programs[i] && r.programs[j] == lib.programs[j];
        }
      }
    }
  }

  /** `programs.find(p => p.id === id)`: the first program with that id. */
  function Find(programs: seq<Program>, id: Id): (r: Option<Program>)
    ensures r.Some? ==> r.value.id == id
    ensures r.Some? ==> exists k :: 0 <= k < |programs| && programs[k] == r.value
                                 && forall j :: 0 <= j < k ==> programs[j].id != id
    ensures r.None? <==> forall k :: 0 <= k < |programs| ==> programs[k].id != id
  {
    if |programs| == 0 then None
    else if programs[0].id == id then Some(programs[0])
    else
      var r := Find(programs[1..], id);
      assert r.Some? ==> exists k :: 0 <= k < |programs| && programs[k] == r.value
                                   && forall j :: 0 <= j < k ==> programs[j].id != id by {
        if r.Some? {
          var k :| 0 <= k < |programs| - 1 && programs[1..][k] == r.value
                   && forall j :: 0 <= j < k ==> programs[1..][j].id != id;
          assert programs[k + 1] == r.value;
          assert forall j :: 1 <= j < k + 1 ==> programs[j] == programs[1..][j - 1];
        }
      }
      r
  }

  /** `startProgram` and `editProgram`, which do the same: a position inside the list
      opens that program; any other position changes nothing. */
  function OpenAt(lib: Library, index: int): (r: Library)
    ensures r.programs == lib.programs
    ensures 0 <= index < |lib.programs| ==>
      r.current == Some(lib.programs[index]) && r.currentIndex == index
    ensures !(0 <= index < |lib.programs|) ==> r == lib
  {
    if index >= 0 && index < |lib.programs| then
      lib.(current := Some(lib.programs[index]), currentIndex := index)
    else lib
  }

  /** `loadProgram`: the list is reloaded from the store, then the first program with
      the id becomes current; when there is none the current program stays. */
  function LoadProgram(lib: Library, stored: Stored, id: Id): (r: Library)
    ensures r.programs == LoadAll(stored) && r.currentIndex == lib.currentIndex
    ensures r.current.Some? && r.current != lib.current ==> r.current.value.id == id && r.current.value in r.programs
    ensures (forall k :: 0 <= k < |r.programs| ==> r.programs[k].id != id) ==> r.current == lib.current
    ensures (exists k :: 0 <= k < |r.programs| && r.programs[k].id == id) ==>
      r.current.Some? && r.current.value.id == id
  {
    var programs := LoadAll(stored);
    var found := Find(programs, id);
    lib.(programs := programs, current := if found.Some? then found else lib.current)
  }

  /** No two programs share an id. */
  predicate DistinctIds(programs: seq<Program>) {
    forall i, j :: 0 <= i < j < |programs| ==> programs[i].id != programs[j].id
  }

  /** Opening the `i`-th program from the home list and loading it by its id from a
      store holding the same list make the same program current. */
  lemma OpenAtAgreesWithLoad(lib: Library, i: int)
    requires 0 <= i < |lib.programs| && DistinctIds(lib.programs)
    ensures LoadProgram(lib, Save(lib.programs), lib.programs[i].id).current == OpenAt(lib, i).current
  {
    var id := lib.programs[i].id;
    var found := Find(lib.programs, id);
    assert found.Some?;
    var k :| 0 <= k < |lib.programs| && lib.programs[k] == found.value
             && forall j :: 0 <= j < k ==> lib.programs[j].id != id;
    assert k == i;
  }

  /** `filter(p => p.id !== id)` */
  function Without(programs: seq<Program>, id: Id): (r: seq<Program>)
    ensures |r| <= |programs|
    ensures forall k :: 0 <= k < |r| ==> r[k].id != id
  {
    if |programs| == 0 then []
    else (if programs[0].id == id then [] else [programs[0]]) + Without(programs[1..], id)
  }

  /** A program survives the filter exactly when it does not carry the id. */
  lemma {:induction false} WithoutMembers(programs: seq<Program>, id: Id, p: Program)
    ensures p in Without(programs, id) <==> p in programs && p.id != id
  {
    if |programs| > 0 {
      WithoutMembers(programs[1..], id, p);
      assert programs == [programs[0]] + programs[1..];
    }
  }

  /** The filter works piecewise, so the survivors keep their order. */
  lemma {:induction false} WithoutAppend(a: seq<Program>, b: seq<Program>, id: Id)
    ensures Without(a + b, id) == Without(a, id) + Without(b, id)
  {
    if |a| == 0 {
      assert a + b == b;
    } else {
      assert (a + b)[1..] == a[1..] + b;
      WithoutAppend(a[1..], b, id);
    }
  }

  /** A list without the id passes the filter unchanged. */
  lemma {:induction false} WithoutAbsent(programs: seq<Program>, id: Id)
    requires forall k :: 0 <= k < |programs| ==> programs[k].id != id
    ensures Without(programs, id) == programs
  {
    if |programs| > 0 {
      WithoutAbsent(programs[1..], id);
      assert programs == [programs[0]] + programs[1..];
    }
  }

  /** `deleteProgram(id)`: the list is reloaded from the store; when a program carries
      the id and the deletion is confirmed, every program with the id leaves the list
      and a current program with the id is dropped. */
  function DeleteProgram(lib: Library, stored: Stored, id: Id, confirmed: bool): (r: Library)
    ensures r.currentIndex == lib.currentIndex
    ensures Find(LoadAll(stored), id).None? || !confirmed ==> r == lib.(programs := LoadAll(stored))
    ensures Find(LoadAll(stored), id).Some? && confirmed ==>
      r.programs == Without(LoadAll(stored), id) && |r.programs| < |LoadAll(stored)|
      && (r.current.Some? <==> lib.current.Some? && lib.current.value.id != id)
      && (r.current.Some? ==> r.current == lib.current)
  {
    var programs := LoadAll(stored);
    if Find(programs, id).Some? && confirmed then
      WithoutShrinks(programs, id);
      var current := if lib.current.Some? && lib.current.value.id == id then None else lib.current;
      lib.(programs := Without(programs, id), current := current)
    else lib.(programs := programs)
  }

  /** Filtering out an id some program carries shortens the list. */
  lemma {:induction false} WithoutShrinks(programs: seq<Program>, id: Id)
    requires exists k :: 0 <= k < |programs| && programs[k].id == id
    ensures |Without(programs, id)| < |programs|
  {
    if programs[0].id != id {
      var k :| 0 <= k < |programs| && programs[k].id == id;
      assert programs[1..][k - 1].id == id;
      WithoutShrinks(programs[1..], id);
    }
  }

  /** Deleting never gives two programs the same name. */
  lemma {:induction false} WithoutKeepsNamesDistinct(programs: seq<Program>, id: Id)
    requires DistinctNames(programs)
    ensures DistinctNames(Without(programs, id))
  {
    if |programs| > 0 {
      DistinctTail(programs);
      WithoutKeepsNamesDistinct(programs[1..], id);
      var rest := Without(programs[1..], id);
      if programs[0].id != id {
        HeadNameNotSurviving(programs, id);
        DistinctCons(programs[0], rest);
        assert Without(programs, id) == [programs[0]] + rest;
      } else {
        assert Without(programs, id) == rest;
      }
    }
  }

  lemma DistinctTail(programs: seq<Program>)
    requires |programs| > 0 && DistinctNames(programs)
    ensures DistinctNames(programs[1..])
  {
    var tail := programs[1..];
    forall i, j | 0 <= i < j < |tail| ensures tail[i].name != tail[j].name {
      assert tail[i] == programs[i + 1] && tail[j] == programs[j + 1];
    }
  }

  lemma DistinctCons(p: Program, rest: seq<Program>)
    requires DistinctNames(rest)
    requires forall k :: 0 <= k < |rest| ==> rest[k].name != p.name
    ensures DistinctNames([p] + rest)
  {
    var r := [p] + rest;
    forall i, j | 0 <= i < j < |r| ensures r[i].name != r[j].name {
      if i == 0 {
        assert r[j] == rest[j - 1];
      } else {
        assert r[i] == rest[i - 1] && r[j] == rest[j - 1];
      }
    }
  }

  /** No program that survives the filter of the tail shares the first program's name. */
  lemma HeadNameNotSurviving(programs: seq<Program>, id: Id)
    requires |programs| > 0 && DistinctNames(programs)
    ensures forall k :: 0 <= k < |Without(programs[1..], id)| ==>
      Without(programs[1..], id)[k].name != programs[0].name
  {
    var tail := programs[1..];
    var rest := Without(tail, id);
    forall k | 0 <= k < |rest| ensures rest[k].name != programs[0].name {
      WithoutMembers(tail, id, rest[k]);
      var m :| 0 <= m < |tail| && tail[m] == rest[k];
      assert programs[m + 1] == rest[k];
    }
  }

  // ---- The dropdown's ids ----

  /** The id the dropdown's buttons pass: the template `loadProgram('${program.id}')`
      quotes it, so a program's id arrives as its text. */
  function DropdownId(id: Id): (r: Id)
    ensures r.StrId?
    ensures id.StrId? ==> r == id
  {
    match id
    case NumId(n) => StrId(IntToString(n))
    case StrId(s) => StrId(s)
  }

  /** Opening a program from the dropdown, as written: the quoted id is looked up. In
      a list of programs created in the app, whose ids are all numbers, it finds
      nothing, so the current program stays as it was. */
  function OpenFromDropdownAsWritten(lib: Library, stored: Stored, p: Program): (r: Library)
    ensures r.programs == LoadAll(stored)
    ensures p.id.StrId? ==> r == LoadProgram(lib, stored, p.id)
    ensures (forall k :: 0 <= k < |LoadAll(stored)| ==> LoadAll(stored)[k].id.NumId?) ==>
      r.current == lib.current
  {
    LoadProgram(lib, stored, DropdownId(p.id))
  }

  /** A concrete case: the store holds one freshly created program and nothing is open;
      opening that very program from the dropdown opens nothing. */
  lemma DropdownOpensNothing()
    ensures var p := Program(NumId(1700000000000), "Legs", [], map[], "");
      OpenFromDropdownAsWritten(Library([], None, -1), Save([p]), p).current.None?
  {
  }

  /** Deleting from the dropdown, as written, likewise keeps every created program. */
  function DeleteFromDropdownAsWritten(lib: Library, stored: Stored, p: Program, confirmed: bool): (r: Library)
    ensures (forall k :: 0 <= k < |LoadAll(stored)| ==> LoadAll(stored)[k].id.NumId?) ==>
      r == lib.(programs := LoadAll(stored))
  {
    DeleteProgram(lib, stored, DropdownId(p.id), confirmed)
  }

  /** Opening from the dropdown with the id itself, as evidently intended: a program
      that is in the stored list is found and becomes current. */
  function OpenFromDropdown(lib: Library, stored: Stored, p: Program): (r: Library)
    ensures r.programs == LoadAll(stored)
    ensures p in LoadAll(stored) ==> r.current.Some? && r.current.value.id == p.id
  {
    LoadProgram(lib, stored, p.id)
  }

  /** Deleting from the dropdown with the id itself: once confirmed, a stored program
      leaves the list. */
  function DeleteFromDropdown(lib: Library, stored: Stored, p: Program, confirmed: bool): (r: Library)
    ensures p in LoadAll(stored) && confirmed ==> p !in r.programs && |r.programs| < |LoadAll(stored)|
  {
    WithoutMembers(LoadAll(stored), p.id, p);
    DeleteProgram(lib, stored, p.id, confirmed)
  }
}

=== FILE: queue_counts.dfy ===
/** How many steps of each kind an exercise expands into, and how many seconds they
    take: closed forms for the expansion of `startProgramTimer`
    (src/features/program-timer.js), proved level by level. */
module QueueCounts {
  import opened Options
  import opened Workout
  import opened ProgramQueue

  /** Steps of each kind, and total seconds, in a step list. */
  datatype Tally = Tally(moves: int, moveRests: int, repRests: int, setRests: int, programRests: int, seconds: int)

  const Zero := Tally(0, 0, 0, 0, 0, 0)

  function Add(a: Tally, b: Tally): Tally {
    Tally(a.moves + b.moves, a.moveRests + b.moveRests, a.repRests + b.repRests,
          a.setRests + b.setRests, a.programRests + b.programRests, a.seconds + b.seconds)
  }

  function TallyOfStep(st: Step): Tally {
    match st.kind
    case ExerciseMove => Tally(1, 0, 0, 0, 0, st.duration)
    case ExerciseRest => Tally(0, 1, 0, 0, 0, st.duration)
    case RepRest => Tally(0, 0, 1, 0, 0, st.duration)
    case SetRest => Tally(0, 0, 0, 1, 0, st.duration)
    case ProgramRest => Tally(0, 0, 0, 0, 1, st.duration)
  }

  function TallyOf(q: seq<Step>): Tally {
    if |q| == 0 then Zero else Add(TallyOfStep(q[0]), TallyOf(q[1..]))
  }

  /** Total seconds of a step list. */
  function Seconds(q: seq<Step>): int {
    if |q| == 0 then 0 else q[0].duration + Seconds(q[1..])
  }

  lemma {:induction false} SecondsIsTallied(q: seq<Step>)
    ensures Seconds(q) == TallyOf(q).seconds
  {
    if |q| > 0 { SecondsIsTallied(q[1..]); }
  }

  lemma {:induction false} TallyAppend(a: seq<Step>, b: seq<Step>)
    ensures TallyOf(a + b) == Add(TallyOf(a), TallyOf(b))
  {
    if |a| == 0 {
      assert a + b == b;
    } else {
      assert (a + b)[1..] == a[1..] + b;
      TallyAppend(a[1..], b);
    }
  }

  lemma {:induction false} SecondsAppend(a: seq<Step>, b: seq<Step>)
    ensures Seconds(a + b) == Seconds(a) + Seconds(b)
  {
    if |a| == 0 {
      assert a + b == b;
    } else {
      assert (a + b)[1..] == a[1..] + b;
      SecondsAppend(a[1..], b);
    }
  }

  /** Seconds of moves `k..`. */
  function MovesSeconds(ms: seq<PlanMove>, k: nat): int
    requires k <= |ms|
    decreases |ms| - k
  {
    if k == |ms| then 0 else ms[k].duration + MovesSeconds(ms, k + 1)
  }

  /** `x` when the condition holds, nothing otherwise. */
  function When(b: bool, x: int): int { if b then x else 0 }

  lemma MulSucc(n: int, x: int)
    ensures n * x == x + (n - 1) * x
  {
  }

  /** Seconds of one rep: its moves plus the rests between them. */
  function RepSeconds(p: Plan): int
    requires PlanOk(p)
  {
    MovesSeconds(p.moves, 0) + When(MoveRestOn(p), (|p.moves| - 1) * p.restBetweenMoves)
  }

  /** Seconds of one set: its reps plus the rests between them. */
  function SetSeconds(p: Plan): int
    requires PlanOk(p)
  {
    p.repCount * RepSeconds(p) + When(MoveRestOn(p), (p.repCount - 1) * p.restBetweenMoves)
  }

  /** Seconds of a whole exercise: its sets plus the rests between them. */
  function ExerciseSeconds(p: Plan): int
    requires PlanOk(p)
  {
    p.setCount * SetSeconds(p) + When(p.restBetweenSets > 0, (p.setCount - 1) * p.restBetweenSets)
  }

  /** The tally of moves `k..` of one rep. */
  function MovesClosed(p: Plan, k: nat): Tally
    requires PlanOk(p) && k < |p.moves|
  {
    var gaps := |p.moves| - 1 - k;
    Tally(|p.moves| - k, When(MoveRestOn(p), gaps), 0, 0, 0,
          MovesSeconds(p.moves, k) + When(MoveRestOn(p), gaps * p.restBetweenMoves))
  }

  lemma MovesClosedStep(p: Plan, k: nat)
    requires PlanOk(p) && k + 1 < |p.moves|
    ensures MovesClosed(p, k) ==
      Add(Tally(1, When(MoveRestOn(p), 1), 0, 0, 0,
                p.moves[k].duration + When(MoveRestOn(p), p.restBetweenMoves)),
          MovesClosed(p, k + 1))
  {
    MulSucc(|p.moves| - 1 - k, p.restBetweenMoves);
  }

  /** `MoveSteps` from move `k` is the move, its optional rest, then the moves after it. */
  lemma MoveStepsUnfold(p: Plan, xi: int, s: int, r: int, k: nat)
    requires PlanOk(p) && k < |p.moves|
    ensures TallyOf(MoveSteps(p, xi, s, r, k)) ==
      Add(Tally(1, When(MoveRestOn(p) && k < |p.moves| - 1, 1), 0, 0, 0,
                p.moves[k].duration + When(MoveRestOn(p) && k < |p.moves| - 1, p.restBetweenMoves)),
          if k + 1 < |p.moves| then TallyOf(MoveSteps(p, xi, s, r, k + 1)) else Zero)
  {
    var head := [MoveStep(p, xi, s, r, k)];
    var rest := if MoveRestOn(p) && k < |p.moves| - 1 then [MoveRestStep(p, xi, s, r, k)] else [];
    var tail := if k + 1 < |p.moves| then MoveSteps(p, xi, s, r, k + 1) else [];
    assert MoveSteps(p, xi, s, r, k) == head + rest + tail;
    TallyAppend(head + rest, tail);
    MoveHeadTally(p, xi, s, r, k);
  }

  /** A move and the move rest after it, when there is one. */
  lemma MoveHeadTally(p: Plan, xi: int, s: int, r: int, k: nat)
    requires PlanOk(p) && k < |p.moves|
    ensures var on := MoveRestOn(p) && k < |p.moves| - 1;
      TallyOf([MoveStep(p, xi, s, r, k)] + (if on then [MoveRestStep(p, xi, s, r, k)] else []))
      == Tally(1, When(on, 1), 0, 0, 0, p.moves[k].duration + When(on, p.restBetweenMoves))
  {
    var on := MoveRestOn(p) && k < |p.moves| - 1;
    var head := [MoveStep(p, xi, s, r, k)];
    var rest := if on then [MoveRestStep(p, xi, s, r, k)] else [];
    TallyAppend(head, rest);
  }

  lemma {:induction false} MoveStepsTally(p: Plan, xi: int, s: int, r: int, k: nat)
    requires PlanOk(p) && k < |p.moves|
    ensures TallyOf(MoveSteps(p, xi, s, r, k)) == MovesClosed(p, k)
    decreases |p.moves| - k
  {
    if k + 1 < |p.moves| {
      MoveStepsTally(p, xi, s, r, k + 1);
      MoveStepsStep(p, xi, s, r, k);
    } else {
      MoveStepsLast(p, xi, s, r, k);
    }
  }

  lemma MoveStepsStep(p: Plan, xi: int, s: int, r: int, k: nat)
    requires PlanOk(p) && k + 1 < |p.moves|
    requires TallyOf(MoveSteps(p, xi, s, r, k + 1)) == MovesClosed(p, k + 1)
    ensures TallyOf(MoveSteps(p, xi, s, r, k)) == MovesClosed(p, k)
  {
    MoveStepsUnfold(p, xi, s, r, k);
    MovesClosedStep(p, k);
    assert When(MoveRestOn(p) && k < |p.moves| - 1, 1) == When(MoveRestOn(p), 1);
    assert When(MoveRestOn(p) && k < |p.moves| - 1, p.restBetweenMoves)
        == When(MoveRestOn(p), p.restBetweenMoves);
  }

  lemma MoveStepsLast(p: Plan, xi: int, s: int, r: int, k: nat)
    requires PlanOk(p) && k + 1 == |p.moves|
    ensures TallyOf(MoveSteps(p, xi, s, r, k)) == MovesClosed(p, k)
  {
    MoveStepsUnfold(p, xi, s, r, k);
    assert MovesSeconds(p.moves, k + 1) == 0;
  }

  /** The tally of one rep; `more` says whether a rep follows in the same set. */
  function RepUnit(p: Plan, more: bool): Tally
    requires PlanOk(p)
  {
    Tally(|p.moves|, When(MoveRestOn(p), |p.moves| - 1), When(MoveRestOn(p) && more, 1), 0, 0,
          RepSeconds(p) + When(MoveRestOn(p) && more, p.restBetweenMoves))
  }

  lemma RepStepsTally(p: Plan, xi: int, s: int, r: int)
    requires PlanOk(p)
    ensures TallyOf(RepSteps(p, xi, s, r)) == RepUnit(p, r < p.repCount)
  {
    MoveStepsTally(p, xi, s, r, 0);
    TallyAppend(MoveSteps(p, xi, s, r, 0),
                if MoveRestOn(p) && r < p.repCount then [RepRestStep(p, xi, s, r)] else []);
  }

  /** The tally of the last `n` reps of a set. */
  function RepsClosed(p: Plan, n: nat): Tally
    requires PlanOk(p)
  {
    var gaps := if n == 0 then 0 else n - 1;
    Tally(n * |p.moves|, When(MoveRestOn(p), n * (|p.moves| - 1)), When(MoveRestOn(p), gaps), 0, 0,
          n * RepSeconds(p) + When(MoveRestOn(p), gaps * p.restBetweenMoves))
  }

  lemma RepsClosedStep(p: Plan, n: nat)
    requires PlanOk(p) && n >= 1
    ensures RepsClosed(p, n) == Add(RepUnit(p, n > 1), RepsClosed(p, n - 1))
  {
    MulSucc(n, |p.moves|);
    MulSucc(n, |p.moves| - 1);
    MulSucc(n, RepSeconds(p));
    MulSucc(n - 1, p.restBetweenMoves);
  }

  /** The tally of reps `r..` of a set, one rep at a time. */
  function RepsSum(p: Plan, r: int): Tally
    requires PlanOk(p) && 1 <= r <= p.repCount + 1
    decreases p.repCount - r
  {
    if r > p.repCount then Zero else Add(RepUnit(p, r < p.repCount), RepsSum(p, r + 1))
  }

  lemma {:induction false} RepsSumClosed(p: Plan, r: int)
    requires PlanOk(p) && 1 <= r <= p.repCount + 1
    ensures RepsSum(p, r) == RepsClosed(p, p.repCount - r + 1)
    decreases p.repCount - r
  {
    if r <= p.repCount {
      RepsSumClosed(p, r + 1);
      RepsClosedStep(p, p.repCount - r + 1);
    }
  }

  lemma {:induction false} RepsFromSum(p: Plan, xi: int, s: int, r: int)
    requires PlanOk(p) && 1 <= r <= p.repCount + 1
    ensures TallyOf(RepsFrom(p, xi, s, r)) == RepsSum(p, r)
    decreases p.repCount - r
  {
    if r <= p.repCount {
      RepsFromSum(p, xi, s, r + 1);
      RepsFromStep(p, xi, s, r);
    } else {
      assert |RepsFrom(p, xi, s, r)| == 0;
    }
  }

  lemma RepsFromStep(p: Plan, xi: int, s: int, r: int)
    requires PlanOk(p) && 1 <= r <= p.repCount
    requires TallyOf(RepsFrom(p, xi, s, r + 1)) == RepsSum(p, r + 1)
    ensures TallyOf(RepsFrom(p, xi, s, r)) == RepsSum(p, r)
  {
    RepsFromUnfold(p, xi, s, r);
    RepStepsTally(p, xi, s, r);
  }

  lemma RepsFromUnfold(p: Plan, xi: int, s: int, r: int)
    requires PlanOk(p) && 1 <= r <= p.repCount
    ensures TallyOf(RepsFrom(p, xi, s, r)) == Add(TallyOf(RepSteps(p, xi, s, r)), TallyOf(RepsFrom(p, xi, s, r + 1)))
  {
    TallyAppend(RepSteps(p, xi, s, r), RepsFrom(p, xi, s, r + 1));
  }

  lemma RepsFromTally(p: Plan, xi: int, s: int, r: int)
    requires PlanOk(p) && 1 <= r <= p.repCount + 1
    ensures TallyOf(RepsFrom(p, xi, s, r)) == RepsClosed(p, p.repCount - r + 1)
  {
    RepsFromSum(p, xi, s, r);
    RepsSumClosed(p, r);
  }

  /** The tally of one set; `more` says whether a set follows. */
  function SetUnit(p: Plan, more: bool): Tally
    requires PlanOk(p)
  {
    Tally(p.repCount * |p.moves|, When(MoveRestOn(p), p.repCount * (|p.moves| - 1)),
          When(MoveRestOn(p), p.repCount - 1), When(p.restBetweenSets > 0 && more, 1), 0,
          SetSeconds(p) + When(p.restBetweenSets > 0 && more, p.restBetweenSets))
  }

  lemma SetStepsTally(p: Plan, xi: int, s: int)
    requires PlanOk(p)
    ensures TallyOf(SetSteps(p, xi, s)) == SetUnit(p, s < p.setCount)
  {
    var more := s < p.setCount;
    var rest := if p.restBetweenSets > 0 && more then [SetRestStep(p, xi, s)] else [];
    assert TallyOf(rest) == SetRestTally(p, more);
    RepsFromTally(p, xi, s, 1);
    TallyAppend(RepsFrom(p, xi, s, 1), rest);
    SetUnitOfReps(p, more);
  }

  /** The tally of the set rest that follows a set, if any. */
  function SetRestTally(p: Plan, more: bool): Tally {
    if p.restBetweenSets > 0 && more then Tally(0, 0, 0, 1, 0, p.restBetweenSets) else Zero
  }

  /** A set is its reps followed by its rest. */
  lemma SetUnitOfReps(p: Plan, more: bool)
    requires PlanOk(p)
    ensures SetUnit(p, more) == Add(RepsClosed(p, p.repCount), SetRestTally(p, more))
  {
  }

  /** The tally of the last `n` sets of an exercise. */
  function SetsClosed(p: Plan, n: nat): Tally
    requires PlanOk(p)
  {
    var gaps := if n == 0 then 0 else n - 1;
    Tally(n * (p.repCount * |p.moves|), When(MoveRestOn(p), n * (p.repCount * (|p.moves| - 1))),
          When(MoveRestOn(p), n * (p.repCount - 1)), When(p.restBetweenSets > 0, gaps), 0,
          n * SetSeconds(p) + When(p.restBetweenSets > 0, gaps * p.restBetweenSets))
  }

  lemma SetsClosedStep(p: Plan, n: nat)
    requires PlanOk(p) && n >= 1
    ensures SetsClosed(p, n) == Add(SetUnit(p, n > 1), SetsClosed(p, n - 1))
  {
    MulSucc(n, p.repCount * |p.moves|);
    MulSucc(n, p.repCount * (|p.moves| - 1));
    MulSucc(n, p.repCount - 1);
    MulSucc(n, SetSeconds(p));
    MulSucc(n - 1, p.restBetweenSets);
  }

  /** The tally of sets `s..` of an exercise, one set at a time. */
  function SetsSum(p: Plan, s: int): Tally
    requires PlanOk(p) && 1 <= s <= p.setCount + 1
    decreases p.setCount - s
  {
    if s > p.setCount then Zero else Add(SetUnit(p, s < p.setCount), SetsSum(p, s + 1))
  }

  lemma {:induction false} SetsSumClosed(p: Plan, s: int)
    requires PlanOk(p) && 1 <= s <= p.setCount + 1
    ensures SetsSum(p, s) == SetsClosed(p, p.setCount - s + 1)
    decreases p.setCount - s
  {
    if s <= p.setCount {
      SetsSumClosed(p, s + 1);
      SetsClosedStep(p, p.setCount - s + 1);
    }
  }

  lemma {:induction false} SetsFromSum(p: Plan, xi: int, s: int)
    requires PlanOk(p) && 1 <= s <= p.setCount + 1
    ensures TallyOf(SetsFrom(p, xi, s)) == SetsSum(p, s)
    decreases p.setCount - s
  {
    if s <= p.setCount {
      SetsFromSum(p, xi, s + 1);
      SetsFromStep(p, xi, s);
    } else {
      assert |SetsFrom(p, xi, s)| == 0;
    }
  }

  lemma SetsFromStep(p: Plan, xi: int, s: int)
    requires PlanOk(p) && 1 <= s <= p.setCount
    requires TallyOf(SetsFrom(p, xi, s + 1)) == SetsSum(p, s + 1)
    ensures TallyOf(SetsFrom(p, xi, s)) == SetsSum(p, s)
  {
    SetsFromUnfold(p, xi, s);
    SetStepsTally(p, xi, s);
  }

  lemma SetsFromUnfold(p: Plan, xi: int, s: int)
    requires PlanOk(p) && 1 <= s <= p.setCount
    ensures TallyOf(SetsFrom(p, xi, s)) == Add(TallyOf(SetSteps(p, xi, s)), TallyOf(SetsFrom(p, xi, s + 1)))
  {
    TallyAppend(SetSteps(p, xi, s), SetsFrom(p, xi, s + 1));
  }

  lemma SetsFromTally(p: Plan, xi: int, s: int)
    requires PlanOk(p) && 1 <= s <= p.setCount + 1
    ensures TallyOf(SetsFrom(p, xi, s)) == SetsClosed(p, p.setCount - s + 1)
  {
    SetsFromSum(p, xi, s);
    SetsSumClosed(p, s);
  }

  /** An exercise of S sets, R reps and M moves expands into S·R·M move steps,
      S·R·(M−1) move rests and S·(R−1) rep rests when rests between moves are on,
      S−1 set rests when the set rest is positive, and no program rest; together they
      last `ExerciseSeconds` seconds. */
  lemma ExerciseTally(p: Plan, xi: int)
    requires PlanOk(p)
    ensures TallyOf(ExerciseSteps(p, xi)) ==
      Tally(p.setCount * (p.repCount * |p.moves|),
            When(MoveRestOn(p), p.setCount * (p.repCount * (|p.moves| - 1))),
            When(MoveRestOn(p), p.setCount * (p.repCount - 1)),
            When(p.restBetweenSets > 0, p.setCount - 1),
            0,
            ExerciseSeconds(p))
  {
    SetsFromTally(p, xi, 1);
  }
}

=== FILE: search.dfy ===
/** The forward scans both timers use to find where a skip or a jump lands: the first
    position at or after a start index whose element satisfies a test. */
module Search {
  import opened Options

  /** The first position `j >= from` with `p(q[j])`, if any. */
  function FindFrom<T>(q: seq<T>, from: nat, p: T -> bool): (r: Option<nat>)
    ensures r.Some? ==> from <= r.value < |q| && p(q[r.value])
    ensures r.Some? ==> forall j :: from <= j < r.value ==> !p(q[j])
    ensures r.None? ==> forall j :: from <= j < |q| ==> !p(q[j])
    decreases |q| - from
  {
    if from >= |q| then None
    else if p(q[from]) then Some(from)
    else FindFrom(q, from + 1, p)
  }

  /** The position found is the only first match: any position that satisfies the test
      and has no earlier match after `from` is it. */
  lemma FindFromUnique<T>(q: seq<T>, from: nat, p: T -> bool, j: nat)
    requires from <= j < |q| && p(q[j])
    requires forall k :: from <= k < j ==> !p(q[k])
    ensures FindFrom(q, from, p) == Some(j)
  {
  }
}

=== FILE: text.dfy ===
/** The string primitives the application leans on: ASCII lower-casing, `trim`,
    `includes`, `endsWith`, `padStart(2, '0')`, the `\d+` digit run, JavaScript's
    `parseInt` read as an optional leading integer, and decimal printing of integers. */
module Text {
  import opened Options

  predicate IsDigit(c: char) { '0' <= c <= '9' }

  /** White space as `trim`, `parseInt` and the regular-expression class `\s` see it,
      restricted to the ASCII range. */
  predicate IsSpace(c: char) {
    c == ' ' || c == '\t' || c == '\n' || c == '\r' || c as int == 11 || c as int == 12
  }

  predicate AllDigits(s: string) { forall i :: 0 <= i < |s| ==> IsDigit(s[i]) }

  predicate IsBlank(s: string) { forall i :: 0 <= i < |s| ==> IsSpace(s[i]) }

  function LowerChar(c: char): char {
    if 'A' <= c <= 'Z' then (c as int + 32) as char else c
  }

  /** `toLowerCase`, for the ASCII letters. */
  function Lower(s: string): (r: string)
    ensures |r| == |s|
    ensures forall i :: 0 <= i < |s| ==> r[i] == LowerChar(s[i])
  {
    seq(|s|, i requires 0 <= i < |s| => LowerChar(s[i]))
  }

  function TrimStart(s: string): (r: string)
    ensures |r| <= |s| && r == s[|s| - |r|..]
    ensures |r| > 0 ==> !IsSpace(r[0])
    ensures IsBlank(s[..|s| - |r|])
    decreases |s|
  {
    if |s| > 0 && IsSpace(s[0]) then
      var r := TrimStart(s[1..]);
      assert s[1..][..|s| - 1 - |r|] == s[1..|s| - |r|];
      r
    else s
  }

  function TrimEnd(s: string): (r: string)
    ensures |r| <= |s| && r == s[..|r|]
    ensures |r| > 0 ==> !IsSpace(r[|r| - 1])
    ensures IsBlank(s[|r|..])
    decreases |s|
  {
    if |s| > 0 && IsSpace(s[|s| - 1]) then
      var r := TrimEnd(s[..|s| - 1]);
      assert s[..|s| - 1][|r|..] == s[|r|..|s| - 1];
      r
    else s
  }

  /** `trim`: the text between the leading and the trailing white space. */
  function Trim(s: string): string {
    TrimStart(TrimEnd(s))
  }

  /** What `trim` keeps is a slice of the input that neither starts nor ends with
      white space, and everything cut away is white space. */
  lemma TrimSpec(s: string)
    ensures exists i, j :: 0 <= i <= j <= |s| && Trim(s) == s[i..j]
                        && IsBlank(s[..i]) && IsBlank(s[j..])
    ensures |Trim(s)| > 0 ==> !IsSpace(Trim(s)[0]) && !IsSpace(Trim(s)[|Trim(s)| - 1])
  {
    var i, j := TrimBounds(s);
  }

  /** Where the slice `trim` keeps starts and ends. */
  lemma TrimBounds(s: string) returns (i: nat, j: nat)
    ensures i <= j <= |s| && Trim(s) == s[i..j] && IsBlank(s[..i]) && IsBlank(s[j..])
  {
    var e := TrimEnd(s);
    var r := TrimStart(e);
    i, j := |e| - |r|, |e|;
    assert e == s[..j] && r == e[i..];
    assert e[i..] == s[i..j];
    assert e[..i] == s[..i];
  }

  /** An input trims to the empty string exactly when it is all white space. */
  lemma TrimEmptyIffBlank(s: string)
    ensures Trim(s) == [] <==> IsBlank(s)
  {
    if Trim(s) == [] {
      EmptyTrimIsBlank(s);
    } else {
      KeptIsNotBlank(s);
    }
  }

  lemma EmptyTrimIsBlank(s: string)
    requires Trim(s) == []
    ensures IsBlank(s)
  {
    var e := TrimEnd(s);
    assert IsBlank(e[..|e|]);
    assert IsBlank(s[|e|..]);
    forall k | 0 <= k < |s| ensures IsSpace(s[k]) {
      if k < |e| {
        assert e[..|e|][k] == s[k];
      } else {
        assert s[|e|..][k - |e|] == s[k];
      }
    }
  }

  lemma KeptIsNotBlank(s: string)
    requires Trim(s) != []
    ensures !IsBlank(s)
  {
    var t := Trim(s);
    TrimSpec(s);
    var i, j := TrimBounds(s);
    assert |t| > 0 && !IsSpace(t[0]);
    assert t[0] == s[i];
  }

  /** `includes`: executable form. */
  function Contains(s: string, t: string): bool
    decreases |s|
  {
    if |t| > |s| then false
    else if s[..|t|] == t then true
    else Contains(s[1..], t)
  }

  ghost predicate OccursAt(s: string, t: string, i: int) {
    0 <= i && i + |t| <= |s| && s[i..i + |t|] == t
  }

  /** `Contains` holds exactly when the needle occurs at some position. */
  lemma {:induction false} ContainsSpec(s: string, t: string)
    ensures Contains(s, t) <==> exists i :: OccursAt(s, t, i)
    decreases |s|
  {
    if |t| > |s| {
    } else if s[..|t|] == t {
      assert OccursAt(s, t, 0);
    } else {
      ContainsSpec(s[1..], t);
      if Contains(s[1..], t) {
        var i :| OccursAt(s[1..], t, i);
        assert s[1..][i..i + |t|] == s[i + 1..i + 1 + |t|];
        assert OccursAt(s, t, i + 1);
      } else {
        forall i | OccursAt(s, t, i) ensures false {
          if i == 0 {
          } else {
            assert 1 <= i && i + |t| <= |s|;
            assert s[1..][i - 1..i - 1 + |t|] == s[i..i + |t|];
            assert OccursAt(s[1..], t, i - 1);
          }
        }
      }
    }
  }

  function EndsWith(s: string, suffix: string): bool {
    |suffix| <= |s| && s[|s| - |suffix|..] == suffix
  }

  function DigitChar(d: nat): char
    requires d < 10
  {
    ('0' as int + d) as char
  }

  function DigitOf(c: char): nat
    requires IsDigit(c)
  {
    c as int - '0' as int
  }

  /** The value of a string of decimal digits (leading zeros allowed). */
  function DigitsValue(s: string): nat
    requires AllDigits(s)
  {
    if |s| == 0 then 0 else DigitsValue(s[..|s| - 1]) * 10 + DigitOf(s[|s| - 1])
  }

  /** Decimal printing of a natural number, as `String(n)` does it. */
  function NatToString(n: nat): (r: string)
    ensures |r| >= 1 && AllDigits(r)
  {
    if n < 10 then [DigitChar(n)] else NatToString(n / 10) + [DigitChar(n % 10)]
  }

  /** `String(i)` for an integer: a minus sign in front of negative values. */
  function IntToString(i: int): string {
    if i < 0 then "-" + NatToString(0 - i) else NatToString(i)
  }

  /** Reading back what `NatToString` prints gives the number. */
  lemma {:induction false} NatToStringRoundTrip(n: nat)
    ensures DigitsValue(NatToString(n)) == n
  {
    if n >= 10 {
      NatToStringRoundTrip(n / 10);
      var s := NatToString(n);
      assert s[..|s| - 1] == NatToString(n / 10);
    }
  }

  /** Distinct numbers print differently. */
  lemma NatToStringInjective(a: nat, b: nat)
    requires NatToString(a) == NatToString(b)
    ensures a == b
  {
    NatToStringRoundTrip(a);
    NatToStringRoundTrip(b);
  }

  function Pow10(k: nat): nat {
    if k == 0 then 1 else 10 * Pow10(k - 1)
  }

  /** A number of at least 10^k prints with more than k digits. */
  lemma {:induction false} NatToStringLong(n: nat, k: nat)
    requires n >= Pow10(k)
    ensures |NatToString(n)| > k
  {
    if k > 0 {
      NatToStringLong(n / 10, k - 1);
    }
  }

  /** `padStart(2, '0')`. */
  function PadStart2(s: string): (r: string)
    ensures |r| == if |s| >= 2 then |s| else 2
    ensures r[|r| - |s|..] == s
    ensures forall i :: 0 <= i < |r| - |s| ==> r[i] == '0'
  {
    if |s| >= 2 then s else seq(2 - |s|, _ => '0') + s
  }

  /** The longest prefix made of digits. */
  function DigitPrefix(s: string): (r: string)
    ensures |r| <= |s| && r == s[..|r|] && AllDigits(r)
    ensures |r| < |s| ==> !IsDigit(s[|r|])
  {
    if |s| > 0 && IsDigit(s[0]) then
      var t := DigitPrefix(s[1..]);
      assert [s[0]] + t == s[..|t| + 1];
      [s[0]] + t
    else []
  }

  /** The match of `/\d+/`: the first maximal run of digits, if any. */
  function FirstDigitRun(s: string): (r: Option<string>)
    ensures r.None? <==> AllNonDigits(s)
    ensures r.Some? ==> |r.value| >= 1 && AllDigits(r.value)
    ensures r.Some? ==> exists i :: 0 <= i < |s| && AllNonDigits(s[..i]) && r.value == DigitPrefix(s[i..])
  {
    if |s| == 0 then None
    else if IsDigit(s[0]) then
      assert s[0..] == s && AllNonDigits(s[..0]);
      Some(DigitPrefix(s))
    else
      var r := FirstDigitRun(s[1..]);
      assert AllNonDigits(s[1..]) ==> AllNonDigits(s) by {
        if AllNonDigits(s[1..]) {
          forall i | 0 <= i < |s| ensures !IsDigit(s[i]) {
            if i > 0 { assert s[1..][i - 1] == s[i]; }
          }
        }
      }
      assert r.Some? ==> exists i :: 0 <= i < |s| && AllNonDigits(s[..i]) && r.value == DigitPrefix(s[i..]) by {
        if r.Some? {
          var i :| 0 <= i < |s| - 1 && AllNonDigits(s[1..][..i]) && r.value == DigitPrefix(s[1..][i..]);
          assert s[1..][i..] == s[i + 1..];
          var pre := s[..i + 1];
          forall j | 0 <= j < |pre| ensures !IsDigit(pre[j]) {
            if j > 0 { assert pre[j] == s[1..][..i][j - 1]; }
          }
        }
      }
      r
  }

  predicate AllNonDigits(s: string) { forall i :: 0 <= i < |s| ==> !IsDigit(s[i]) }

  /** `parseInt(s)` read as an optional leading integer: leading white space, an
      optional sign, then at least one digit; anything after the digits is ignored. */
  function ParseIntPrefix(s: string): Option<int> {
    var t := TrimStart(s);
    if |t| > 0 && (t[0] == '-' || t[0] == '+') then
      match LeadingNumber(t[1..])
      case None => None
      case Some(v) => Some(if t[0] == '-' then 0 - v else v)
    else LeadingNumber(t)
  }

  /** The value of the digits a text starts with, if it starts with one. */
  function LeadingNumber(t: string): Option<int> {
    var d := DigitPrefix(t);
    if |d| == 0 then None else Some(DigitsValue(d))
  }

  /** `parseInt` reads back a printed number, whatever non-digit text follows it. */
  lemma ParseIntPrefixOfPrinted(n: nat, rest: string)
    requires |rest| == 0 || !IsDigit(rest[0])
    ensures ParseIntPrefix(NatToString(n) + rest) == Some(n)
  {
    var d := NatToString(n);
    assert (d + rest)[0] == d[0];
    ParseIntOfDigitStart(d + rest);
    DigitPrefixOfDigits(d, rest);
    NatToStringRoundTrip(n);
    assert LeadingNumber(d + rest) == Some(n);
  }

  lemma ParseIntOfDigitStart(s: string)
    requires |s| > 0 && IsDigit(s[0])
    ensures ParseIntPrefix(s) == LeadingNumber(s)
  {
    TrimStartKeeps(s);
  }

  lemma TrimStartKeeps(s: string)
    requires |s| > 0 && !IsSpace(s[0])
    ensures TrimStart(s) == s
  { }

  lemma {:induction false} DigitPrefixOfDigits(d: string, rest: string)
    requires AllDigits(d)
    requires |rest| == 0 || !IsDigit(rest[0])
    ensures DigitPrefix(d + rest) == d
  {
    if |d| > 0 {
      assert (d + rest)[1..] == d[1..] + rest;
      DigitPrefixOfDigits(d[1..], rest);
    }
  }
}

=== FILE: timer_props.dfy ===
/** Properties of the single-exercise timer: the shape of its queue, where its skips
    land, the countdown a resume restarts, at most one live countdown in the corrected
    timer, and the two defects of the timer as written. */
module TimerProps {
  import opened Options
  import opened Text
  import opened Workout
  import opened ExerciseTimer

  // ---- The queue ----

  /** Set numbers never go down along a step list. */
  predicate SetOrdered(q: seq<TimerStep>) {
    forall i, j :: 0 <= i < j < |q| ==> q[i].setNo <= q[j].setNo
  }

  lemma {:induction false} SetRunsFromOrdered(ex: Exercise, s: nat)
    requires 1 <= s
    ensures SetOrdered(SetRunsFrom(ex, s))
    decreases LoopCount(ex.setCount) + 1 - s
  {
    if s <= LoopCount(ex.setCount) {
      SetRunsFromOrdered(ex, s + 1);
      var a, b := SetRun(ex, s), SetRunsFrom(ex, s + 1);
      assert SetRunsFrom(ex, s) == a + b;
      OrderedAfterSet(a, b, s);
    }
  }

  /** The steps of set `s` followed by an ordered list of later sets stay ordered. */
  lemma OrderedAfterSet(a: seq<TimerStep>, b: seq<TimerStep>, s: int)
    requires forall i :: 0 <= i < |a| ==> a[i].setNo == s
    requires forall i :: 0 <= i < |b| ==> s <= b[i].setNo
    requires SetOrdered(b)
    ensures SetOrdered(a + b)
  {
    var c := a + b;
    forall i: int, j: int | 0 <= i < j < |c|
      ensures c[i].setNo <= c[j].setNo
    {
      if i >= |a| {
        assert c[i] == b[i - |a|] && c[j] == b[j - |a|];
      } else if j >= |a| {
        assert c[j] == b[j - |a|];
      }
    }
  }

  /** The timer runs the sets of its exercise in order. */
  lemma TimerQueueOrdered(ex: Exercise)
    ensures SetOrdered(TimerQueue(ex))
  {
    SetRunsFromOrdered(ex, 1);
  }

  /** How long the moves from `k` on are does not depend on the set and rep they
      belong to. */
  lemma {:induction false} MoveRunLength(ex: Exercise, s: int, r: int, s': int, r': int, k: nat)
    requires k <= |StoredMoves(ex)|
    ensures |MoveRun(ex, s, r, k)| == |MoveRun(ex, s', r', k)|
    decreases |StoredMoves(ex)| - k
  {
    if k < |StoredMoves(ex)| {
      MoveRunLength(ex, s, r, s', r', k + 1);
    }
  }

  lemma {:induction false} RepRunsFromLength(ex: Exercise, s: int, s': int, r: nat)
    requires 1 <= r
    ensures |RepRunsFrom(ex, s, r)| == |RepRunsFrom(ex, s', r)|
    decreases LoopCount(ex.repCount) + 1 - r
  {
    if r <= LoopCount(ex.repCount) {
      MoveRunLength(ex, s, r, s', r, 0);
      RepRunsFromLength(ex, s, s', r + 1);
    }
  }

  /** Every set has the same number of steps before its set rest. */
  lemma SetBodyLength(ex: Exercise, s: int, s': int)
    ensures |SetBody(ex, s)| == |SetBody(ex, s')|
  {
    RepRunsFromLength(ex, s, s', 1);
  }

  /** When the sets have nothing in them, the queue holds only set rests. */
  lemma {:induction false} OnlySetRests(ex: Exercise, s: nat)
    requires 1 <= s && |SetBody(ex, 1)| == 0
    ensures forall j :: 0 <= j < |SetRunsFrom(ex, s)| ==> SetRunsFrom(ex, s)[j].kind == SetRest
    decreases LoopCount(ex.setCount) + 1 - s
  {
    if s <= LoopCount(ex.setCount) {
      SetBodyLength(ex, s, 1);
      OnlySetRests(ex, s + 1);
      var a := SetRun(ex, s);
      var b := SetRunsFrom(ex, s + 1);
      var c: seq<TimerStep> := a + b;
      assert SetRunsFrom(ex, s) == c;
      forall j | 0 <= j < |c| ensures c[j].kind == SetRest {
        if j >= |a| { assert c[j] == b[j - |a|]; }
      }
    }
  }

  /** The set rest of a set is its last step, and only sets before the last have one. */
  lemma SetRestEndsSet(ex: Exercise, s: nat, j: nat)
    requires j < |SetRun(ex, s)| && SetRun(ex, s)[j].kind == SetRest
    ensures j == |SetBody(ex, s)| && s < LoopCount(ex.setCount) && Positive(ex.restBetweenSets)
  {
  }

  /** A set after the first starts with a step of its body when the bodies are not
      empty. */
  lemma NextSetStartsWithBody(ex: Exercise, s: nat)
    requires 1 <= s < LoopCount(ex.setCount) && |SetBody(ex, 1)| > 0
    ensures |SetRunsFrom(ex, s + 1)| > 0 && SetRunsFrom(ex, s + 1)[0].kind != SetRest
  {
    SetBodyLength(ex, s + 1, 1);
    assert SetRunsFrom(ex, s + 1) == SetRun(ex, s + 1) + SetRunsFrom(ex, s + 2);
    assert SetRun(ex, s + 1)[0] == SetBody(ex, s + 1)[0];
  }

  /** After position `j` comes a step that is not a set rest, or only set rests. */
  predicate FollowedWell(q: seq<TimerStep>, j: nat) {
    (j + 1 < |q| && q[j + 1].kind != SetRest) || forall k :: j < k < |q| ==> q[k].kind == SetRest
  }

  lemma FollowedInTail(a: seq<TimerStep>, b: seq<TimerStep>, j: nat)
    requires |a| <= j && FollowedWell(b, j - |a|)
    ensures FollowedWell(a + b, j)
  {
    var c := a + b;
    if !(j - |a| + 1 < |b| && b[j - |a| + 1].kind != SetRest) {
      forall k | j < k < |c| ensures c[k].kind == SetRest {
        assert c[k] == b[k - |a|];
      }
    }
  }

  lemma FollowedAtSeam(a: seq<TimerStep>, b: seq<TimerStep>)
    requires |a| > 0
    requires (|b| > 0 && b[0].kind != SetRest) || forall k :: 0 <= k < |b| ==> b[k].kind == SetRest
    ensures FollowedWell(a + b, |a| - 1)
  {
    var c := a + b;
    if !(|b| > 0 && b[0].kind != SetRest) {
      forall k | |a| - 1 < k < |c| ensures c[k].kind == SetRest {
        assert c[k] == b[k - |a|];
      }
    }
  }

  lemma SeamOfEmptySets(ex: Exercise, s: nat)
    requires 1 <= s < LoopCount(ex.setCount) && Positive(ex.restBetweenSets) && |SetBody(ex, 1)| == 0
    ensures FollowedWell(SetRun(ex, s) + SetRunsFrom(ex, s + 1), |SetRun(ex, s)| - 1)
  {
    OnlySetRests(ex, s + 1);
    FollowedAtSeam(SetRun(ex, s), SetRunsFrom(ex, s + 1));
  }

  lemma SeamOfSets(ex: Exercise, s: nat)
    requires 1 <= s < LoopCount(ex.setCount) && Positive(ex.restBetweenSets) && |SetBody(ex, 1)| > 0
    ensures FollowedWell(SetRun(ex, s) + SetRunsFrom(ex, s + 1), |SetRun(ex, s)| - 1)
  {
    NextSetStartsWithBody(ex, s);
    FollowedAtSeam(SetRun(ex, s), SetRunsFrom(ex, s + 1));
  }

  lemma SetRestAtSeam(ex: Exercise, s: nat, j: nat)
    requires 1 <= s && j < |SetRun(ex, s)| && SetRun(ex, s)[j].kind == SetRest
    ensures FollowedWell(SetRun(ex, s) + SetRunsFrom(ex, s + 1), j)
  {
    SetRestEndsSet(ex, s, j);
    if |SetBody(ex, 1)| == 0 {
      SeamOfEmptySets(ex, s);
    } else {
      SeamOfSets(ex, s);
    }
  }

  /** What follows a set rest: the first step of the next set, or, when the sets have
      nothing in them, only more set rests. */
  lemma {:induction false} AfterSetRest(ex: Exercise, s: nat, j: nat)
    requires 1 <= s && j < |SetRunsFrom(ex, s)| && SetRunsFrom(ex, s)[j].kind == SetRest
    ensures FollowedWell(SetRunsFrom(ex, s), j)
    decreases LoopCount(ex.setCount) + 1 - s
  {
    SetRunsSplit(ex, s, j);
    var n := |SetRun(ex, s)|;
    if j >= n {
      AfterSetRest(ex, s + 1, j - n);
      FollowedInTail(SetRun(ex, s), SetRunsFrom(ex, s + 1), j);
    } else {
      SetRestAtSeam(ex, s, j);
    }
  }

  /** Step `j` of the sets from `s` on is in set `s` or in the sets after it. */
  lemma SetRunsSplit(ex: Exercise, s: nat, j: nat)
    requires 1 <= s && j < |SetRunsFrom(ex, s)|
    ensures SetRunsFrom(ex, s) == SetRun(ex, s) + SetRunsFrom(ex, s + 1)
    ensures j < |SetRun(ex, s)| ==> SetRun(ex, s)[j] == SetRunsFrom(ex, s)[j]
    ensures j >= |SetRun(ex, s)| ==>
      j - |SetRun(ex, s)| < |SetRunsFrom(ex, s + 1)|
      && SetRunsFrom(ex, s + 1)[j - |SetRun(ex, s)|] == SetRunsFrom(ex, s)[j]
  {
  }

  // ---- Where the skips land ----

  /** On the queue of an exercise, skipping a set rest restarts that same rest: the
      step after a set rest is never another set rest unless all the rest are. */
  lemma SkipSetRestStays(t: Timer, ex: Exercise)
    requires t.queue == TimerQueue(ex) && OnStep(t) && t.queue[t.index].kind == SetRest
    ensures SkipSetRest(t).index == t.index
    ensures SkipSetRest(t).tickers[SkipSetRest(t).handle.value].remaining == t.queue[t.index].duration
  {
    AfterSetRest(ex, 1, t.index);
  }

  /** Skipping to the next set lands on the last step of the current set, which runs
      from full; the next step is the first of a later set. */
  lemma SkipToNextSetLandsOnSetEnd(t: Timer, ex: Exercise)
    requires t.queue == TimerQueue(ex) && OnStep(t)
    ensures var r := SkipToNextSet(t);
            r.queue[r.index].setNo == t.queue[t.index].setNo
            && (r.index + 1 < |r.queue| ==> r.queue[r.index + 1].setNo > t.queue[t.index].setNo)
  {
    TimerQueueOrdered(ex);
    var r := SkipToNextSet(t);
    if r.index > t.index {
      assert t.queue[t.index].setNo <= t.queue[r.index].setNo;
    }
  }

  // ---- Pause and resume ----

  /** Pausing and resuming a step runs it again from its full duration: the seconds
      already counted are lost. */
  lemma PauseResumeRestarts(t: Timer)
    requires OnStep(t) && !t.paused
    ensures var r := Resume(Pause(t));
            r.index == t.index && r.running && !r.paused && r.handle.Some?
            && r.handle.value in r.tickers
            && r.tickers[r.handle.value].remaining == t.queue[t.index].duration
  {
  }

  /** Starting an exercise that does not make `startTimer` throw runs the first step at
      once, unpaused, with its countdown live. */
  lemma StartTicksAtOnce(audio: AudioSettings, ex: Exercise)
    requires !StartThrows(ex) && |TimerQueue(ex)| > 0
    ensures var r := Start(Idle(audio), ex);
            r.running && !r.paused && r.index == 0 && r.tickers.Keys == {0}
            && r.tickers[0].remaining == TimerQueue(ex)[0].duration
  {
  }

  // ---- At most one live countdown ----

  /** Everything the user or the clock can do to the exercise timer. */
  datatype TimerCommand =
    | Tick(id: nat)
    | PauseCmd
    | ResumeCmd
    | StopCmd
    | StartCmd(ex: Exercise)
    | RestartCmd(ex: Exercise)
    | NextRepCmd
    | NextSetCmd
    | SkipMoveCmd
    | SkipSetRestCmd

  /** One command on the corrected timer. */
  function Apply(t: Timer, c: TimerCommand): Timer {
    match c
    case Tick(id) => Fire(t, id)
    case PauseCmd => Pause(t)
    case ResumeCmd => Resume(t)
    case StopCmd => Stop(t)
    case StartCmd(ex) => Start(t, ex)
    case RestartCmd(ex) => Restart(t, ex)
    case NextRepCmd => SkipToNextRep(t)
    case NextSetCmd => SkipToNextSet(t)
    case SkipMoveCmd => SkipMove(t)
    case SkipSetRestCmd => SkipSetRest(t)
  }

  function Run(t: Timer, cs: seq<TimerCommand>): Timer
    decreases |cs|
  {
    if |cs| == 0 then t else Run(Apply(t, cs[0]), cs[1..])
  }

  /** At most one countdown is live: every live ticker is the one under the handle, and
      one is live only while the timer runs. */
  predicate OneTicker(t: Timer) {
    (forall id :: id in t.tickers ==> t.handle == Some(id) && id < t.nextId)
    && (t.tickers != map[] ==> t.running)
  }

  lemma ClearEmpties(t: Timer)
    requires OneTicker(t)
    ensures ClearInterval(t).tickers == map[]
  {
    assert ClearInterval(t).tickers.Keys == {};
  }

  lemma RunStepKeeps(x: Timer)
    requires x.tickers == map[] && (x.running || x.index >= |x.queue|)
    ensures OneTicker(RunStep(x))
  {
  }

  lemma FireKeeps(t: Timer, id: nat)
    requires OneTicker(t)
    ensures OneTicker(Fire(t, id))
  {
    if id in t.tickers && !t.paused {
      var t1 := Tock(t, id);
      if RanOut(t1, id) {
        ClearEmpties(t1);
        var t2 := ClearInterval(t1);
        RunStepKeeps(t2.(cues := t2.cues + [Play(EndSound(t.audio, t.tickers[id].slot))], index := t.index + 1));
      }
    }
  }

  lemma StartKeeps(t: Timer, ex: Exercise)
    requires OneTicker(t)
    ensures OneTicker(Start(t, ex))
  {
    if !t.running {
      assert t.tickers == map[];
    }
  }

  lemma SkipsKeep(t: Timer)
    requires OneTicker(t)
    ensures OneTicker(SkipToNextSet(t)) && OneTicker(SkipToNextRep(t))
  {
    if OnStep(t) {
      ClearEmpties(t);
      forall i: nat { RunStepKeeps(ClearInterval(t).(index := i)); }
    }
  }

  lemma StepSkipsKeep(t: Timer)
    requires OneTicker(t)
    ensures OneTicker(SkipMove(t)) && OneTicker(SkipSetRest(t))
  {
    if OnStep(t) {
      ClearEmpties(t);
      forall i: nat { RunStepKeeps(ClearInterval(t).(index := i)); }
    }
  }

  /** Every command of the corrected timer keeps at most one countdown live. */
  lemma ApplyKeeps(t: Timer, c: TimerCommand)
    requires OneTicker(t)
    ensures OneTicker(Apply(t, c))
  {
    ClearEmpties(t);
    match c
    case Tick(id) => FireKeeps(t, id);
    case PauseCmd =>
    case ResumeCmd =>
    case StopCmd =>
    case StartCmd(ex) => StartKeeps(t, ex);
    case RestartCmd(ex) => StartKeeps(Stop(t), ex);
    case NextRepCmd => SkipsKeep(t);
    case NextSetCmd => SkipsKeep(t);
    case SkipMoveCmd => StepSkipsKeep(t);
    case SkipSetRestCmd => StepSkipsKeep(t);
  }

  /** Whatever the commands, the corrected timer never has two countdowns live. */
  lemma {:induction false} RunKeeps(t: Timer, cs: seq<TimerCommand>)
    requires OneTicker(t)
    ensures OneTicker(Run(t, cs))
    decreases |cs|
  {
    if |cs| > 0 {
      ApplyKeeps(t, cs[0]);
      RunKeeps(Apply(t, cs[0]), cs[1..]);
    }
  }

  /** The timer starts with no countdown, and no sequence of commands on the corrected
      timer gives it two. */
  lemma IdleHasNoTicker(audio: AudioSettings)
    ensures Idle(audio).tickers == map[]
    ensures forall cs :: OneTicker(Run(Idle(audio), cs))
  {
    forall cs ensures OneTicker(Run(Idle(audio), cs)) {
      RunKeeps(Idle(audio), cs);
    }
  }

  // ---- The timer as written ----

  /** Start, pause, skip the move, resume: as written, the skip starts a countdown while
      paused and the resume starts another without clearing it. */
  function PausedSkipResumed(audio: AudioSettings, ex: Exercise): Timer {
    ResumeAsWritten(SkipMove(Pause(Start(Idle(audio), ex))))
  }

  /** Two countdowns are then live and unpaused, both for the second step, each counting
      its own copy of the seconds. */
  lemma PausedSkipDoubles(audio: AudioSettings, ex: Exercise)
    requires ex.moves.Some? && |TimerQueue(ex)| >= 2 && TimerQueue(ex)[0].kind == Moving
    ensures var t := PausedSkipResumed(audio, ex);
            t.running && !t.paused && t.tickers.Keys == {1, 2}
            && t.tickers[1].remaining == t.tickers[2].remaining == TimerQueue(ex)[1].duration
  {
    var t2 := Pause(Start(Idle(audio), ex));
    assert t2.tickers == map[] && t2.nextId == 1 && t2.paused && t2.index == 0;
  }

  /** A live countdown that is not under the handle and is at its last second:
      clearing the handle at the end of a step never stops it. */
  predicate StaleRunOut(t: Timer, id: nat) {
    id in t.tickers && t.handle != Some(id) && id < t.nextId && !t.paused
    && t.tickers[id].remaining.Some? && t.tickers[id].remaining.value <= 1
  }

  /** Once a stale countdown runs out, each of its later ticks ends the current step
      and it stays live and run out: every step after that lasts about one second. */
  lemma StaleTickerRunsOn(t: Timer, id: nat)
    requires StaleRunOut(t, id)
    ensures var r := FireAsWritten(t, id);
            r.index == t.index + 1 && StaleRunOut(r, id)
            && r.tickers[id].remaining == Some(t.tickers[id].remaining.value - 1)
  {
  }

  /** Of the two countdowns above, the one started while paused keeps the phase it was
      given then, so it ticks first after the resume and ends the step; the end of the
      step clears only the countdown under the handle, the one the resume started, and
      the countdown started while paused goes on as a stale countdown at its last
      second. */
  lemma FirstEndsAndSurvives(audio: AudioSettings, ex: Exercise)
    requires ex.moves.Some? && |TimerQueue(ex)| >= 2 && TimerQueue(ex)[0].kind == Moving
    requires TimerQueue(ex)[1].duration == Some(1)
    ensures var t := PausedSkipResumed(audio, ex);
            var r := FireAsWritten(t, 1);
            r.index == t.index + 1 && 1 in r.tickers && 2 !in r.tickers && StaleRunOut(r, 1)
  {
  }

  /** The corrected resume leaves one countdown in the same situation. */
  lemma PausedSkipResumedOnce(audio: AudioSettings, ex: Exercise)
    requires ex.moves.Some? && |TimerQueue(ex)| >= 2 && TimerQueue(ex)[0].kind == Moving
    ensures Resume(SkipMove(Pause(Start(Idle(audio), ex)))).tickers.Keys == {2}
  {
    var t2 := Pause(Start(Idle(audio), ex));
    assert t2.tickers == map[] && t2.nextId == 1 && t2.paused && t2.index == 0;
  }

  /** As written every step ends with the beep, whatever sound the user chose: the key
      name is not a sound name. */
  lemma EndSoundAsWrittenIsBeep(slot: SoundSlot)
    ensures EndSoundAsWritten(slot) == "beep"
  {
    assert SlotKey(slot)[0] in {'m', 'r', 's'};
    assert forall n :: n in Sounds ==> n[0] in {'b', 'c', 's', 'w', 'g', 'm', 'e'};
  }

  /** With the default settings the end of a rest should ring the bell. */
  lemma DefaultRestEndIsBell()
    ensures EndSound(DefaultAudio, RestEnd) == "bell"
    ensures EndSoundAsWritten(RestEnd) != EndSound(DefaultAudio, RestEnd)
  {
    EndSoundAsWrittenIsBeep(RestEnd);
  }

  // ---- Labels ----

  /** The rest label names the next rep exactly when there is one, and the number it
      shows reads back as that rep. */
  lemma NextRepLabel(ex: Exercise, step: TimerStep)
    requires step.repNo.Some? ==> step.repNo.value >= 0
    ensures var r := NextRepInfo(Some(ex), step);
            (|r| > 4 && r[..4] == "Rep ") <==>
              step.repNo.Some? && ex.repCount.Some? && step.repNo.value + 1 <= ex.repCount.value
    ensures var r := NextRepInfo(Some(ex), step);
            |r| > 4 && r[..4] == "Rep " ==> AllDigits(r[4..]) && DigitsValue(r[4..]) == step.repNo.value + 1
  {
    var r := NextRepInfo(Some(ex), step);
    if step.repNo.Some? && ex.repCount.Some? && step.repNo.value + 1 <= ex.repCount.value {
      NatToStringRoundTrip(step.repNo.value + 1);
      assert r[4..] == NatToString(step.repNo.value + 1);
    } else {
      assert r[0] == 'n';
    }
  }

  /** The set-rest label names the next set exactly when there is one, and the number
      it shows reads back as that set. */
  lemma NextSetLabel(ex: Exercise, step: TimerStep)
    requires step.setNo >= 0
    ensures var r := NextSetInfo(Some(ex), step);
            (|r| > 4 && r[..4] == "Set ") <==> ex.setCount.Some? && step.setNo + 1 <= ex.setCount.value
    ensures var r := NextSetInfo(Some(ex), step);
            |r| > 4 && r[..4] == "Set " ==> AllDigits(r[4..]) && DigitsValue(r[4..]) == step.setNo + 1
  {
    var r := NextSetInfo(Some(ex), step);
    if ex.setCount.Some? && step.setNo + 1 <= ex.setCount.value {
      NatToStringRoundTrip(step.setNo + 1);
      assert r[4..] == NatToString(step.setNo + 1);
    } else {
      assert r[0] == 'e';
    }
  }
}

=== FILE: transfer.dfy ===
/** Import and export of programs on the settings page (src/features/settings.js): the
    file checks, the accepted file shapes, the export selection and the exported data,
    and the import, which renames, re-identifies and appends the chosen programs.

    File contents, `JSON.parse`, `generateId()` and the time stamps are inputs; a parsed
    file is a `Json` value reduced to what the page looks at. */
module Transfer {
  import opened Options
  import opened Text
  import opened Workout
  import opened Programs

  // ---- Choosing a file ----

  /** The name and size in bytes of the chosen file. */
  datatype FileInfo = FileInfo(name: string, size: int)

  /** Ten megabytes. */
  const MaxFileSize: int := 10 * 1024 * 1024

  /** `handleFile`'s checks: the name ends in ".json" in any letter case and the file
      is at most ten megabytes. */
  function AcceptsFile(f: FileInfo): (r: bool)
    ensures r ==> |f.name| >= 5 && f.size <= 10485760
    ensures r ==> forall i :: |f.name| - 5 <= i < |f.name| ==> LowerChar(f.name[i]) == ".json"[i - |f.name| + 5]
    ensures !EndsWith(Lower(f.name), ".json") ==> !r
  {
    EndsWith(Lower(f.name), ".json") && f.size <= MaxFileSize
  }

  /** Any name with the suffix ".JSON" in capitals passes the name check; a file of
      more than ten megabytes never passes. */
  lemma AcceptsUpperCaseSuffix(base: string, size: int)
    ensures AcceptsFile(FileInfo(base + ".JSON", size)) <==> size <= 10485760
  {
    var s := base + ".JSON";
    var l := Lower(s);
    assert l[|l| - 5..] == ".json" by {
      forall i | 0 <= i < 5 ensures l[|l| - 5 + i] == ".json"[i] {
        assert s[|base| + i] == ".JSON"[i];
      }
    }
  }

  /** What `JSON.parse` of the file gives, as far as the page looks: an array of
      programs, an object with (or without) a `programs` field, or anything else. */
  datatype Json = JArray(items: seq<Program>) | JObject(programs: Option<Json>) | JOther

  /** The programs a parsed file offers: a top-level array, or the `programs` array of
      an object; any other shape, and a file that does not parse, is an error. */
  function FilePrograms(data: Option<Json>): (r: Option<seq<Program>>)
    ensures r.Some? <==>
      data.Some? && (data.value.JArray? || (data.value.JObject? && data.value.programs.Some? && data.value.programs.value.JArray?))
    ensures r.Some? && data.value.JArray? ==> r.value == data.value.items
    ensures r.Some? && data.value.JObject? ==> r.value == data.value.programs.value.items
  {
    if data.None? then None
    else match data.value
      case JArray(items) => Some(items)
      case JObject(Some(JArray(items))) => Some(items)
      case _ => None
  }

  // ---- Selecting and exporting ----

  /** `toggleProgramSelection`: the id is added when absent and removed when present;
      no other id changes. */
  function Toggle(sel: set<Id>, id: Id): (r: set<Id>)
    ensures id in r <==> id !in sel
    ensures r - {id} == sel - {id}
  {
    if id in sel then sel - {id} else sel + {id}
  }

  /** Toggling twice restores the selection. */
  lemma ToggleTwice(sel: set<Id>, id: Id)
    ensures Toggle(Toggle(sel, id), id) == sel
  {
  }

  /** The ids of a list. */
  function IdsOf(programs: seq<Program>): set<Id> {
    set k | 0 <= k < |programs| :: programs[k].id
  }

  /** `selectAllPrograms`: every listed id joins the selection, which keeps what it had. */
  function SelectAll(sel: set<Id>, programs: seq<Program>): (r: set<Id>)
    ensures sel <= r
    ensures forall k :: 0 <= k < |programs| ==> programs[k].id in r
    ensures forall id :: id in r ==> id in sel || exists k :: 0 <= k < |programs| && programs[k].id == id
  {
    sel + IdsOf(programs)
  }

  /** `deselectAllPrograms`: the selection is emptied. */
  function DeselectAll(sel: set<Id>): (r: set<Id>)
    ensures |r| == 0
  {
    {}
  }

  /** The export button is enabled exactly when something is selected. */
  function ExportEnabled(sel: set<Id>): (r: bool)
    ensures r <==> sel != {}
  {
    |sel| != 0
  }

  /** `filter(program => selectedPrograms.has(program.id))` */
  function Selected(programs: seq<Program>, sel: set<Id>): (r: seq<Program>)
    ensures |r| <= |programs|
    ensures forall k :: 0 <= k < |r| ==> r[k].id in sel
  {
    if |programs| == 0 then []
    else (if programs[0].id in sel then [programs[0]] else []) + Selected(programs[1..], sel)
  }

  /** A program is exported exactly when it is listed and its id is selected. */
  lemma {:induction false} SelectedMembers(programs: seq<Program>, sel: set<Id>, p: Program)
    ensures p in Selected(programs, sel) <==> p in programs && p.id in sel
  {
    if |programs| > 0 {
      SelectedMembers(programs[1..], sel, p);
      assert programs == [programs[0]] + programs[1..];
    }
  }

  /** The filter works piecewise, so the exported programs keep the stored order. */
  lemma {:induction false} SelectedAppend(a: seq<Program>, b: seq<Program>, sel: set<Id>)
    ensures Selected(a + b, sel) == Selected(a, sel) + Selected(b, sel)
  {
    if |a| == 0 {
      assert a + b == b;
    } else {
      assert (a + b)[1..] == a[1..] + b;
      SelectedAppend(a[1..], b, sel);
    }
  }

  /** When every listed id is selected, the whole list is exported. */
  lemma {:induction false} SelectedAll(programs: seq<Program>, sel: set<Id>)
    requires forall k :: 0 <= k < |programs| ==> programs[k].id in sel
    ensures Selected(programs, sel) == programs
  {
    if |programs| > 0 {
      SelectedAll(programs[1..], sel);
      assert programs == [programs[0]] + programs[1..];
    }
  }

  /** The number of exercises over a list of programs. */
  function ExerciseTotal(programs: seq<Program>): (r: nat)
    ensures |programs| == 0 ==> r == 0
  {
    if |programs| == 0 then 0 else |programs[0].exercises| + ExerciseTotal(programs[1..])
  }

  /** The exercise total adds up over the pieces of a list. */
  lemma {:induction false} ExerciseTotalAppend(a: seq<Program>, b: seq<Program>)
    ensures ExerciseTotal(a + b) == ExerciseTotal(a) + ExerciseTotal(b)
  {
    if |a| == 0 {
      assert a + b == b;
    } else {
      assert (a + b)[1..] == a[1..] + b;
      ExerciseTotalAppend(a[1..], b);
    }
  }

  /** The exported file: the programs and the metadata counts. */
  datatype ExportData = ExportData(programs: seq<Program>, totalPrograms: nat, totalExercises: nat)

  /** `exportSelectedPrograms`: refused when nothing is selected; otherwise the
      selected stored programs in stored order, with their count and exercise total. */
  function Export(programs: seq<Program>, sel: set<Id>): (r: Option<ExportData>)
    ensures r.None? <==> sel == {}
    ensures r.Some? ==> r.value.programs == Selected(programs, sel)
    ensures r.Some? ==> r.value.totalPrograms == |r.value.programs| <= |programs|
    ensures r.Some? ==> r.value.totalExercises == ExerciseTotal(r.value.programs)
  {
    if |sel| == 0 then None
    else
      var chosen := Selected(programs, sel);
      Some(ExportData(chosen, |chosen|, ExerciseTotal(chosen)))
  }

  /** The file an export writes, as the import reads it back: an object whose
      `programs` field holds the array. */
  function ExportJson(d: ExportData): (r: Json)
    ensures r.JObject?
  {
    JObject(Some(JArray(d.programs)))
  }

  /** An exported file is accepted by the import and offers exactly the exported
      programs; after "select all" those are all the stored programs. */
  lemma ExportThenImport(programs: seq<Program>, sel: set<Id>)
    requires sel != {}
    ensures FilePrograms(Some(ExportJson(Export(programs, sel).value))) == Some(Selected(programs, sel))
    ensures FilePrograms(Some(ExportJson(Export(programs, SelectAll(sel, programs)).value))) == Some(programs)
  {
    var all := SelectAll(sel, programs);
    ReadBack(programs, sel);
    ReadBack(programs, all);
    SelectedAll(programs, all);
  }

  /** One export read back by the import. */
  lemma ReadBack(programs: seq<Program>, sel: set<Id>)
    requires sel != {}
    ensures FilePrograms(Some(ExportJson(Export(programs, sel).value))) == Some(Selected(programs, sel))
  {
  }

  // ---- Importing ----

  /** The default name of the `k`-th imported program. */
  function DefaultImportName(position: nat): string {
    "Imported Program " + NatToString(position + 1)
  }

  /** The name an imported program gets: the trimmed edit, else its own name, else
      "Imported Program k" for the k-th program. It is never empty. */
  function ImportName(edit: string, original: string, position: nat): (r: string)
    ensures r != ""
    ensures Trim(edit) != "" ==> r == Trim(edit)
    ensures Trim(edit) == "" && original != "" ==> r == original
    ensures Trim(edit) == "" && original == "" ==> r == DefaultImportName(position)
  {
    TextOr(Trim(edit), TextOr(original, DefaultImportName(position)))
  }

  /** The id exercise `k` of an imported program gets: the program's new id, a dash,
      and `k`. */
  function ExerciseId(newId: string, k: nat): string {
    newId + "-" + NatToString(k)
  }

  /** Two exercises of one program never get the same id. */
  lemma ExerciseIdInjective(newId: string, a: nat, b: nat)
    requires ExerciseId(newId, a) == ExerciseId(newId, b)
    ensures a == b
  {
    var s := ExerciseId(newId, a);
    assert s[|newId| + 1..] == NatToString(a);
    assert ExerciseId(newId, b)[|newId| + 1..] == NatToString(b);
    NatToStringInjective(a, b);
  }

  /** No two exercises share an id. */
  predicate DistinctExerciseIds(exercises: seq<Exercise>) {
    forall i, j :: 0 <= i < j < |exercises| ==> exercises[i].id != exercises[j].id
  }

  /** The exercises of an imported program, each re-identified by its position: only
      the ids change, each takes the program's new id as its prefix, and no two are
      the same. */
  function Renumbered(exercises: seq<Exercise>, newId: string): (r: seq<Exercise>)
    ensures |r| == |exercises|
    ensures forall k :: 0 <= k < |r| ==> r[k] == exercises[k].(id := r[k].id)
    ensures forall k :: 0 <= k < |r| ==> |r[k].id| > |newId| && r[k].id[..|newId| + 1] == newId + "-"
    ensures DistinctExerciseIds(r)
  {
    var r := seq(|exercises|, k requires 0 <= k < |exercises| => exercises[k].(id := ExerciseId(newId, k)));
    forall i, j | 0 <= i < j < |r| ensures r[i].id != r[j].id {
      if ExerciseId(newId, i) == ExerciseId(newId, j) {
        ExerciseIdInjective(newId, i, j);
      }
    }
    r
  }

  /** One program of the preview as the import rebuilds it, before name clashes are
      resolved: a new id, a name that is never empty, exercises with distinct ids, a
      new time stamp; the other fields stay. */
  function Imported(p: Program, edit: string, position: nat, newId: string, createdAt: string): (r: Program)
    ensures r.id == StrId(newId) && r.createdAt == createdAt && r.customRest == p.customRest
    ensures r.name != "" && (Trim(edit) != "" ==> r.name == Trim(edit))
    ensures Trim(edit) == "" && p.name != "" ==> r.name == p.name
    ensures |r.exercises| == |p.exercises| && DistinctExerciseIds(r.exercises)
    ensures forall k :: 0 <= k < |r.exercises| ==> r.exercises[k] == p.exercises[k].(id := r.exercises[k].id)
  {
    p.(id := StrId(newId), name := ImportName(edit, p.name, position),
       exercises := Renumbered(p.exercises, newId), createdAt := createdAt)
  }

  /** The whole preview rebuilt, with one name field, one generated id and one time
      stamp per program (the clock is read once per program): one program per preview
      entry, in order, each under its generated id and stamp, with a non-empty name and
      exercises with distinct ids. */
  function Prepared(preview: seq<Program>, edits: seq<string>, newIds: seq<string>, createdAts: seq<string>): (r: seq<Program>)
    requires |edits| == |preview| && |newIds| == |preview| && |createdAts| == |preview|
    ensures |r| == |preview|
    ensures forall k :: 0 <= k < |r| ==>
      r[k].id == StrId(newIds[k]) && r[k].name != "" && r[k].createdAt == createdAts[k]
      && |r[k].exercises| == |preview[k].exercises| && DistinctExerciseIds(r[k].exercises)
    ensures forall k :: 0 <= k < |r| && Trim(edits[k]) != "" ==> r[k].name == Trim(edits[k])
  {
    seq(|preview|, k requires 0 <= k < |preview| => Imported(preview[k], edits[k], k, newIds[k], createdAts[k]))
  }

  // ---- Resolving name clashes ----

  /** The `j`-th name tried for `name`: the name itself, then "name (j)". */
  function Candidate(name: string, j: nat): (r: string)
    ensures j == 0 ==> r == name
    ensures j > 0 ==> |r| >= |name| + 4
  {
    if j == 0 then name else name + " (" + NatToString(j) + ")"
  }

  /** The names tried are pairwise different. */
  lemma CandidateInjective(name: string, a: nat, b: nat)
    requires Candidate(name, a) == Candidate(name, b)
    ensures a == b
  {
    if a > 0 && b > 0 {
      var s := Candidate(name, a);
      assert s[|name| + 2..|s| - 1] == NatToString(a);
      var t := Candidate(name, b);
      assert t[|name| + 2..|t| - 1] == NatToString(b);
      NatToStringInjective(a, b);
    }
  }

  /** The names `f(j)` for the numbers `j` below `c`. */
  function Image(f: nat -> string, c: nat): set<string> {
    set j: nat | j < c :: f(j)
  }

  /** A naming that gives different numbers different names names `c` numbers with
      `c` different names. */
  lemma {:induction false} ImageCount(f: nat -> string, c: nat)
    requires forall i: nat, j: nat :: i < j < c ==> f(i) != f(j)
    ensures |Image(f, c)| == c
  {
    if c > 0 {
      ImageCount(f, c - 1);
      ImageCountStep(f, c);
    }
  }

  lemma ImageCountStep(f: nat -> string, c: nat)
    requires c > 0 && |Image(f, c - 1)| == c - 1
    requires forall i: nat, j: nat :: i < j < c ==> f(i) != f(j)
    ensures |Image(f, c)| == c
  {
    ImageFresh(f, c);
    ImageStep(f, c);
    AddFresh(Image(f, c - 1), f(c - 1));
  }

  lemma AddFresh(s: set<string>, x: string)
    requires x !in s
    ensures |s + {x}| == |s| + 1
  {
  }

  /** The image grows by the next name. */
  lemma ImageStep(f: nat -> string, c: nat)
    requires c > 0
    ensures Image(f, c) == Image(f, c - 1) + {f(c - 1)}
  {
    var prev, next := Image(f, c - 1), Image(f, c);
    forall x | x in next ensures x in prev + {f(c - 1)} {
      var j: nat :| j < c && x == f(j);
      if j < c - 1 {
        assert x in prev;
      }
    }
    forall x | x in prev ensures x in next {
      var j: nat :| j < c - 1 && x == f(j);
      assert j < c;
    }
  }

  /** Under a naming that gives different numbers different names, the next name is
      not among the earlier ones. */
  lemma ImageFresh(f: nat -> string, c: nat)
    requires c > 0
    requires forall i: nat, j: nat :: i < j < c ==> f(i) != f(j)
    ensures f(c - 1) !in Image(f, c - 1)
  {
    var prev := Image(f, c - 1);
    forall x | x in prev ensures x != f(c - 1) {
      var j: nat :| j < c - 1 && x == f(j);
      assert j < c - 1 < c;
    }
  }

  /** The name tried for each number. */
  function Candidates(name: string): nat -> string {
    (j: nat) => Candidate(name, j)
  }

  /** The first `c` names tried. */
  function Tried(name: string, c: nat): set<string> {
    Image(Candidates(name), c)
  }

  /** The first `c` names tried are `c` different names. */
  lemma TriedCount(name: string, c: nat)
    ensures |Tried(name, c)| == c
  {
    var f := Candidates(name);
    forall i: nat, j: nat | i < j < c ensures f(i) != f(j) {
      if Candidate(name, i) == Candidate(name, j) {
        CandidateInjective(name, i, j);
      }
    }
    ImageCount(f, c);
  }

  /** When the first `c` names tried are all taken, there are at least `c` names. */
  lemma TriedWithin(name: string, names: set<string>, c: nat)
    requires forall j: nat :: j < c ==> Candidate(name, j) in names
    ensures c <= |names|
  {
    TriedCount(name, c);
    assert names == Tried(name, c) + (names - Tried(name, c));
  }

  /** The `while` loop of `confirmImport`: from the `c`-th name tried on, the first one
      not taken. It exists because only finitely many names are taken. */
  function FreeIndex(name: string, names: set<string>, c: nat): (k: nat)
    requires forall j: nat :: j < c ==> Candidate(name, j) in names
    ensures c <= k && Candidate(name, k) !in names
    ensures forall j: nat :: j < k ==> Candidate(name, j) in names
    decreases |names| - c
  {
    if Candidate(name, c) !in names then c
    else
      TriedWithin(name, names, c + 1);
      FreeIndex(name, names, c + 1)
  }

  /** The name a program is stored under: its own when that is free, otherwise
      "name (k)" for the least `k >= 1` whose name is free. */
  function FinalName(name: string, names: set<string>): (r: string)
    ensures r !in names
    ensures name !in names ==> r == name
    ensures name in names ==>
      exists k: nat :: k >= 1 && r == Candidate(name, k) && forall j: nat :: 1 <= j < k ==> Candidate(name, j) in names
  {
    Candidate(name, FreeIndex(name, names, 0))
  }

  /** The names of a list. */
  function NamesOf(programs: seq<Program>): set<string> {
    set k | 0 <= k < |programs| :: programs[k].name
  }

  /** The renaming as written: every imported program is checked against the programs
      stored before the import, and never against the other programs of the batch. */
  function DedupeAsWritten(existing: seq<Program>, batch: seq<Program>): (r: seq<Program>)
    ensures |r| == |batch|
    ensures forall k :: 0 <= k < |r| ==> r[k] == batch[k].(name := r[k].name)
    ensures forall k :: 0 <= k < |r| ==> r[k].name !in NamesOf(existing)
    ensures forall k :: 0 <= k < |r| && batch[k].name !in NamesOf(existing) ==> r[k].name == batch[k].name
    ensures forall i, j :: 0 <= i < |r| && 0 <= j < |r| && batch[i].name == batch[j].name ==>
      r[i].name == r[j].name
  {
    seq(|batch|, k requires 0 <= k < |batch| => batch[k].(name := FinalName(batch[k].name, NamesOf(existing))))
  }

  /** Two programs of one file with the same name, imported into an empty list, are
      both stored under that name. */
  lemma BatchDuplicatesAsWritten()
    ensures var p := Program(StrId("a"), "Legs", [], map[], "");
      var r := Merge([], [p, p]);
      r[0].name == "Legs" && r[1].name == "Legs" && !DistinctNames(r)
  {
    var p := Program(StrId("a"), "Legs", [], map[], "");
    assert NamesOf([]) == {};
    var r := Merge([], [p, p]);
    assert r[0].name == r[1].name;
  }

  /** The renaming as evidently intended: each program is checked against the stored
      names and the names given to the programs before it in the batch. */
  function Dedupe(names: set<string>, batch: seq<Program>): (r: seq<Program>)
    ensures |r| == |batch|
    ensures forall k :: 0 <= k < |r| ==> r[k] == batch[k].(name := r[k].name)
    ensures forall k :: 0 <= k < |r| ==> r[k].name !in names
    ensures DistinctNames(r)
    decreases |batch|
  {
    if |batch| == 0 then []
    else
      var n := FinalName(batch[0].name, names);
      var rest := Dedupe(names + {n}, batch[1..]);
      var r := [batch[0].(name := n)] + rest;
      assert forall k :: 1 <= k < |r| ==> r[k] == rest[k - 1];
      r
  }

  /** The merge of `confirmImport` as written: the stored programs followed by the
      renamed batch, in order, each imported program under a name no stored program
      has. */
  function Merge(existing: seq<Program>, batch: seq<Program>): (r: seq<Program>)
    ensures |r| == |existing| + |batch| && r[..|existing|] == existing
    ensures forall k :: |existing| <= k < |r| ==>
      r[k] == batch[k - |existing|].(name := r[k].name) && r[k].name !in NamesOf(existing)
  {
    var d := DedupeAsWritten(existing, batch);
    assert (existing + d)[..|existing|] == existing;
    existing + d
  }

  /** The merge with the corrected renaming. */
  function MergeCorrected(existing: seq<Program>, batch: seq<Program>): (r: seq<Program>)
    ensures |r| == |existing| + |batch| && r[..|existing|] == existing
    ensures forall k :: |existing| <= k < |r| ==>
      r[k] == batch[k - |existing|].(name := r[k].name) && r[k].name !in NamesOf(existing)
  {
    var d := Dedupe(NamesOf(existing), batch);
    assert (existing + d)[..|existing|] == existing;
    existing + d
  }

  /** Appending the batch with the corrected renaming to a list of distinct names keeps
      the names distinct. */
  lemma MergeKeepsNamesDistinct(existing: seq<Program>, batch: seq<Program>)
    requires DistinctNames(existing)
    ensures DistinctNames(MergeCorrected(existing, batch))
  {
    var d := Dedupe(NamesOf(existing), batch);
    var m := MergeCorrected(existing, batch);
    assert m == existing + d;
    forall i, j | 0 <= i < j < |m| ensures m[i].name != m[j].name {
      if j >= |existing| {
        assert m[j] == d[j - |existing|];
        if i < |existing| {
          assert m[i] == existing[i] && m[i].name in NamesOf(existing);
        } else {
          assert m[i] == d[i - |existing|];
        }
      } else {
        assert m[i] == existing[i] && m[j] == existing[j];
      }
    }
  }

  /** `confirmImport` as written: nothing to import without a preview; a stored list
      that cannot be parsed makes the import fail; otherwise the stored programs
      followed by the rebuilt, renamed preview, each under a name no stored program
      has. */
  function ConfirmImport(stored: Stored, preview: Option<seq<Program>>, edits: seq<string>,
                         newIds: seq<string>, createdAts: seq<string>): (r: Option<seq<Program>>)
    requires preview.Some? ==>
      |edits| == |preview.value| && |newIds| == |preview.value| && |createdAts| == |preview.value|
    ensures r.Some? <==> preview.Some? && !stored.Corrupt?
    ensures r.Some? ==> |r.value| == |LoadAll(stored)| + |preview.value|
    ensures r.Some? ==> r.value[..|LoadAll(stored)|] == LoadAll(stored)
    ensures r.Some? ==> forall k :: |LoadAll(stored)| <= k < |r.value| ==>
      r.value[k].id == StrId(newIds[k - |LoadAll(stored)|])
      && r.value[k].createdAt == createdAts[k - |LoadAll(stored)|]
      && r.value[k].name !in NamesOf(LoadAll(stored))
  {
    if preview.None? || stored.Corrupt? then None
    else Some(Merge(LoadAll(stored), Prepared(preview.value, edits, newIds, createdAts)))
  }

  /** `confirmImport` with the corrected renaming: a library whose names are distinct
      keeps them distinct. */
  function ConfirmImportCorrected(stored: Stored, preview: Option<seq<Program>>, edits: seq<string>,
                                  newIds: seq<string>, createdAts: seq<string>): (r: Option<seq<Program>>)
    requires preview.Some? ==>
      |edits| == |preview.value| && |newIds| == |preview.value| && |createdAts| == |preview.value|
    ensures r.Some? <==> preview.Some? && !stored.Corrupt?
    ensures r.Some? ==> |r.value| == |LoadAll(stored)| + |preview.value|
    ensures r.Some? ==> r.value[..|LoadAll(stored)|] == LoadAll(stored)
    ensures r.Some? && DistinctNames(LoadAll(stored)) ==> DistinctNames(r.value)
  {
    if preview.None? || stored.Corrupt? then None
    else
      var batch := Prepared(preview.value, edits, newIds, createdAts);
      var m := MergeCorrected(LoadAll(stored), batch);
      assert DistinctNames(LoadAll(stored)) ==> DistinctNames(m) by {
        if DistinctNames(LoadAll(stored)) { MergeKeepsNamesDistinct(LoadAll(stored), batch); }
      }
      Some(m)
  }
}

=== FILE: workout.dfy ===
/** The stored, JSON-shaped records of the application: programs, exercises and moves,
    as they sit in the `allPrograms` store, plus the fixed colour and sound palettes.

    A stored numeric field is a `Num`: `Some(n)` when `parseInt` reads the integer `n`
    from it, `None` when it reads nothing (a missing field, text, `NaN`). A stored
    string that is absent or empty is the empty string; every reader in the
    application treats those two alike. */
module Workout {
  import opened Options
  import opened Text

  type Num = Option<int>

  /** Program ids: `Date.now()` numbers for programs created in the app, generated
      strings for imported ones. JavaScript's `===` on them is equality here. */
  datatype Id = NumId(n: int) | StrId(s: string)

  datatype Move = Move(name: string, duration: Num, color: string)

  datatype Exercise = Exercise(
    id: string,
    name: string,
    setCount: Num,
    repCount: Num,
    moveCount: Num,
    moves: Option<seq<Move>>,
    restBetweenMoves: Num,
    restBetweenSets: Num,
    restBetweenMovesEnabled: bool,
    moveColor: string,
    restColor: string,
    setRestColor: string)

  /** `Array.isArray(exercise.moves) ? exercise.moves : []`: the stored moves, none
      when the record has no moves array. */
  function StoredMoves(ex: Exercise): seq<Move> {
    if ex.moves.Some? then ex.moves.value else []
  }

  /** `customRest` maps an exercise position to the rest, in seconds, taken after it. */
  datatype Program = Program(
    id: Id,
    name: string,
    exercises: seq<Exercise>,
    customRest: map<int, int>,
    createdAt: string)

  /** `parseInt(x) > 0 ? parseInt(x) : 1` */
  function PositiveOr1(n: Num): (r: int)
    ensures r >= 1
    ensures n.Some? && n.value > 0 ==> r == n.value
    ensures !(n.Some? && n.value > 0) ==> r == 1
  {
    if n.Some? && n.value > 0 then n.value else 1
  }

  /** `parseInt(x) || 0`: `NaN` and zero are both falsy. */
  function OrZero(n: Num): int {
    if n.Some? then n.value else 0
  }

  /** `parseInt(x) || 1` */
  function OrOne(n: Num): int {
    if n.Some? && n.value != 0 then n.value else 1
  }

  /** `s || d` on a string field. */
  function TextOr(s: string, d: string): string {
    if s != "" then s else d
  }

  /** The numeric comparison `x > 0` on a stored value; `NaN > 0` is false. */
  predicate Positive(n: Num) { n.Some? && n.value > 0 }

  /** How many times `for (i = 1; i <= n; i++)` runs: a count that is not a positive
      number runs no iteration. */
  function LoopCount(n: Num): (c: nat)
    ensures c > 0 <==> Positive(n)
    ensures Positive(n) ==> c == n.value
  {
    if n.Some? && n.value > 0 then n.value else 0
  }

  /** The five colour keys of the palette. */
  const Palette: set<string> := {"blue", "green", "purple", "orange", "pink"}

  /** Looks a colour key up in the palette, falling back to the given key. */
  function PaletteOr(key: string, fallback: string): (r: string)
    ensures key in Palette ==> r == key
    ensures key !in Palette ==> r == fallback
  {
    if key in Palette then key else fallback
  }

  /** The ten named sounds. */
  const Sounds: set<string> :=
    {"beep", "bell", "chime", "success", "whistle", "gong", "buzz", "cheer", "motivation", "energy"}

  /** The sound `playSound(name)` actually plays: an unknown name plays the beep. */
  function Resolve(name: string): (r: string)
    ensures r in Sounds
    ensures name in Sounds ==> r == name
    ensures name !in Sounds ==> r == "beep"
  {
    if name in Sounds then name else "beep"
  }

  /** The user's sound choices, one per event; "" when a choice is absent. */
  datatype AudioSettings = AudioSettings(
    moveEnd: string, restEnd: string, setEnd: string, exerciseEnd: string, restStart: string)

  /** The settings the application starts with. */
  const DefaultAudio := AudioSettings("beep", "bell", "chime", "success", "whistle")

  /** A step's end-of-step sound slot. */
  datatype SoundSlot = MoveEnd | RestEnd | SetEnd

  /** `audioSettings[slot]` */
  function SlotChoice(a: AudioSettings, slot: SoundSlot): string {
    match slot
    case MoveEnd => a.moveEnd
    case RestEnd => a.restEnd
    case SetEnd => a.setEnd
  }

  /** The key name of a slot, the string the source uses to index the settings. */
  function SlotKey(slot: SoundSlot): string {
    match slot
    case MoveEnd => "moveEnd"
    case RestEnd => "restEnd"
    case SetEnd => "setEnd"
  }

  /** What an engine emits to the presentation side: a sound or a spoken word. */
  datatype Cue = Play(sound: string) | Say(word: string)

  /** The spoken countdown word for the last five seconds of a rest. */
  function CountdownWord(n: int): (r: Option<string>)
    ensures r.Some? <==> 1 <= n <= 5
  {
    if n == 5 then Some("five")
    else if n == 4 then Some("four")
    else if n == 3 then Some("three")
    else if n == 2 then Some("two")
    else if n == 1 then Some("one")
    else None
  }

  /** The words 1..5 are pairwise distinct, so a word names its second. */
  lemma CountdownWordInjective(a: int, b: int)
    requires CountdownWord(a).Some? && CountdownWord(a) == CountdownWord(b)
    ensures a == b
  {
  }

  /** One tick of the spoken countdown: on a rest step with `0 < remaining <= 5` and
      a value not announced yet by this driver, say its word and remember it. */
  function Announce(isRest: bool, remaining: int, last: Option<int>): (r: (Option<string>, Option<int>))
    ensures r.0.Some? <==> isRest && 0 < remaining <= 5 && last != Some(remaining)
    ensures r.0.Some? ==> r.0 == CountdownWord(remaining) && r.1 == Some(remaining)
    ensures r.0.None? ==> r.1 == last
  {
    if isRest && remaining > 0 && remaining <= 5 && last != Some(remaining) then
      (CountdownWord(remaining), Some(remaining))
    else (None, last)
  }
}
